=== FILE: README.md ===
# structproto in Dafny

A model of the core of `structproto`, a Go library that binds loosely typed
input onto the fields of a struct. The input can be string tokens, byte
slices, `interface{}` values or name→value maps. Each field carries metadata
taken from its struct tag: a name, flags such as `required`, and a
description. The model covers five parts:

- **The sorted string set `FieldFlagSet`** (`flagset.dfy`). It holds both the
  flags of each field and the registry's required names. The model proves it
  stays strictly ascending, that search works on it, and what insertion and
  removal do.
- **Tag parsing and registration** (`fieldinfo.dfy`, `tagresolver.dfy`,
  `registry.dfy`). This covers the two tag resolvers and the choice between
  them. It also covers the pointer walk of `Resolve` and the fold that
  builds the name→field index and the required set, with or without the
  duplicate-name check.
- **The binding orchestrator** (`binding.dfy`, `context.dfy`). This covers
  the name/value folds `BindFields`/`BindChan`/`BindIterator`/`BindMap`, the
  Init/Bind/Deinit protocol of `Bind` and `Map`, `Visit`, and the read-only
  context view of a resolved struct, including the required-name check over
  a stream of observed names.
- **The value-coercion engine** (`valuebinder.dfy`, `reflecting.dfy`,
  `converters.dfy`). This covers the scalar, string and bytes binders: direct
  assignment, then allocation of nil pointer links (`AssignZero`), then an
  `Unmarshaler` hook or the known-type table, then dispatch on primitive
  kind. It also covers slice and map recursion and the three byte
  converters.
- **The binding errors** (`errors.dfy`), with their 24-character value
  preview and `Unwrap`.

Go reflection is replaced by explicit datatypes:
- `GoType` describes a destination type. `Value` is the content of a slot.
- `Input` is a dynamically typed input: `Nil`, or a type paired with a value.
- A struct is a sequence of `Slot`s, each a field declaration with its
  content.

The model contains no mutable state. Every operation that writes through a
`reflect.Value` instead returns the new content of the slot. "Nothing is
written on failure" becomes "the returned content equals the content
before the call". This holds modulo pointer links that `AssignZero`
allocated. The Go code makes those allocations before any conversion, so
they persist in the model too.

The routines the library borrows from elsewhere are fields of the `Env`
datatype. They are the generic conversion library's `Bool`, `String`,
`Int64`, `Uint64`, `Float64`, `Duration` and `Time`, the `net.IP` and
`url.URL` converters, and user `UnmarshalStruct` methods. Each returns a
`Result`, and the model says nothing about them beyond their results. A
user-supplied tag resolver is a `Custom` function in the same way. A
value-binder provider is a function from a slot's type and content to an
optional binder.

Go's map iteration order is not specified. `Bind`, `Visit`, `BindMap` and
`FieldNames` therefore take an `order` parameter that enumerates the map's
keys. Their contracts hold for every such order. The channel behind
`BindChan` and the iterator behind `BindIterator` are the finite sequence of
what they deliver.

Go's 64-bit integer conversions are modelled explicitly. A converted
integer is stored wrapped to the width of the destination kind
(`WrapSigned`/`WrapUnsigned`, two's complement), as Go's `SetInt`/`SetUint`
store it.

## Model

| member | source | states |
|---|---|---|
| FlagSet.IndexOf | fieldFlagSet.go:79-90 | the binary search gives an index holding `v` when `v` is present and -1 exactly when it is absent, the empty set included |
| FlagSet.Search | fieldFlagSet.go:79-90 | the search position splits the set: every element before it is less than `v`, none from it on is |
| FlagSet.SearchFindsMember | fieldFlagSet.go:79-90 | on a sorted set, the search position holds `v` exactly when `v` is an element |
| FlagSet.Has | fieldFlagSet.go:75-77 | `has(v)` holds exactly when `v` is an element |
| FlagSet.Get | fieldFlagSet.go:50-58 | `(set[i], true)` for an index in range, and `("", false)` for any other index, negative ones included |
| FlagSet.Find | fieldFlagSet.go:60-73 | true exactly when some element satisfies the predicate, so false on the empty set |
| FlagSet.Insert | fieldFlagSet.go:17-34 | inserting one value keeps the set strictly ascending; the elements become the old ones plus the value; a present value changes nothing and an absent one adds exactly one element |
| FlagSet.InsertAt | fieldFlagSet.go:26-33 | putting an absent value at its search position keeps the sequence strictly ascending and adds exactly that value |
| FlagSet.Append | fieldFlagSet.go:14-37 | after `append(vs...)` the set is strictly ascending and holds exactly the old elements and the values of `vs` |
| FlagSet.AppendPresent | fieldFlagSet.go:14-37 | appending only values that are already present leaves the set unchanged |
| FlagSet.RemoveIndex | fieldFlagSet.go:130-143 | in range: reports `(true, set[i])` and removes exactly that element, the rest keeping their order; out of range: reports `(false, "")` and keeps the set |
| FlagSet.Remove | fieldFlagSet.go:121-128 | reports whether `v` was present, and afterwards the set holds exactly the other elements, still ascending |
| FlagSet.Clone | fieldFlagSet.go:39-48 | the copy equals the original element for element |
| FlagSet.IndexOfGet | fieldFlagSet.go:50-90 | reading back the position `indexOf` found for a present value yields that value and true |
| FlagSet.RemoveIndexOfFilters | fieldFlagSet.go:79-90 | removing at the position `indexOf` found equals filtering that one value out of the set |
| FlagSet.SortedUnique | fieldFlagSet.go:14-37 | two sorted sets with the same elements are equal, so the representation of a set is unique |
| FlagSet.SortedDistinct | fieldFlagSet.go:14-37 | a sorted set holds each string at most once |
| FlagSet.SortedTail | fieldFlagSet.go:130-143 | dropping the least element leaves a sorted set of exactly the other elements |
| FlagSet.LessTotal | fieldFlagSet.go:26-29 | Go's string comparison orders any two distinct strings one way or the other |
| FlagSet.LessTransitive | fieldFlagSet.go:26-29 | Go's string comparison is transitive |
| FieldInfos.AppendFlags | fieldInfoImpl.go:51-62 | the flags stay sorted and become the old flags plus the non-empty values; nothing else in the field changes |
| FieldInfos.AppendFlagsSkipsEmpty | fieldInfoImpl.go:56-59 | the flags of the tag `REMARK,flag1,flag2,,` come out as exactly `[flag1, flag2]` |
| FieldInfos.AppendFlagsPresent | fieldInfoImpl.go:52-54 | appending no new value (none, empty ones, or present ones) leaves the field unchanged |
| FieldInfos.HasFlag | fieldInfoImpl.go:42-44 | holds exactly when the value is among the field's flags |
| FieldInfos.FindFlag | fieldInfoImpl.go:37-39 | holds exactly when some flag satisfies the predicate, and never for a field without flags |
| FieldInfos.TagGet | structProtoResolver.go:114-119 | the struct tag lookup returns the value of the first pair with the key, and "" when no pair has it |
| TagResolvers.Split | tagresolver/stdTagResolver.go:17-21 | splitting yields at least one part and no part contains the separator |
| TagResolvers.JoinSplit | tagresolver/stdTagResolver.go:17-21 | joining the parts with the separator gives back the split string |
| TagResolvers.SplitJoin | tagresolver/stdTagResolver.go:17-21 | splitting a join of separator-free parts gives back the parts |
| TagResolvers.SplitFirst | tagresolver/stdTagResolver.go:14-16 | cutting at the first occurrence of a character: absent exactly when the character is absent, and the text before the cut does not contain it |
| TagResolvers.StdTagResolver | tagresolver/stdTagResolver.go:12-55 | an empty token gives no tag and no error; a produced tag is never named "" or "-"; the only error is an unknown attribute symbol taken from the token |
| TagResolvers.StdDescription | tagresolver/stdTagResolver.go:14-20 | the description is everything after the first `;`, and empty without one |
| TagResolvers.StdExplicitFlags | tagresolver/stdTagResolver.go:17-52 | with explicit flags resolution never fails: the name is the first comma part (a leading `*` kept), the flags are the other parts in order, the field is skipped exactly when the name is "" or "-", and the tag joins back to the token |
| TagResolvers.StdLeadingSymbols | tagresolver/stdTagResolver.go:23-52 | without explicit flags, each leading `*` adds one `required` flag and the name starts at the first identifier character; any other leading symbol is an error naming that symbol; a bare `-` skips the field |
| TagResolvers.ScanClosedForm | tagresolver/stdTagResolver.go:27-41 | the character scan stops at the first non-`*`: an identifier character starts the name, anything else is an unknown-symbol error |
| TagResolvers.Scan | tagresolver/stdTagResolver.go:24-41 | from its start position, the scan passes only `*` characters; it succeeds with the rest of the name from the first identifier character (or the whole name when it is all stars), and fails with the unknown-symbol error of the first character that is neither |
| TagResolvers.LeadingStarsSpan | tagresolver/stdTagResolver.go:27-41 | the count of leading stars covers exactly the stars before the first other character |
| TagResolvers.NoneTagResolver | tagresolver/noneTagResolver.go:7-12 | always a tag and never an error; its name is the Go field name, whatever the token; no flags, hence never required, and no description |
| Registry.NewStructProtoResolver | structProtoResolver.go:17-40 | an explicit tag resolver is kept; without one, the standard resolver is chosen exactly when the tag name is non-empty and the none resolver exactly when it is empty |
| Registry.GetTagContent | structProtoResolver.go:114-119 | an empty tag name yields the empty token; otherwise the token is the struct tag's value for that name |
| Registry.ResolveTag | structProtoResolver.go:85 | the none resolver gives the Go field name with no flags or description; the standard resolver gives nothing for an empty token, never a tag named "" or "-", and only an unknown-symbol error whose symbol comes from the token; a custom resolver's answer is passed on |
| Registry.Tags | structProtoResolver.go:82-85 | one resolver answer per declared field, from its Go name and token: with the none resolver a tag of the Go name, and with the standard resolver nothing for a field without a token |
| Registry.MakeField | structProtoResolver.go:90-97 | a registered field records its declaration index, Go name, resolved name, description and raw tag, and its flags are the tag's non-empty flags, sorted |
| Registry.Step | structProtoResolver.go:80-110 | one field's registration keeps the registry invariant; a resolver error is returned as it is, and success implies the resolver answered without error; it fails only with the resolver's error or, under the duplicate check, with the duplicate name and field |
| Registry.Register | structProtoResolver.go:80-111 | the registration loop keeps the registry invariant to the end; success implies every remaining resolver answer was not an error; it fails only with some field's resolver error or duplicate name |
| Registry.StepSucceeds | structProtoResolver.go:85-105 | a field whose resolver answers without error, and whose name is new under the duplicate check, is registered without error |
| Registry.RegisterStopsAt | structProtoResolver.go:82-88 | the loop returns exactly the error of the first field whose resolver fails, when no duplicate name comes before it |
| Registry.RegisterRuns | structProtoResolver.go:82-111 | the loop succeeds when no remaining resolver answer is an error and, under the duplicate check, every name is new |
| Registry.RegisterStep | structProtoResolver.go:89-108 | registering a tagged field (replacing any earlier field of the same name, inserting a required name) keeps the invariant |
| Registry.RegisterSkip | structProtoResolver.go:89 | a field whose resolver returns no tag is not registered and the invariant still holds |
| Registry.StepFields | structProtoResolver.go:90-105 | after storing a field, each registered name maps to the last field resolved to it so far |
| Registry.StepRequired | structProtoResolver.go:106-108 | after storing a field, the required set is sorted, its names are registered and were flagged required, and every field flagged required has its name in it |
| Registry.StepDistinct | structProtoResolver.go:99-104 | under the duplicate check, storing a fresh name keeps the resolved names pairwise distinct |
| Registry.InternalResolve | structProtoResolver.go:78-112 | a successful registration is valid (sorted required set of registered names, each field at its own name and a real index, every required-flagged field in the set), keeps the struct's slots, and met no resolver error |
| Registry.ResolveTagError | structProtoResolver.go:85-88 | a resolver error aborts registration: the first field whose resolver fails decides the result, with exactly that error, when no duplicate name comes before it |
| Registry.ResolveSucceeds | structProtoResolver.go:78-112 | registration succeeds exactly when no resolver answer is an error and, under the duplicate check, every resolved name is new |
| Registry.RegisteredNames | structProtoResolver.go:89-105 | a name is registered exactly when some field resolved to it; its entry is the field of the last such declaration, with the metadata that field resolved to |
| Registry.IndexNames | structProtoResolver.go:89-105 | the names of the finished index are exactly the resolved names, each with its last field |
| Registry.RequiredExactly | structProtoResolver.go:99-108 | under the duplicate check, the required set is exactly the names whose field carries the `required` flag, and all resolved names are distinct |
| Registry.DuplicateRefused | structProtoResolver.go:99-104 | under the duplicate check, two fields resolving to the same name make registration fail |
| Registry.StaleRequiredName | structProtoResolver.go:99-108 | without the duplicate check a later field replaces an earlier one of the same name, but a required name the earlier field put in the required set stays there |
| Registry.TwoRegistered | structProtoResolver.go:89-108 | registering a required `ID` from field A and then a plain `ID` from field B keeps B's field, not required, while `ID` stays in the required set |
| Registry.NoneResolverRegistersAll | tagresolver/noneTagResolver.go:7-12 | with the none resolver the registered names are exactly the Go field names and nothing is required |
| Registry.NoneIndex | structProtoResolver.go:89-108 | when every field resolves to its Go name without flags, the index holds exactly those names and an empty required set |
| Registry.NoneResolverNeverFails | structProtoResolver.go:78-112 | with the none resolver and no duplicate check registration always succeeds |
| Registry.Resolve | structProtoResolver.go:42-76 | an invalid target is refused, a non-pointer non-struct target is refused, and a resolved struct is valid |
| Registry.Walk | structProtoResolver.go:55-75 | a resolved struct is valid, and once the walk has allocated a nil link, the struct it resolves is marked detached |
| Registry.ResolveValid | structProtoResolver.go:56-74 | every struct the pointer walk reaches is resolved into a valid registry |
| Registry.WalkDepth | structProtoResolver.go:56-74 | within 32 steps the walk follows (and allocates) every pointer link to the base and resolves it when it is a struct, and refuses it otherwise |
| Registry.WalkTooDeep | structProtoResolver.go:56-59 | a pointer chain that the 32-step budget does not cover ends with "exceed maximum processing calls" |
| Registry.ZeroTargetDepth | structProtoResolver.go:67-71 | a freshly allocated pointer chain has the depth of its type and ends at a fresh value of the base type |
| Binding.MakeFieldBinder | struct.go:154-160 | a binder only for a registered name, namely the provider's binder for that field's slot |
| Binding.Settle | struct.go:84-88 | after a name is bound, the pending required names are the old ones without it, still sorted |
| Binding.Feed | struct.go:73-99 | the loop keeps every slot's declaration and the pending set sorted; its properties are stated through `FeedIsLoop` and the lemmas below |
| Binding.FeedPending | struct.go:84-88 | a required name stays pending exactly until a successful bind of it |
| Binding.FeedBound | struct.go:76-88 | every bound name is registered and comes from an entry with a non-nil value that the loop reached and whose binder succeeded; with `FeedBindsAll`, the bound names are exactly those |
| Binding.UptoBoundBinds | struct.go:74-88 | a name bound by the forward run comes from an entry that the run reached and whose binder succeeded |
| Binding.UptoIgnored | struct.go:77-78 | with the ignore provider the forward run changes nothing and binds nothing |
| Binding.BindFieldsIgnored | struct.go:154-160 | with `BuildIgnoreBinder` no slot changes, nothing is bound, and the result is the least required name as missing, or no error when nothing is required |
| Binding.FeedErrors | struct.go:79-99 | no error leaves nothing pending; a missing-field error names the least pending name; a field error carries the name and raw value of a registered non-nil entry that the loop reached and whose binder returned exactly the error the field error wraps |
| Binding.FeedWritesNamedSlots | struct.go:76-83 | only the slot of a field named by some entry can change |
| Binding.BindFields | struct.go:64-100 | nil receiver: nothing; no provider: the provider error before any entry; otherwise the registry is untouched, only named slots change, bound names come from non-nil registered entries, the bound names are exactly those of entries the loop reached whose binder existed and succeeded, success means every required name was bound (and conversely, any other error is a field error), a missing-field error names the least unbound required name, and a field error is the error of the entry whose binder failed |
| Binding.BindIterator | struct.go:53-62 | a nil receiver returns nothing and a missing provider is reported before the iterator produces anything |
| Binding.BindMap | struct.go:45-51 | nil receiver: nothing; no provider: the provider error; whatever the iteration order, the bound names are exactly the keys the loop reached whose binder existed and succeeded, success means every required name is a key with a non-nil value, a missing-field error names the least unbound required name, and a field error carries a key and its value |
| Binding.Bind | struct.go:15-43 | a failing Init stops at once with its error; when every Bind call succeeds, the slots are those all calls left and the calls are Init, one Bind per field in iteration order, then Deinit, whose error is the result; otherwise the run stops at the first failing call with its error and no Deinit; the registry is untouched and nothing checks required names |
| Binding.FunctionStructBinder | functionStructBinder.go:14-26 | Init and Deinit never fail and Bind is exactly the mapper |
| Binding.Map | struct.go:140-145 | the run fails exactly when some call of the mapper does; without failure the mapper ran on every field and Deinit was called; a failure is the error of the first failing call, at which the run stopped; nothing else can fail |
| Binding.BindCalls | struct.go:29-35 | one Bind call per field name, in order |
| Binding.Visit | struct.go:147-152 | one visitor call per registered field, each with its name, the slot's content and its metadata |
| Binding.KeysCount | struct.go:147-152 | an enumeration of a map's keys has as many entries as the map |
| Binding.BindEach | struct.go:28-35 | the per-field loop keeps the number of slots and reports a failure at a position of the order |
| Binding.FeedStep | struct.go:74-90 | one entry: a nil value or a name without a binder changes nothing; the name is bound exactly when the value is non-nil and its binder exists and succeeds; only the slot of its field can change; a bound name is the entry's, registered, with a non-nil value; a failure is a field error with the entry's name and value, binding nothing; otherwise the pending names lose exactly the bound name |
| Binding.Upto | struct.go:74-91 | the loop run forward entry by entry keeps every slot's declaration and the pending set sorted |
| Binding.FeedUpto | struct.go:74-91 | running the first entries forward and then the rest is the whole loop, and a failure on the way is the loop's result |
| Binding.FeedIsLoop | struct.go:74-99 | the whole loop has the slots, bound names and pending set of the forward run, its first failure, or else the least pending name |
| Binding.UptoGrows | struct.go:74-91 | names bound by the first entries stay bound later |
| Binding.UptoFrame | struct.go:74-91 | a slot that no later entry names keeps its content |
| Binding.UptoWritesEntry | struct.go:77-83 | an entry whose binder succeeds leaves its field's slot holding what the binder produced |
| Binding.UptoBinds | struct.go:84-88 | an entry whose binder succeeds is the last name bound so far |
| Binding.FeedBindsReached | struct.go:77-88 | an entry the loop reaches, with a non-nil value and a binder that succeeds, is bound |
| Binding.FeedBindsAll | struct.go:77-88 | every entry the loop reaches and binds is bound |
| Binding.UptoFirstFailure | struct.go:79-82 | a failed forward run failed at a first entry the loop reached |
| Binding.FeedFailure | struct.go:79-82 | a field error is the error of the first failing entry's binder; the slots are those before it plus that binder's write, and the bound names are those before it |
| Binding.UptoNeverFails | struct.go:77-82 | with a provider that always has a binder that never fails, the loop never fails |
| Binding.BindFieldsNeverFails | struct.go:64-100 | with such a provider, the only possible error is a missing required name and every registered entry with a non-nil value is bound |
| Binding.BindFieldsSupplied | struct.go:64-100 | with such a provider and a non-nil value for every required name, binding succeeds |
| Binding.MapEntries | fieldValueMap.go:7-16 | the entries of a map in its iteration order, one per key with its value |
| Binding.BindMapBound | struct.go:45-51 | the names a map bind binds are exactly the keys, in iteration order, whose entry the loop reached and whose binder succeeded |
| Binding.BindMapSupplied | struct.go:45-51 | with such a provider, a map binds exactly when every required name is a key with a non-nil value; otherwise the error names a required name missing from the map or nil in it |
| Binding.Applied | struct.go:31-35 | the slots after a number of Bind calls keep the struct's number of slots |
| Binding.BindEachStep | struct.go:31-35 | one iteration: the call writes its field's slot, then the loop stops with its error or goes on |
| Binding.BindEachRuns | struct.go:31-35 | the loop ends without error only when every call succeeded, leaving the slots all calls left |
| Binding.BindEachStops | struct.go:31-35 | the loop stops at the first failing call, with that call's error |
| Binding.BindEachStopsSlots | struct.go:31-35 | a loop that stops leaves the slots the calls up to the failing one left |
| Binding.FirstFailureExtends | struct.go:31-35 | a succeeding call followed by a first failure moves the first failure back by one call |
| Binding.FirstFailureHere | struct.go:32-34 | a failing call is the first failure from itself on |
| Binding.SortedLeast | struct.go:94-98 | the first pending name is below every other pending name |
| Context.FieldAsWritten | structProtoContext.go:11-21 | as written: a registered name gives its slot and true, an unknown name dereferences a nil field pointer |
| Context.FieldAsWrittenPanics | structProtoContext.go:15-21 | an unknown name makes the lookup as written fail |
| Context.Field | structProtoContext.go:15-21 | as intended: true exactly for a registered name, with that field's slot; no slot and false otherwise |
| Context.FieldAgreesWhenRegistered | structProtoContext.go:15-21 | the lookup as written answers exactly for registered names, and then as intended |
| Context.FieldAfterBind | structProtoContext.go:15-21 | after a bind in which the loop reached an entry with a non-nil value whose binder succeeded, and no later entry names a field at the same index, `Field` reads back what that binder produced |
| Context.FieldNames | structProtoContext.go:23-29 | as intended: a slice with one entry per declared field; a non-empty entry is the name registered at that index, and a name that shares its index with no other name sits at its index |
| Context.PlaceNames | structProtoContext.go:25-27 | the loop as written succeeds exactly when every index it meets lies inside the slice, keeping its length and placing each name at its index; otherwise it panics with an index out of range |
| Context.FieldNamesAsWritten | structProtoContext.go:23-29 | as written: succeeds exactly when every field index is below the number of registered names, and panics with an index out of range otherwise |
| Context.FieldNamesAsWrittenPanics | structProtoContext.go:23-29 | a struct with an untagged field before a tagged one resolves to one name at index 1, and `FieldNames` as written panics on it |
| Context.ResolvedDistinct | structProtoResolver.go:89-108 | in a resolved struct no two registered names share a declaration index |
| Context.WalkDistinct | structProtoResolver.go:55-75 | every struct the pointer walk resolves has its registered names at pairwise distinct indices |
| Context.DemoResolved | structProtoResolver.go:78-112 | resolving `` struct{ X int; Name string `demo:"NAME"` } `` on tag key `demo` registers NAME alone, at index 1 |
| Context.DemoFieldNames | structProtoContext.go:23-29 | on that struct, `FieldNames` as intended gives `["", "NAME"]` |
| Context.RequiredFields | structProtoContext.go:31-33 | the registry's own required set: ascending, all of it registered, and every registered field flagged required among it |
| Context.IsRequired | structProtoContext.go:35-41 | holds exactly when the name is registered and its field carries the `required` flag |
| Context.SettleObserved | structProtoContext.go:50-54 | observing a name removes it from the pending names and nothing else |
| Context.AllSeen | structProtoContext.go:56-59 | once nothing is pending, every required name has been observed |
| Context.CheckIfMissingRequiredFields | structProtoContext.go:43-67 | nothing required: nil, and the name producer is not invoked; otherwise nil exactly when every required name is observed, consuming names only until the last required one is seen; else the error names the least unobserved required name |
| Reflecting.AssignZero | reflecting/reflecting.go:7-25 | afterwards every link of the chain is non-nil; a non-pointer value is returned unchanged |
| Reflecting.AssignZeroLeaf | reflecting/reflecting.go:14-22 | afterwards the leaf is the old leaf when the chain was complete, and a fresh zero value of the leaf type otherwise |
| Reflecting.AssignZeroLinked | reflecting/reflecting.go:14-16 | links that are already non-nil are never replaced: a complete chain is returned as it was |
| Reflecting.AssignZeroIdempotent | reflecting/reflecting.go:7-25 | allocating twice is allocating once |
| Reflecting.SetLeafThenLeaf | reflecting/reflecting.go:14-24 | a write to the leaf of a complete chain is what the root then reaches, and it changes the chain exactly when it changes the leaf |
| Reflecting.SetLeafOfLeaf | reflecting/reflecting.go:14-24 | writing back the leaf just read changes nothing |
| Reflecting.LeafType | reflecting/reflecting.go:9-23 | the type at the end of a pointer chain is not a pointer and is no larger than the chain's type |
| Reflecting.SetLeaf | reflecting/reflecting.go:14-24 | writing the leaf through a complete chain keeps the chain complete |
| Reflecting.LeafOf | reflecting/reflecting.go:14-24 | the leaf of a complete chain always exists |
| Converters.ToNamedBytes | valuebinder/converter/rawContentConverter.go:13-44 | a `[]byte` input is returned as the same bytes and a string input as its bytes; the only failures are a conversion error or a nil pointer |
| Converters.RawContentRawMessageAgree | valuebinder/converter/rawMessageConverter.go:12-43 | apart from their own named types, the RawContent and RawMessage converters accept the same inputs and give the same bytes |
| Converters.StringToRawBytes | valuebinder/converter/rawContentConverter.go:20-40 | a string converted to raw bytes reads back as the same string, the same for both converters |
| Converters.Buffer | valuebinder/converter/bufferConverter.go:14-56 | a `[]byte` or string input gives a buffer holding exactly those bytes; the only failures are a conversion error or a nil pointer |
| Converters.BufferAgreesWithRawContent | valuebinder/converter/bufferConverter.go:14-44 | outside the named byte and buffer types, the buffer converter accepts exactly what the raw-bytes converter accepts and holds the same bytes |
| Converters.Indirect | valuebinder/converter/rawContentConverter.go:24 | nil stays nil; a value is followed down its chain of pointers (through an `interface{}` pointee to the value it boxes) and the result is a point on that chain, never a non-nil pointer |
| Converters.IndirectFrom | valuebinder/converter/util.go:12-13 | the result lies on the pointer chain that starts at the given value, and is never a non-nil pointer |
| Converters.ToNamedBytesThroughPointer | valuebinder/converter/rawContentConverter.go:13-36 | a string or `[]byte` input behind a pointer converts exactly as the input itself, to the same bytes |
| Converters.BufferThroughPointer | valuebinder/converter/bufferConverter.go:14-44 | a string or `[]byte` input behind a pointer gives exactly the buffer the input itself gives |
| Converters.IndirectOfPlain | valuebinder/converter/rawContentConverter.go:23-24 | a non-pointer input is left as it is |
| ValueBinder.WrapUnsigned | valuebinder/valuebinder.go:63-68 | a stored unsigned value lies in the range of its width |
| ValueBinder.WrapSigned | valuebinder/valuebinder.go:57-62 | a stored signed value lies in the two's-complement range of its width |
| ValueBinder.WrapInRange | valuebinder/valuebinder.go:57-68 | a converted value already in range is stored as it is |
| ValueBinder.BindValue | valuebinder/valuebinder.go:43-79 | a failure leaves the slot unchanged with a value-binding error labelled with the kind name; an unsupported kind wraps "cannot bind specified type"; otherwise it succeeds exactly when the conversion does and stores its result |
| ValueBinder.BindKnown | valuebinder/valuebinder.go:81-142 | for each entry of the table, the converter's result is stored (a duration wrapped to 64 bits, a time as an opaque value) and the bind succeeds exactly when the converter does; a failure leaves the slot unchanged with a value-binding error labelled with the type name whose cause is the converter's error |
| ValueBinder.BindKnownType | valuebinder/valuebinder.go:26-151 | handled exactly for unmarshalable and known types; the unmarshaler comes first, a fresh value replaces the slot on success, and a failure leaves it with the unmarshaler's error; known types go to their table binder |
| ValueBinder.ScalarBind | valuebinder/scalarBinder.go:21-31 | an assignable input is stored directly with no conversion; otherwise the chain is allocated and a failure leaves only that allocation |
| ValueBinder.ScalarBindImpl | valuebinder/scalarBinder.go:33-39 | the chain ends up complete, and a failure leaves only the allocation; the leaf write is `ScalarWritesLeaf` |
| ValueBinder.ScalarLeaf | valuebinder/scalarBinder.go:41-96 | a failure at the leaf leaves the leaf unchanged; the branches are stated by the lemmas below |
| ValueBinder.BindScalarElems | valuebinder/scalarBinder.go:46-58 | success gives one element per input, each bound from its input into a fresh zero; a failure reports the first failing index and its cause |
| ValueBinder.BindScalarEntries | valuebinder/scalarBinder.go:69-89 | succeeds exactly when every entry's key and value bind; then the map is `out` with the converted pairs set in turn; a failure is the error of the first entry that does not bind |
| ValueBinder.ScalarSlice | valuebinder/scalarBinder.go:42-59 | a slice from sequence input has the input's length with each element bound from its input element; a failure is a slice error with the first failing index and leaves the slot unchanged |
| ValueBinder.ScalarSliceNotSequence | valuebinder/scalarBinder.go:60-61 | a slice destination with non-sequence input is a value-binding error and leaves the slot unchanged |
| ValueBinder.ScalarMapSameType | valuebinder/scalarBinder.go:63-90 | map input of the destination's own type is copied entry by entry into a new map |
| ValueBinder.ScalarZeroFallback | valuebinder/scalarBinder.go:93-96 | past the containers and known types, a zero destination goes to primitive dispatch and a non-zero one is left as it is, without error |
| ValueBinder.ScalarKeepsNonZero | valuebinder/scalarBinder.go:93-96 | an int holding 5 and given a non-assignable input stays 5, without error |
| ValueBinder.ScalarWritesLeaf | valuebinder/scalarBinder.go:21-39 | for an input not assignable to the slot, the chain is allocated, its leaf holds what the leaf step bound into the allocated leaf, and the error is the leaf step's |
| ValueBinder.ScalarKnownTypeFirst | valuebinder/scalarBinder.go:37-39 | a slot the Unmarshaler hook or the known-type table handles is bound by them alone, before any kind dispatch |
| ValueBinder.ScalarMapConverted | valuebinder/scalarBinder.go:63-91 | a map input of another map type binds exactly when every entry's key and value bind, giving the map of the converted pairs; a failure is the first failing entry's error and leaves the leaf unchanged |
| ValueBinder.BoundPairsAll | valuebinder/scalarBinder.go:69-89 | when every entry binds, there is one converted pair per entry, each its entry's |
| ValueBinder.OkPrefixAll | valuebinder/scalarBinder.go:69-89 | a run of results without error has one value per result |
| ValueBinder.StringWritesLeaf | valuebinder/stringBinder.go:23-38 | for a string not assignable to the slot, the chain is allocated, its leaf holds what the leaf step bound, and the error is the leaf step's |
| ValueBinder.StringKnownTypeFirst | valuebinder/stringBinder.go:41-43 | a slot the Unmarshaler hook or the known-type table handles is bound by them alone, with the input as a string |
| ValueBinder.StringLeafFallback | valuebinder/stringBinder.go:45-68 | a string-kind leaf stores the input verbatim whatever it held; any other non-slice leaf goes to conversion by kind |
| ValueBinder.StringIntoString | valuebinder/stringBinder.go:46-47 | a string slot receives the text as it is |
| ValueBinder.Strings | valuebinder/stringBinder.go:50-53 | one string value per text |
| ValueBinder.Put | valuebinder/scalarBinder.go:88 | setting a map entry holds the new pair, keeps every entry of another key and adds nothing else; distinct keys stay distinct |
| ValueBinder.PutAllCopies | valuebinder/scalarBinder.go:68-90 | copying entries with distinct keys into a map without them appends them |
| ValueBinder.PutAppends | valuebinder/scalarBinder.go:88 | setting an absent key appends its pair |
| ValueBinder.StringBind | valuebinder/stringBinder.go:23-35 | non-string input is refused and nothing is written; a string assignable to the destination is stored verbatim; otherwise the chain is allocated |
| ValueBinder.StringBindImpl | valuebinder/stringBinder.go:37-44 | the chain ends up complete, and a failure leaves only the allocation; the leaf write is `StringWritesLeaf` |
| ValueBinder.StringLeaf | valuebinder/stringBinder.go:41-70 | a failure at the leaf leaves the leaf unchanged; the branches are stated by the lemmas below |
| ValueBinder.BindStringElems | valuebinder/stringBinder.go:50-63 | success gives one element per part, each bound from its part into a fresh zero; a failure reports the first failing index and its cause |
| ValueBinder.StringSlice | valuebinder/stringBinder.go:48-65 | a non-empty string fills a slice with one element per comma-separated part, element i bound from part i; a failure is a slice error carrying the whole input, the failing index and exactly the error that part's bind returned, every earlier part having bound; the slot is left unchanged |
| ValueBinder.StringSliceJoin | valuebinder/stringBinder.go:48-65 | for `[]string`, joining the bound elements with `,` gives back the input |
| ValueBinder.StringElemsStrings | valuebinder/stringBinder.go:50-63 | into `string` elements, the elements are exactly the parts, in order, each stored verbatim |
| ValueBinder.StringSliceEmpty | valuebinder/stringBinder.go:49 | a slice destination with empty input is left unchanged, without error |
| ValueBinder.BytesBind | valuebinder/bytesBinder.go:23-34 | non-`[]byte` input is refused and nothing is written; `[]byte` input assignable to the destination is stored directly |
| ValueBinder.BytesBindImpl | valuebinder/bytesBinder.go:36-54 | after allocating the chain, a buffer leaf (direct or behind one pointer) receives a buffer of exactly the input bytes without error; every other destination is bound by the string binder from the bytes read as a string |
| ValueBinder.BytesAsString | valuebinder/bytesBinder.go:49-52 | every destination other than a buffer is bound exactly as the string binder binds the bytes as a string |
| ValueBinder.BytesIntoBuffer | valuebinder/bytesBinder.go:42-48 | a buffer destination, direct or behind a pointer, receives a buffer holding exactly the input bytes |
| ValueBinder.SliceInputs | valuebinder/scalarBinder.go:44-50 | one element input per element of the sequence input |
| Errors.ValuePreview | valuebinder/valueBindingError.go:12-19 | a string longer than 24 characters is shown as its first 24 characters; any other value is shown in full |
| Errors.FieldPreview | fieldBindingError.go:15-20 | a string longer than 24 characters is shown as its first 24 characters followed by `...`; any other value in full |
| Errors.Render | valuebinder/sliceBindingError.go:12-19 | a field error names its field, the others their kind; only a slice error shows its index; the value is shown through the right preview |
| Errors.Unwrap | valuebinder/valueBindingError.go:22-24 | a slice or field error unwraps to its inner error, a value-binding error to its cause |
| Errors.PreviewKeepsValue | fieldBindingError.go:9-19 | the error keeps the full value: a whole preview shows it, and a cut one shows its first 24 characters |
| GoValues.StringOfBytesOf | valuebinder/converter/rawContentConverter.go:38-40 | a string's bytes read back as the same string |
| GoValues.BytesOfStringOf | valuebinder/bytesBinder.go:49-52 | a byte slice's string reads back as the same bytes |
| GoValues.ZeroIsZero | valuebinder/scalarBinder.go:93 | the zero value of every type is zero |

## Left out

- Goroutines and channels: the channels of `FieldFlagSet.iterate`, `FieldValueMap.Iterate` and `BindChan` are the finite sequence of what they deliver. The producer goroutine that `CheckIfMissingRequiredFields` abandons when it returns early is not modelled.
- Map iteration order: a parameter enumerating the keys, for `Bind`, `Visit`, `BindMap` and `FieldNames`. The scalar binder's map branch (`MapRange` in `valuebinder/scalarBinder.go`) is a map held as a sequence of pairs: `BindScalarEntries` and `ScalarMapConverted` take its entries in that sequence's order, which Go leaves random. That order decides which of two keys converting to the same key wins, and which failing entry is reported.
- `len`, `isEmpty` and `toArray` of `FieldFlagSet` are the sequence's length, emptiness test and the sequence itself.
- The `FieldInfo` accessors `IDName`, `Name`, `Desc`, `Index` and `Tag` are the datatype's fields. `Target` and `FieldInfo` of the context are the struct's fields.
- The generic conversion library (`conv.*`), `net.ParseIP`, `url.Parse`, the time parser and user `UnmarshalStruct` methods are foreign. They are `Env` functions whose results are unconstrained. Floating-point, duration and time semantics are not modelled.
- `valuebinder/bytesArgsBinder.go` is not part of this model. It delegates to code outside the core.
- Array-kind destinations are left out. `MakeSlice` on an array type would panic.
- Error text: `fmt` formatting beyond the 24-character preview is not modelled. A rendered message is a record of its subject, preview, index and cause.
- Panics that types rule out: a nil resolve option, a nil struct binder, a nil input to the scalar binder (binding never passes one) and the unreachable branch of `bindUnmarshaler`.
- A nil `*RawContent`, `*json.RawMessage` or `*bytes.Buffer` input would panic in the converter. It is the `NilDereference` error value instead.
- The buffer converter's conversion of user structs convertible to `bytes.Buffer` is not modelled. Named user types in the model never have struct layout.
- The conversion library's `Indirect` is modelled as following pointers and `interface{}` pointees only.
- Converters.Buffer: the package `util/reflectutil` is not part of this model. The buffer converter calls its `Indirect` (`valuebinder/converter/bufferConverter.go:25`), which is assumed to behave like the conversion library's `Indirect`. `Converters.BufferAgreesWithRawContent` and `Converters.BufferThroughPointer` rest on that assumption.
- ValueBinder.BytesBindImpl: it calls `reflectutil.AssignZero` (`valuebinder/bytesBinder.go:37`) from the same missing package. It is assumed to behave like `AssignZero` of `reflecting/reflecting.go`, which is `Reflecting.AssignZero`.
- A struct tag is a sequence of key/value pairs. The parsing of the raw tag string is not modelled.
- Go maps built by `SetMapIndex` are sequences of key/value pairs with distinct keys.
- Context.RequiredFields: Go returns the registry's own slice, so a caller can change the registry through it. The model returns a value and has no such aliasing.
- Handle identity (Go's "the same `reflect.Value` is returned") has no counterpart in a value model. `AssignZero` returns the updated content instead.
- `Resolve` allocates nil pointer links into a fresh value that the caller's pointer never sees. The model records this as the `detached` flag of the resolved struct rather than modelling memory.
- ValueBinder.WrapSigned: states only the range of the stored value, not that it is congruent to the converted value modulo the width.
- ValueBinder.WrapUnsigned: states only the range of the stored value, not that it is congruent to the converted value modulo the width.
- Context.FieldNames: sizes the slice by the declared fields, where the code sizes it by the registered names (see Findings). Its own contract places a name at its index only when no other name shares it; `Context.ResolvedDistinct` and `Context.WalkDistinct` show that every resolved struct meets that condition.
- Strings are sequences of characters, one character per byte. UTF-8 decoding is not modelled, so the 24-character preview of an error cuts after 24 bytes and may split a multi-byte character, as the Go slicing does.
- Named user types are modelled only with scalar, struct or function layout. A named slice, map or pointer type such as `type IDs []int` cannot be expressed, though `valuebinder/scalarBinder.go` binds such types through their kind like the unnamed ones.
- Binding.BindChan: the same fold as `BindFields` over the delivered values, so its properties are those of `BindFields`.
- Binding.BuildScalarBinder, Binding.BuildStringBinder, Binding.BuildBytesBinder and Binding.BuildIgnoreBinder are providers with no contract of their own. The ignore provider returns no binder for every slot.
- Where the written description of the library and its code differ, the model follows the code. A tag resolver's error aborts registration, so registration can fail without a duplicate name. The duplicate-name error carries the name and only the later field's Go name.

## Findings

| source | as written | input that shows it | evidently intended | confidence | as-written member | corrected member |
|---|---|---|---|---|---|---|
| structProtoContext.go:11-21 | `FieldInfo` returns the `*FieldInfoImpl` lookup result through the `FieldInfo` interface, so an unknown name yields a non-nil interface holding a nil pointer; `Field` then calls `Index()` on it and dereferences nil | `Field("missing")` on any struct without a field named `missing` | an unknown name returns an invalid value and false | high, not executed | Context.FieldAsWritten | Context.Field |
| structProtoContext.go:23-29 | the slice has one entry per registered name, but each name is stored at its field's declaration index, which also counts untagged and skipped fields | `` struct{ X int; Name string `demo:"NAME"` } `` resolved on tag key `demo`: one registered name at index 1 of a one-entry slice, so `fields[1]` panics | one entry per declared field, each name at its index | high, not executed | Context.FieldNamesAsWritten | Context.FieldNames |

=== FILE: binding.dfy ===
/** Binding values onto a resolved struct (struct.go,
    functionStructBinder.go): the name/value folds `BindFields`, `BindChan`,
    `BindIterator` and `BindMap`, the Init/Bind/Deinit protocol of `Bind`
    and `Map`, and `Visit`.

    Binding writes the slots of the struct; the registry (names, metadata,
    required set) is never changed. */
module Binding {
  import opened Outcomes
  import opened GoValues
  import opened Errors
  import FlagSet
  import opened FieldInfos
  import opened Registry
  import opened ValueBinder

  /** A value binder over one slot: binds an input into the slot's content. */
  type Binder = Input -> Bound

  /** `ValueBindProvider`: a binder for the slot of the given type and
      content, or none. */
  type Provider = (GoType, Value) -> Option<Binder>

  /** `BuildScalarBinder`. A nil input never reaches a binder (the folds
      skip nil values), so its branch here is never taken. */
  function BuildScalarBinder(env: Env): Provider
  {
    (t: GoType, x: Value) => Some((v: Input) => if v.Dyn? then ScalarBind(env, t, x, v) else Bound(x, None))
  }

  /** `BuildStringBinder`. */
  function BuildStringBinder(env: Env): Provider
  {
    (t: GoType, x: Value) => Some((v: Input) => StringBind(env, t, x, v))
  }

  /** `BuildBytesBinder`. */
  function BuildBytesBinder(env: Env): Provider
  {
    (t: GoType, x: Value) => Some((v: Input) => BytesBind(env, t, x, v))
  }

  /** `BuildIgnoreBinder`: no binder for any slot. */
  function BuildIgnoreBinder(): Provider
  {
    (t: GoType, x: Value) => None
  }

  /** `makeFieldBinder`: the provider's binder for the slot of a
      registered name; none for an unregistered one. */
  function MakeFieldBinder(s: Struct, target: seq<Slot>, name: string, p: Provider): (b: Option<Binder>)
    requires Valid(s) && |target| == |s.target|
    ensures name !in s.fields ==> b.None?
    ensures name in s.fields ==>
      b == p(target[s.fields[name].index].decl.t, target[s.fields[name].index].v)
  {
    if name in s.fields then
      var k := s.fields[name].index;
      p(target[k].decl.t, target[k].v)
    else None
  }

  /** The state of a fold over name/value entries: the slots, the required
      names not bound yet, the names bound (in order), and the error. */
  datatype Fold = Fold(target: seq<Slot>, pending: seq<string>, bound: seq<string>, err: Option<Error>)

  /** The pending required names once `name` has been bound: `indexOf`
      followed by `removeIndex` when the name is present. */
  function Settle(pending: seq<string>, name: string): (r: seq<string>)
    requires FlagSet.Sorted(pending)
    ensures FlagSet.Sorted(r)
    ensures forall x :: x in r <==> x in pending && x != name
  {
    var index := FlagSet.IndexOf(pending, name);
    if index != -1 then FlagSet.RemoveIndex(pending, index).rest else pending
  }

  /** One iteration of the loop of `BindFields` and `BindChan`. An entry
      with a nil value, or whose name has no binder, is passed over.
      Otherwise the binder writes the slot of the name, and either fails,
      or the name is bound and no longer pending. */
  function FeedStep(s: Struct, p: Provider, name: string, val: Input,
                    target: seq<Slot>, pending: seq<string>): (r: Fold)
    requires Valid(s) && |target| == |s.target| && FlagSet.Sorted(pending)
    ensures |r.target| == |target| && forall k :: 0 <= k < |target| ==> r.target[k].decl == target[k].decl
    ensures FlagSet.Sorted(r.pending)
    ensures forall k :: 0 <= k < |target| && r.target[k] != target[k] ==>
      name in s.fields && s.fields[name].index == k
    ensures forall n :: n in r.bound ==> n == name && n in s.fields && !val.Nil?
    ensures r.err.Some? ==> (r.bound == [] && r.pending == pending
      && r.err.value.FieldBindingError? && r.err.value.field == name && r.err.value.value == val
      && name in s.fields && !val.Nil?)
    ensures r.err.None? ==> forall x :: x in r.pending <==> x in pending && x !in r.bound
    ensures (val.Nil? || MakeFieldBinder(s, target, name, p).None?) ==> r == Fold(target, pending, [], None)
    ensures r.bound != [] <==> (!val.Nil? && MakeFieldBinder(s, target, name, p).Some?
      && MakeFieldBinder(s, target, name, p).value(val).err.None?)
  {
    if val.Nil? then Fold(target, pending, [], None)
    else
      match MakeFieldBinder(s, target, name, p)
      case None => Fold(target, pending, [], None)
      case Some(binder) =>
        var k := s.fields[name].index;
        var b := binder(val);
        var written := target[k := target[k].(v := b.value)];
        if b.err.Some? then Fold(written, pending, [], Some(FieldBindingError(name, val, b.err.value)))
        else Fold(written, Settle(pending, name), [name], None)
  }

  /** The loop shared by `BindFields` and `BindChan` from entry i on; the
      names in the result are those bound from entry i on. */
  function Feed(s: Struct, entries: seq<(string, Input)>, p: Provider, i: nat,
                target: seq<Slot>, pending: seq<string>): (r: Fold)
    requires Valid(s) && |target| == |s.target| && FlagSet.Sorted(pending) && i <= |entries|
    ensures |r.target| == |target| && forall k :: 0 <= k < |target| ==> r.target[k].decl == target[k].decl
    ensures FlagSet.Sorted(r.pending)
    decreases |entries| - i
  {
    if i == |entries| then
      Fold(target, pending, [], if |pending| > 0 then Some(MissingRequiredField(pending[0])) else None)
    else
      var st := FeedStep(s, p, entries[i].0, entries[i].1, target, pending);
      if st.err.Some? then st
      else
        var r := Feed(s, entries, p, i + 1, st.target, st.pending);
        r.(bound := st.bound + r.bound)
  }

  /** A required name stays pending exactly until it is bound. */
  lemma {:induction false} FeedPending(s: Struct, entries: seq<(string, Input)>, p: Provider, i: nat,
                                       target: seq<Slot>, pending: seq<string>)
    requires Valid(s) && |target| == |s.target| && FlagSet.Sorted(pending) && i <= |entries|
    ensures var r := Feed(s, entries, p, i, target, pending);
      forall x :: x in r.pending <==> x in pending && x !in r.bound
    decreases |entries| - i
  {
    if i < |entries| {
      var st := FeedStep(s, p, entries[i].0, entries[i].1, target, pending);
      if st.err.None? {
        FeedPending(s, entries, p, i + 1, st.target, st.pending);
      }
    }
  }

  /** Every bound name is registered and comes from an entry with a
      non-nil value that the loop reached and whose binder succeeded. */
  lemma FeedBound(s: Struct, entries: seq<(string, Input)>, p: Provider, i: nat,
                  target: seq<Slot>, pending: seq<string>)
    requires Valid(s) && |target| == |s.target| && FlagSet.Sorted(pending) && i <= |entries|
    ensures var r := Feed(s, entries, p, i, target, pending);
      forall n :: n in r.bound ==>
        (n in s.fields && exists j :: (i <= j < |entries| && entries[j].0 == n && !entries[j].1.Nil?
           && BindsAt(s, entries, p, i, j, target, pending)))
  {
    UptoBoundBinds(s, entries, p, i, |entries|, target, pending);
    FeedIsLoop(s, entries, p, i, target, pending);
  }

  /** The fold ends without error only when nothing required is pending; a
      missing-field error names the least pending name; a field error comes
      from a registered entry with a non-nil value, and carries the error
      of that entry's binder (see `FeedFailure`). */
  lemma {:induction false} FeedErrors(s: Struct, entries: seq<(string, Input)>, p: Provider, i: nat,
                                      target: seq<Slot>, pending: seq<string>)
    requires Valid(s) && |target| == |s.target| && FlagSet.Sorted(pending) && i <= |entries|
    ensures var r := Feed(s, entries, p, i, target, pending);
      (r.err.None? ==> |r.pending| == 0)
      && (r.err.Some? && !r.err.value.FieldBindingError? ==>
            (|r.pending| > 0 && r.err.value == MissingRequiredField(r.pending[0])
             && forall y :: y in r.pending && y != r.pending[0] ==> FlagSet.Less(r.pending[0], y)))
      && (r.err.Some? && r.err.value.FieldBindingError? ==>
            exists j :: i <= j < |entries| && entries[j] == (r.err.value.field, r.err.value.value)
              && entries[j].0 in s.fields && !entries[j].1.Nil?
              && FailsAt(s, entries, p, i, j, target, pending, r.err.value.inner))
    decreases |entries| - i
  {
    if i == |entries| {
      SortedLeast(pending);
    } else {
      var st := FeedStep(s, p, entries[i].0, entries[i].1, target, pending);
      if st.err.None? {
        FeedErrors(s, entries, p, i + 1, st.target, st.pending);
      }
    }
    FeedFailure(s, entries, p, i, target, pending);
  }

  /** A slot changes only when an entry names the field registered at it. */
  lemma {:induction false} FeedWritesNamedSlots(s: Struct, entries: seq<(string, Input)>, p: Provider, i: nat,
                                                target: seq<Slot>, pending: seq<string>)
    requires Valid(s) && |target| == |s.target| && FlagSet.Sorted(pending) && i <= |entries|
    ensures var r := Feed(s, entries, p, i, target, pending);
      forall k :: 0 <= k < |target| && r.target[k] != target[k] ==>
        exists j :: i <= j < |entries| && entries[j].0 in s.fields && s.fields[entries[j].0].index == k
    decreases |entries| - i
  {
    if i < |entries| {
      var st := FeedStep(s, p, entries[i].0, entries[i].1, target, pending);
      if st.err.None? {
        FeedWritesNamedSlots(s, entries, p, i + 1, st.target, st.pending);
      }
    }
  }

  // ---------------------------------------------------------------------
  // The loop run forward, one entry at a time

  /** The state of the loop once entries i..j-1 have been taken in turn,
      as the Go loop runs them; after the first failure the state stays as
      that failure left it. */
  function Upto(s: Struct, entries: seq<(string, Input)>, p: Provider, i: nat, j: nat,
                target: seq<Slot>, pending: seq<string>): (r: Fold)
    requires Valid(s) && |target| == |s.target| && FlagSet.Sorted(pending) && i <= j <= |entries|
    ensures |r.target| == |target| && forall k :: 0 <= k < |target| ==> r.target[k].decl == target[k].decl
    ensures FlagSet.Sorted(r.pending)
    decreases j
  {
    if j == i then Fold(target, pending, [], None)
    else
      var u := Upto(s, entries, p, i, j - 1, target, pending);
      if u.err.Some? then u
      else
        var st := FeedStep(s, p, entries[j - 1].0, entries[j - 1].1, u.target, u.pending);
        st.(bound := u.bound + st.bound)
  }

  /** A name bound by the forward run comes from an entry that binds. */
  lemma {:induction false} UptoBoundBinds(s: Struct, entries: seq<(string, Input)>, p: Provider, i: nat, l: nat,
                                          target: seq<Slot>, pending: seq<string>)
    requires Valid(s) && |target| == |s.target| && FlagSet.Sorted(pending) && i <= l <= |entries|
    ensures forall n :: n in Upto(s, entries, p, i, l, target, pending).bound ==>
      exists j :: i <= j < l && entries[j].0 == n && BindsAt(s, entries, p, i, j, target, pending)
    decreases l
  {
    if l > i {
      UptoBoundBinds(s, entries, p, i, l - 1, target, pending);
      var u := Upto(s, entries, p, i, l - 1, target, pending);
      if u.err.None? {
        var st := FeedStep(s, p, entries[l - 1].0, entries[l - 1].1, u.target, u.pending);
        if st.bound != [] {
          assert BindsAt(s, entries, p, i, l - 1, target, pending);
        }
      }
    }
  }

  /** The binder of entry j, on the slots as the loop has left them when it
      reaches entry j. */
  function BinderAt(s: Struct, entries: seq<(string, Input)>, p: Provider, i: nat, j: nat,
                    target: seq<Slot>, pending: seq<string>): Option<Binder>
    requires Valid(s) && |target| == |s.target| && FlagSet.Sorted(pending) && i <= j < |entries|
  {
    MakeFieldBinder(s, Upto(s, entries, p, i, j, target, pending).target, entries[j].0, p)
  }

  /** The loop reaches entry j, whose value is non-nil and whose binder
      succeeds. */
  ghost predicate BindsAt(s: Struct, entries: seq<(string, Input)>, p: Provider, i: nat, j: nat,
                          target: seq<Slot>, pending: seq<string>)
    requires Valid(s) && |target| == |s.target| && FlagSet.Sorted(pending) && i <= j < |entries|
  {
    Upto(s, entries, p, i, j, target, pending).err.None? && !entries[j].1.Nil?
    && BinderAt(s, entries, p, i, j, target, pending).Some?
    && BinderAt(s, entries, p, i, j, target, pending).value(entries[j].1).err.None?
  }

  /** The loop reaches entry j, whose value is non-nil and whose binder
      fails with e. */
  ghost predicate FailsAt(s: Struct, entries: seq<(string, Input)>, p: Provider, i: nat, j: nat,
                          target: seq<Slot>, pending: seq<string>, e: Error)
    requires Valid(s) && |target| == |s.target| && FlagSet.Sorted(pending) && i <= j < |entries|
  {
    Upto(s, entries, p, i, j, target, pending).err.None? && !entries[j].1.Nil?
    && BinderAt(s, entries, p, i, j, target, pending).Some?
    && BinderAt(s, entries, p, i, j, target, pending).value(entries[j].1).err == Some(e)
  }

  /** Running entries i..j-1 forward and then the recursive fold from j on
      is the recursive fold from i on. */
  lemma {:induction false} FeedUpto(s: Struct, entries: seq<(string, Input)>, p: Provider, i: nat, j: nat,
                                    target: seq<Slot>, pending: seq<string>)
    requires Valid(s) && |target| == |s.target| && FlagSet.Sorted(pending) && i <= j <= |entries|
    ensures var u := Upto(s, entries, p, i, j, target, pending);
      var f := Feed(s, entries, p, i, target, pending);
      (u.err.None? ==> var g := Feed(s, entries, p, j, u.target, u.pending);
         f == g.(bound := u.bound + g.bound))
      && (u.err.Some? ==> f == u)
    decreases j
  {
    var f := Feed(s, entries, p, i, target, pending);
    if j == i {
      assert [] + f.bound == f.bound;
    } else {
      FeedUpto(s, entries, p, i, j - 1, target, pending);
      var u0 := Upto(s, entries, p, i, j - 1, target, pending);
      if u0.err.None? {
        FeedUptoStep(s, entries, p, i, j, target, pending);
      }
    }
  }

  /** One more entry of the forward run is one unfolding of the recursive
      fold. */
  lemma FeedUptoStep(s: Struct, entries: seq<(string, Input)>, p: Provider, i: nat, j: nat,
                     target: seq<Slot>, pending: seq<string>)
    requires Valid(s) && |target| == |s.target| && FlagSet.Sorted(pending) && i < j <= |entries|
    requires Upto(s, entries, p, i, j - 1, target, pending).err.None?
    ensures var u0 := Upto(s, entries, p, i, j - 1, target, pending);
      var u := Upto(s, entries, p, i, j, target, pending);
      var g0 := Feed(s, entries, p, j - 1, u0.target, u0.pending);
      (u.err.None? ==> var g := Feed(s, entries, p, j, u.target, u.pending);
         g0.(bound := u0.bound + g0.bound) == g.(bound := u.bound + g.bound))
      && (u.err.Some? ==> g0.(bound := u0.bound + g0.bound) == u)
  {
    var u0 := Upto(s, entries, p, i, j - 1, target, pending);
    var st := FeedStep(s, p, entries[j - 1].0, entries[j - 1].1, u0.target, u0.pending);
    assert Upto(s, entries, p, i, j, target, pending) == st.(bound := u0.bound + st.bound);
    if st.err.None? {
      var g := Feed(s, entries, p, j, st.target, st.pending);
      assert Feed(s, entries, p, j - 1, u0.target, u0.pending) == g.(bound := st.bound + g.bound);
      assert u0.bound + (st.bound + g.bound) == (u0.bound + st.bound) + g.bound;
    } else {
      assert Feed(s, entries, p, j - 1, u0.target, u0.pending) == st;
      assert u0.bound + st.bound == u0.bound;
    }
  }

  /** The recursive fold and the loop run forward agree: the same slots,
      names and pending set, and either the first failure or, at the end,
      the least name still pending. */
  lemma FeedIsLoop(s: Struct, entries: seq<(string, Input)>, p: Provider, i: nat,
                   target: seq<Slot>, pending: seq<string>)
    requires Valid(s) && |target| == |s.target| && FlagSet.Sorted(pending) && i <= |entries|
    ensures var u := Upto(s, entries, p, i, |entries|, target, pending);
      var f := Feed(s, entries, p, i, target, pending);
      f.target == u.target && f.bound == u.bound && f.pending == u.pending
      && (u.err.Some? ==> f.err == u.err)
      && (u.err.None? ==> f.err == if |u.pending| > 0 then Some(MissingRequiredField(u.pending[0])) else None)
  {
    FeedUpto(s, entries, p, i, |entries|, target, pending);
    var u := Upto(s, entries, p, i, |entries|, target, pending);
    assert u.bound + [] == u.bound;
  }

  /** The names bound by the first entries stay bound as the loop goes on:
      they are a prefix of the names bound later. */
  lemma {:induction false} UptoGrows(s: Struct, entries: seq<(string, Input)>, p: Provider, i: nat, j: nat, l: nat,
                                     target: seq<Slot>, pending: seq<string>)
    requires Valid(s) && |target| == |s.target| && FlagSet.Sorted(pending) && i <= j <= l <= |entries|
    ensures Upto(s, entries, p, i, j, target, pending).bound <= Upto(s, entries, p, i, l, target, pending).bound
    decreases l
  {
    if l > j {
      UptoGrows(s, entries, p, i, j, l - 1, target, pending);
      var u := Upto(s, entries, p, i, l - 1, target, pending);
      if u.err.None? {
        var st := FeedStep(s, p, entries[l - 1].0, entries[l - 1].1, u.target, u.pending);
        assert u.bound <= u.bound + st.bound;
      }
    }
  }

  /** A slot that no entry from j to l-1 names keeps what the loop had
      left there on reaching entry j. */
  lemma {:induction false} UptoFrame(s: Struct, entries: seq<(string, Input)>, p: Provider, i: nat, j: nat, l: nat,
                                     target: seq<Slot>, pending: seq<string>, k: nat)
    requires Valid(s) && |target| == |s.target| && FlagSet.Sorted(pending) && i <= j <= l <= |entries|
    requires k < |target|
    requires forall m :: j <= m < l && entries[m].0 in s.fields ==> s.fields[entries[m].0].index != k
    ensures Upto(s, entries, p, i, l, target, pending).target[k] == Upto(s, entries, p, i, j, target, pending).target[k]
    decreases l
  {
    if l > j {
      UptoFrame(s, entries, p, i, j, l - 1, target, pending, k);
    }
  }

  /** An entry the loop reaches whose binder succeeds leaves its field's
      slot holding what the binder produced. */
  lemma UptoWritesEntry(s: Struct, entries: seq<(string, Input)>, p: Provider, i: nat, j: nat,
                        target: seq<Slot>, pending: seq<string>)
    requires Valid(s) && |target| == |s.target| && FlagSet.Sorted(pending) && i <= j < |entries|
    requires BindsAt(s, entries, p, i, j, target, pending)
    ensures entries[j].0 in s.fields
    ensures var k := s.fields[entries[j].0].index;
      var b := BinderAt(s, entries, p, i, j, target, pending).value;
      var u := Upto(s, entries, p, i, j, target, pending);
      Upto(s, entries, p, i, j + 1, target, pending).target[k] == u.target[k].(v := b(entries[j].1).value)
  {
  }

  /** An entry that the loop reaches, with a non-nil value and a binder that
      succeeds, is bound: its name is among the bound names. */
  lemma FeedBindsReached(s: Struct, entries: seq<(string, Input)>, p: Provider, i: nat, j: nat,
                         target: seq<Slot>, pending: seq<string>)
    requires Valid(s) && |target| == |s.target| && FlagSet.Sorted(pending) && i <= j < |entries|
    requires BindsAt(s, entries, p, i, j, target, pending)
    ensures entries[j].0 in Feed(s, entries, p, i, target, pending).bound
  {
    var b1 := Upto(s, entries, p, i, j + 1, target, pending).bound;
    UptoBinds(s, entries, p, i, j, target, pending);
    UptoGrows(s, entries, p, i, j + 1, |entries|, target, pending);
    FeedIsLoop(s, entries, p, i, target, pending);
    var all := Feed(s, entries, p, i, target, pending).bound;
    assert all[|b1| - 1] == b1[|b1| - 1];
  }

  /** Taking an entry that binds adds its name to the bound names. */
  lemma UptoBinds(s: Struct, entries: seq<(string, Input)>, p: Provider, i: nat, j: nat,
                  target: seq<Slot>, pending: seq<string>)
    requires Valid(s) && |target| == |s.target| && FlagSet.Sorted(pending) && i <= j < |entries|
    requires BindsAt(s, entries, p, i, j, target, pending)
    ensures var b1 := Upto(s, entries, p, i, j + 1, target, pending).bound;
      |b1| > 0 && b1[|b1| - 1] == entries[j].0
  {
    var u := Upto(s, entries, p, i, j, target, pending);
    var st := FeedStep(s, p, entries[j].0, entries[j].1, u.target, u.pending);
    assert st.bound == [entries[j].0];
  }

  /** Every entry the loop reaches and binds successfully is bound. */
  lemma FeedBindsAll(s: Struct, entries: seq<(string, Input)>, p: Provider, i: nat,
                     target: seq<Slot>, pending: seq<string>)
    requires Valid(s) && |target| == |s.target| && FlagSet.Sorted(pending) && i <= |entries|
    ensures forall j :: i <= j < |entries| && BindsAt(s, entries, p, i, j, target, pending) ==>
      entries[j].0 in Feed(s, entries, p, i, target, pending).bound
  {
    forall j | i <= j < |entries| && BindsAt(s, entries, p, i, j, target, pending)
      ensures entries[j].0 in Feed(s, entries, p, i, target, pending).bound
    {
      FeedBindsReached(s, entries, p, i, j, target, pending);
    }
  }

  /** When the loop has failed by entry l, there is a first entry j before l
      that failed, the loop reached it, and the failure is that entry's. */
  lemma {:induction false} UptoFirstFailure(s: Struct, entries: seq<(string, Input)>, p: Provider, i: nat, l: nat,
                                            target: seq<Slot>, pending: seq<string>)
    requires Valid(s) && |target| == |s.target| && FlagSet.Sorted(pending) && i <= l <= |entries|
    requires Upto(s, entries, p, i, l, target, pending).err.Some?
    ensures exists j :: (i <= j < l && Upto(s, entries, p, i, j, target, pending).err.None?
      && Upto(s, entries, p, i, l, target, pending) == Upto(s, entries, p, i, j + 1, target, pending))
    decreases l
  {
    if Upto(s, entries, p, i, l - 1, target, pending).err.Some? {
      UptoFirstFailure(s, entries, p, i, l - 1, target, pending);
    } else {
      assert Upto(s, entries, p, i, l - 1, target, pending).err.None?;
    }
  }

  /** A fold that ends in a field error failed at an entry the loop
      reached: that entry's binder returned the error the field error
      wraps, the slot holds what the binder wrote, every earlier write
      stays, and the names bound before it are the bound names. */
  lemma FeedFailure(s: Struct, entries: seq<(string, Input)>, p: Provider, i: nat,
                    target: seq<Slot>, pending: seq<string>)
    requires Valid(s) && |target| == |s.target| && FlagSet.Sorted(pending) && i <= |entries|
    ensures var r := Feed(s, entries, p, i, target, pending);
      r.err.Some? && r.err.value.FieldBindingError? ==>
        exists j :: i <= j < |entries| && entries[j] == (r.err.value.field, r.err.value.value)
          && FailsAt(s, entries, p, i, j, target, pending, r.err.value.inner)
          && var u := Upto(s, entries, p, i, j, target, pending);
             var k := s.fields[entries[j].0].index;
             r.bound == u.bound
             && r.target == u.target[k := u.target[k].(v := BinderAt(s, entries, p, i, j, target, pending).value(entries[j].1).value)]
  {
    var r := Feed(s, entries, p, i, target, pending);
    FeedIsLoop(s, entries, p, i, target, pending);
    var u := Upto(s, entries, p, i, |entries|, target, pending);
    if u.err.Some? {
      UptoFirstFailure(s, entries, p, i, |entries|, target, pending);
      var j :| i <= j < |entries| && Upto(s, entries, p, i, j, target, pending).err.None?
        && u == Upto(s, entries, p, i, j + 1, target, pending);
      var uj := Upto(s, entries, p, i, j, target, pending);
      assert uj.bound + [] == uj.bound;
      assert FailsAt(s, entries, p, i, j, target, pending, r.err.value.inner);
    }
  }

  /** The provider has a binder for every slot, and no binder ever fails. */
  ghost predicate NeverFails(p: Provider)
  {
    (forall t: GoType, x: Value :: p(t, x).Some?)
    && (forall t: GoType, x: Value, v: Input :: p(t, x).Some? ==> p(t, x).value(v).err.None?)
  }

  /** With such a provider the loop never fails. */
  lemma {:induction false} UptoNeverFails(s: Struct, entries: seq<(string, Input)>, p: Provider, i: nat, j: nat,
                                          target: seq<Slot>, pending: seq<string>)
    requires Valid(s) && |target| == |s.target| && FlagSet.Sorted(pending) && i <= j <= |entries|
    requires NeverFails(p)
    ensures Upto(s, entries, p, i, j, target, pending).err.None?
    decreases j
  {
    if j > i {
      UptoNeverFails(s, entries, p, i, j - 1, target, pending);
      var u := Upto(s, entries, p, i, j - 1, target, pending);
      var name := entries[j - 1].0;
      if !entries[j - 1].1.Nil? && name in s.fields {
        var k := s.fields[name].index;
        assert p(u.target[k].decl.t, u.target[k].v).Some?;
        assert p(u.target[k].decl.t, u.target[k].v).value(entries[j - 1].1).err.None?;
      }
    }
  }

  /** The first element of a sorted sequence is below all the others. */
  lemma SortedLeast(s: seq<string>)
    requires FlagSet.Sorted(s)
    ensures forall y :: y in s && |s| > 0 && y != s[0] ==> FlagSet.Less(s[0], y)
  {
    forall y | y in s && |s| > 0 && y != s[0]
      ensures FlagSet.Less(s[0], y)
    {
      var k :| 0 <= k < |s| && s[k] == y;
      assert k != 0;
    }
  }

  /** The result of a bind: the struct with its written slots, or none for
      a nil receiver; the error; and the names whose binding succeeded. */
  datatype Outcome = Outcome(s: Option<Struct>, err: Option<Error>, bound: seq<string>)

  /** `BindFields`: binds each entry with a non-nil value onto the field
      registered under its name, skipping unknown names and names the
      provider has no binder for; stops at the first failure; then reports
      the least required name no entry bound. */
  function BindFields(s: Option<Struct>, entries: seq<(string, Input)>, p: Option<Provider>): (r: Outcome)
    requires s.Some? ==> Valid(s.value)
    ensures s.None? ==> r == Outcome(None, None, [])
    ensures s.Some? && p.None? ==> r == Outcome(s, Some(MissingValueBinderProvider), [])
    ensures s.Some? ==> (r.s.Some? && r.s.value.fields == s.value.fields
      && r.s.value.required == s.value.required && r.s.value.detached == s.value.detached
      && |r.s.value.target| == |s.value.target| && Valid(r.s.value))
    ensures s.Some? && p.Some? ==>
      (forall n :: n in r.bound ==> (n in s.value.fields
        && exists j :: 0 <= j < |entries| && entries[j].0 == n && !entries[j].1.Nil?
             && BindsAt(s.value, entries, p.value, 0, j, s.value.target, s.value.required)))
      && (forall k :: 0 <= k < |s.value.target| && r.s.value.target[k] != s.value.target[k] ==>
            exists j :: 0 <= j < |entries| && entries[j].0 in s.value.fields && s.value.fields[entries[j].0].index == k)
      && (r.err.None? ==> forall n :: n in s.value.required ==> n in r.bound)
      && (r.err.Some? && r.err.value.MissingRequiredField? ==>
            var x := r.err.value.field;
            x in s.value.required && x !in r.bound
            && forall y :: y in s.value.required && y !in r.bound && y != x ==> FlagSet.Less(x, y))
      && (r.err.Some? && r.err.value.FieldBindingError? ==>
            exists j :: 0 <= j < |entries| && entries[j] == (r.err.value.field, r.err.value.value)
              && entries[j].0 in s.value.fields
              && FailsAt(s.value, entries, p.value, 0, j, s.value.target, s.value.required, r.err.value.inner))
      && (forall j :: 0 <= j < |entries| && BindsAt(s.value, entries, p.value, 0, j, s.value.target, s.value.required) ==>
            entries[j].0 in r.bound)
      && (r.err.Some? ==> r.err.value.FieldBindingError? || r.err.value.MissingRequiredField?)
  {
    match s
    case None => Outcome(None, None, [])
    case Some(st) =>
      match p
      case None => Outcome(s, Some(MissingValueBinderProvider), [])
      case Some(provider) =>
        var f := Feed(st, entries, provider, 0, st.target, st.required);
        FeedPending(st, entries, provider, 0, st.target, st.required);
        FeedBound(st, entries, provider, 0, st.target, st.required);
        FeedErrors(st, entries, provider, 0, st.target, st.required);
        FeedWritesNamedSlots(st, entries, provider, 0, st.target, st.required);
        FeedBindsAll(st, entries, provider, 0, st.target, st.required);
        Outcome(Some(st.(target := f.target)), f.err, f.bound)
  }

  /** A bind whose provider never fails binds every registered name that
      has a non-nil value, and can fail only for a missing required name. */
  lemma BindFieldsNeverFails(s: Struct, entries: seq<(string, Input)>, p: Provider)
    requires Valid(s) && NeverFails(p)
    ensures var r := BindFields(Some(s), entries, Some(p));
      (r.err.None? || r.err.value.MissingRequiredField?)
      && forall j :: 0 <= j < |entries| && entries[j].0 in s.fields && !entries[j].1.Nil? ==> entries[j].0 in r.bound
  {
    forall j, e | 0 <= j < |entries|
      ensures !FailsAt(s, entries, p, 0, j, s.target, s.required, e)
    {
    }
    forall j | 0 <= j < |entries| && entries[j].0 in s.fields && !entries[j].1.Nil?
      ensures BindsAt(s, entries, p, 0, j, s.target, s.required)
    {
      UptoNeverFails(s, entries, p, 0, j, s.target, s.required);
    }
  }

  /** A bind whose provider never fails, given a non-nil value for every
      required name, ends without error. */
  lemma BindFieldsSupplied(s: Struct, entries: seq<(string, Input)>, p: Provider)
    requires Valid(s) && NeverFails(p)
    requires forall n :: n in s.required ==> exists j :: 0 <= j < |entries| && entries[j].0 == n && !entries[j].1.Nil?
    ensures BindFields(Some(s), entries, Some(p)).err.None?
  {
    var r := BindFields(Some(s), entries, Some(p));
    BindFieldsNeverFails(s, entries, p);
    assert forall n :: n in s.required ==> n in r.bound;
    FeedErrors(s, entries, p, 0, s.target, s.required);
    FeedPending(s, entries, p, 0, s.target, s.required);
    var f := Feed(s, entries, p, 0, s.target, s.required);
    assert |f.pending| == 0 || f.pending[0] in f.pending;
  }

  /** The ignore provider leaves the forward run where it started. */
  lemma {:induction false} UptoIgnored(s: Struct, entries: seq<(string, Input)>, i: nat, l: nat,
                                       target: seq<Slot>, pending: seq<string>)
    requires Valid(s) && |target| == |s.target| && FlagSet.Sorted(pending) && i <= l <= |entries|
    ensures Upto(s, entries, BuildIgnoreBinder(), i, l, target, pending) == Fold(target, pending, [], None)
    decreases l
  {
    if l > i {
      UptoIgnored(s, entries, i, l - 1, target, pending);
    }
  }

  /** With `BuildIgnoreBinder` every entry is passed over: no slot changes,
      nothing is bound, and the least required name, if any, is missing. */
  lemma BindFieldsIgnored(s: Struct, entries: seq<(string, Input)>)
    requires Valid(s)
    ensures BindFields(Some(s), entries, Some(BuildIgnoreBinder()))
      == Outcome(Some(s), if |s.required| > 0 then Some(MissingRequiredField(s.required[0])) else None, [])
  {
    UptoIgnored(s, entries, 0, |entries|, s.target, s.required);
    FeedIsLoop(s, entries, BuildIgnoreBinder(), 0, s.target, s.required);
  }

  /** `BindChan`: the same fold over the values a channel delivers until it
      is closed, given here as the finite sequence of those values. */
  function BindChan(s: Option<Struct>, stream: seq<(string, Input)>, p: Option<Provider>): Outcome
    requires s.Some? ==> Valid(s.value)
  {
    BindFields(s, stream, p)
  }

  /** `BindIterator`: binds what the iterator produces; a nil receiver and a
      missing provider are answered before the iterator is asked. */
  function BindIterator(s: Option<Struct>, produced: seq<(string, Input)>, p: Option<Provider>): (r: Outcome)
    requires s.Some? ==> Valid(s.value)
    ensures s.None? ==> r == Outcome(None, None, [])
    ensures s.Some? && p.None? ==> r.err == Some(MissingValueBinderProvider) && r.bound == []
  {
    if s.None? then Outcome(None, None, [])
    else if p.None? then Outcome(s, Some(MissingValueBinderProvider), [])
    else BindChan(s, produced, p)
  }

  /** The order a map is iterated in: every key exactly once. */
  predicate EnumeratesKeys<V>(m: map<string, V>, order: seq<string>)
  {
    (forall k :: k in m ==> k in order)
    && (forall k :: k in order ==> k in m)
    && (forall a, b :: 0 <= a < b < |order| ==> order[a] != order[b])
  }

  /** The entries of a map, in the given iteration order. */
  function MapEntries(values: map<string, Input>, order: seq<string>): (entries: seq<(string, Input)>)
    requires forall k :: k in order ==> k in values
    ensures |entries| == |order|
    ensures forall j :: 0 <= j < |order| ==> entries[j] == (order[j], values[order[j]])
  {
    seq(|order|, j requires 0 <= j < |order| => (order[j], values[order[j]]))
  }

  /** `BindMap`: binds the map's entries in the given iteration order. */
  function BindMap(s: Option<Struct>, values: map<string, Input>, order: seq<string>, p: Option<Provider>): (r: Outcome)
    requires s.Some? ==> Valid(s.value)
    requires EnumeratesKeys(values, order)
    ensures s.None? ==> r == Outcome(None, None, [])
    ensures s.Some? && p.None? ==> r == Outcome(s, Some(MissingValueBinderProvider), [])
    ensures s.Some? && p.Some? && r.err.None? ==>
      forall n :: n in s.value.required ==> n in values && !values[n].Nil? && n in r.bound
    ensures s.Some? && p.Some? && r.err.Some? && r.err.value.MissingRequiredField? ==>
      var x := r.err.value.field;
      x in s.value.required && x !in r.bound
      && forall y :: y in s.value.required && y !in r.bound && y != x ==> FlagSet.Less(x, y)
    ensures s.Some? && p.Some? && r.err.Some? && r.err.value.FieldBindingError? ==>
      r.err.value.field in values && values[r.err.value.field] == r.err.value.value
    ensures s.Some? && p.Some? ==> forall n :: n in r.bound <==>
      exists j :: 0 <= j < |order| && order[j] == n
        && BindsAt(s.value, MapEntries(values, order), p.value, 0, j, s.value.target, s.value.required)
  {
    if s.None? then Outcome(None, None, [])
    else
      var entries := MapEntries(values, order);
      var r := BindIterator(s, entries, p);
      assert p.Some? && r.err.None? ==> forall n :: n in s.value.required ==> n in r.bound;
      if p.Some? then
        BindMapBound(s.value, values, order, p.value);
        r
      else r
  }

  /** The names a map bind binds are exactly the keys whose entry the
      loop reached and whose binder succeeded. */
  lemma BindMapBound(s: Struct, values: map<string, Input>, order: seq<string>, p: Provider)
    requires Valid(s) && EnumeratesKeys(values, order)
    ensures var entries := MapEntries(values, order);
      var r := BindFields(Some(s), entries, Some(p));
      forall n :: n in r.bound <==>
        exists j :: 0 <= j < |order| && order[j] == n && BindsAt(s, entries, p, 0, j, s.target, s.required)
  {
    var entries := MapEntries(values, order);
    assert forall j :: 0 <= j < |order| ==> entries[j].0 == order[j];
  }

  /** With a provider that never fails, a map binds without error exactly
      when every required name is a key with a non-nil value; otherwise
      the error names a required name that is missing from the map or
      nil in it. */
  lemma BindMapSupplied(s: Struct, values: map<string, Input>, order: seq<string>, p: Provider)
    requires Valid(s) && EnumeratesKeys(values, order) && NeverFails(p)
    ensures var r := BindMap(Some(s), values, order, Some(p));
      (r.err.None? <==> forall n :: n in s.required ==> n in values && !values[n].Nil?)
      && (r.err.Some? ==> (r.err.value.MissingRequiredField?
            && (r.err.value.field !in values || values[r.err.value.field].Nil?)))
  {
    var entries := MapEntries(values, order);
    var r := BindMap(Some(s), values, order, Some(p));
    assert r == BindFields(Some(s), entries, Some(p));
    BindFieldsNeverFails(s, entries, p);
    forall n | n in s.required && n in values && !values[n].Nil?
      ensures n in r.bound && exists j :: 0 <= j < |entries| && entries[j].0 == n && !entries[j].1.Nil?
    {
      var j :| 0 <= j < |order| && order[j] == n;
      assert entries[j] == (n, values[n]);
    }
    if forall n :: n in s.required ==> n in values && !values[n].Nil? {
      BindFieldsSupplied(s, entries, p);
    }
  }

  // ---------------------------------------------------------------------
  // The Init/Bind/Deinit protocol

  /** A `StructBinder`: Init and Deinit see the struct; Bind gets a field's
      metadata and slot and returns the slot's new content. */
  datatype StructBinder = StructBinder(
    init: Struct -> Option<Error>,
    bind: (FieldInfo, GoType, Value) -> (Value, Option<Error>),
    deinit: Struct -> Option<Error>)

  /** The calls `Bind` makes on the binder, in order. */
  datatype Call = InitCall | BindCall(name: string) | DeinitCall

  function BindCalls(names: seq<string>): (r: seq<Call>)
    ensures |r| == |names| && forall j :: 0 <= j < |names| ==> r[j] == BindCall(names[j])
  {
    seq(|names|, j requires 0 <= j < |names| => BindCall(names[j]))
  }

  /** The calls of a run whose Bind failed at position k of the order. */
  function FailedAt(order: seq<string>, k: nat): seq<Call>
    requires k < |order|
  {
    [InitCall] + BindCalls(order[..k + 1])
  }

  /** The result of `Bind`: the struct, the error and the calls made. */
  datatype Run = Run(s: Struct, err: Option<Error>, calls: seq<Call>)

  /** What `binder.bind` returns for field f on the slots t. */
  function BindResult(binder: StructBinder, f: FieldInfo, t: seq<Slot>): (Value, Option<Error>)
    requires f.index < |t|
  {
    binder.bind(f, t[f.index].decl.t, t[f.index].v)
  }

  /** The slots after the first j calls of `binder.bind` in the iteration
      order, each call writing the slot of its field. */
  function Applied(s: Struct, binder: StructBinder, order: seq<string>, j: nat): (t: seq<Slot>)
    requires Valid(s) && j <= |order|
    requires forall n :: n in order ==> n in s.fields
    ensures |t| == |s.target|
    decreases j
  {
    if j == 0 then s.target
    else
      var t := Applied(s, binder, order, j - 1);
      var f := s.fields[order[j - 1]];
      t[f.index := t[f.index].(v := BindResult(binder, f, t).0)]
  }

  /** What the call on the j-th field of the order returns. */
  function CallAt(s: Struct, binder: StructBinder, order: seq<string>, j: nat): (Value, Option<Error>)
    requires Valid(s) && j < |order|
    requires forall n :: n in order ==> n in s.fields
  {
    BindResult(binder, s.fields[order[j]], Applied(s, binder, order, j))
  }

  /** Every call from the i-th field of the order on returns no error. */
  ghost predicate SucceedsFrom(s: Struct, binder: StructBinder, order: seq<string>, i: nat)
    requires Valid(s)
    requires forall n :: n in order ==> n in s.fields
  {
    forall j :: i <= j < |order| ==> CallAt(s, binder, order, j).1.None?
  }

  /** The call on the k-th field is the first from the i-th on that returns
      an error. */
  ghost predicate FirstFailure(s: Struct, binder: StructBinder, order: seq<string>, i: nat, k: nat)
    requires Valid(s)
    requires forall n :: n in order ==> n in s.fields
  {
    i <= k < |order| && CallAt(s, binder, order, k).1.Some?
    && forall j :: i <= j < k ==> CallAt(s, binder, order, j).1.None?
  }

  /** The per-field loop of `Bind` from position i of the iteration order,
      on the slots t. */
  function BindEach(s: Struct, binder: StructBinder, order: seq<string>, i: nat, t: seq<Slot>): (r: (seq<Slot>, Option<(nat, Error)>))
    requires Valid(s) && i <= |order| && |t| == |s.target|
    requires forall n :: n in order ==> n in s.fields
    ensures |r.0| == |t|
    ensures r.1.Some? ==> i <= r.1.value.0 < |order|
    decreases |order| - i
  {
    if i == |order| then (t, None)
    else
      var f := s.fields[order[i]];
      var (v, err) := BindResult(binder, f, t);
      var written := t[f.index := t[f.index].(v := v)];
      if err.Some? then (written, Some((i, err.value)))
      else BindEach(s, binder, order, i + 1, written)
  }

  /** One iteration of the loop: the call on the i-th field writes its
      slot, and the loop either stops with its error or goes on. */
  lemma BindEachStep(s: Struct, binder: StructBinder, order: seq<string>, i: nat)
    requires Valid(s) && i < |order|
    requires forall n :: n in order ==> n in s.fields
    ensures var c := CallAt(s, binder, order, i);
      BindEach(s, binder, order, i, Applied(s, binder, order, i))
      == if c.1.None? then BindEach(s, binder, order, i + 1, Applied(s, binder, order, i + 1))
         else (Applied(s, binder, order, i + 1), Some((i, c.1.value)))
  {
    var t := Applied(s, binder, order, i);
    var f := s.fields[order[i]];
    assert Applied(s, binder, order, i + 1) == t[f.index := t[f.index].(v := CallAt(s, binder, order, i).0)];
  }

  /** The loop from position i on, started on the slots the first i calls
      left, ends without error only when every call from i on returned no
      error; its slots are then those all the calls left. */
  lemma {:induction false} BindEachRuns(s: Struct, binder: StructBinder, order: seq<string>, i: nat)
    requires Valid(s) && i <= |order|
    requires forall n :: n in order ==> n in s.fields
    ensures var r := BindEach(s, binder, order, i, Applied(s, binder, order, i));
      r.1.None? ==> r.0 == Applied(s, binder, order, |order|) && SucceedsFrom(s, binder, order, i)
    decreases |order| - i
  {
    if i < |order| {
      BindEachStep(s, binder, order, i);
      var c := CallAt(s, binder, order, i);
      if c.1.None? {
        BindEachRuns(s, binder, order, i + 1);
        var r := BindEach(s, binder, order, i + 1, Applied(s, binder, order, i + 1));
        if r.1.None? {
          forall j | i <= j < |order|
            ensures CallAt(s, binder, order, j).1.None?
          {
            if j == i {
              assert CallAt(s, binder, order, j) == c;
            }
          }
        }
      }
    }
  }

  /** The loop from position i on stops at the first call that returns an
      error, with that error, every earlier call having returned none. */
  lemma {:induction false} BindEachStops(s: Struct, binder: StructBinder, order: seq<string>, i: nat)
    requires Valid(s) && i <= |order|
    requires forall n :: n in order ==> n in s.fields
    ensures var r := BindEach(s, binder, order, i, Applied(s, binder, order, i));
      r.1.Some? ==> (FirstFailure(s, binder, order, i, r.1.value.0)
            && CallAt(s, binder, order, r.1.value.0).1 == Some(r.1.value.1))
    decreases |order| - i
  {
    if i < |order| {
      BindEachStep(s, binder, order, i);
      var c := CallAt(s, binder, order, i);
      if c.1.None? {
        BindEachStops(s, binder, order, i + 1);
        var r := BindEach(s, binder, order, i + 1, Applied(s, binder, order, i + 1));
        if r.1.Some? {
          FirstFailureExtends(s, binder, order, i, r.1.value.0);
        }
      } else {
        FirstFailureHere(s, binder, order, i);
      }
    }
  }

  /** A loop that stops at the call on the k-th field leaves the slots the
      calls up to that one left. */
  lemma {:induction false} BindEachStopsSlots(s: Struct, binder: StructBinder, order: seq<string>, i: nat)
    requires Valid(s) && i <= |order|
    requires forall n :: n in order ==> n in s.fields
    ensures var r := BindEach(s, binder, order, i, Applied(s, binder, order, i));
      r.1.Some? ==> r.0 == Applied(s, binder, order, r.1.value.0 + 1)
    decreases |order| - i
  {
    if i < |order| {
      BindEachStep(s, binder, order, i);
      if CallAt(s, binder, order, i).1.None? {
        BindEachStopsSlots(s, binder, order, i + 1);
      }
    }
  }

  /** A call that returns no error, followed by a first failure, moves the
      first failure back by one call. */
  lemma FirstFailureExtends(s: Struct, binder: StructBinder, order: seq<string>, i: nat, k: nat)
    requires Valid(s) && i < |order|
    requires forall n :: n in order ==> n in s.fields
    requires CallAt(s, binder, order, i).1.None? && FirstFailure(s, binder, order, i + 1, k)
    ensures FirstFailure(s, binder, order, i, k)
  {
    forall j | i <= j < k
      ensures CallAt(s, binder, order, j).1.None?
    {
      if j > i {
        assert i + 1 <= j < k;
      }
    }
  }

  /** A call that returns an error is the first failure from itself on. */
  lemma FirstFailureHere(s: Struct, binder: StructBinder, order: seq<string>, i: nat)
    requires Valid(s) && i < |order|
    requires forall n :: n in order ==> n in s.fields
    requires CallAt(s, binder, order, i).1.Some?
    ensures FirstFailure(s, binder, order, i, i)
  {
  }

  /** `Struct.Bind`: Init once, Bind once per registered field in the
      given iteration order, Deinit once; the first error ends the run. It
      checks no required names of its own. */
  function Bind(s: Struct, binder: StructBinder, order: seq<string>): (r: Run)
    requires Valid(s)
    requires EnumeratesKeys(s.fields, order)
    ensures |r.calls| >= 1 && r.calls[0] == InitCall
    ensures binder.init(s).Some? ==> r == Run(s, binder.init(s), [InitCall])
    ensures binder.init(s).None? && SucceedsFrom(s, binder, order, 0) ==>
      var after := s.(target := Applied(s, binder, order, |order|));
      r == Run(after, binder.deinit(after), [InitCall] + BindCalls(order) + [DeinitCall])
      && |r.calls| == |s.fields| + 2
    ensures binder.init(s).None? && !SucceedsFrom(s, binder, order, 0) ==>
      exists k: nat :: FirstFailure(s, binder, order, 0, k)
        && r == Run(s.(target := Applied(s, binder, order, k + 1)), CallAt(s, binder, order, k).1, FailedAt(order, k))
    ensures r.s.fields == s.fields && r.s.required == s.required
  {
    KeysCount(s.fields, order);
    match binder.init(s)
    case Some(e) => Run(s, Some(e), [InitCall])
    case None =>
      BindEachRuns(s, binder, order, 0);
      BindEachStops(s, binder, order, 0);
      BindEachStopsSlots(s, binder, order, 0);
      var (target, failed) := BindEach(s, binder, order, 0, s.target);
      var after := s.(target := target);
      match failed
      case Some((k, e)) => Run(after, Some(e), FailedAt(order, k))
      case None =>
        var calls := [InitCall] + BindCalls(order) + [DeinitCall];
        Run(after, binder.deinit(after), calls)
  }

  /** `FunctionStructBinder`: Init and Deinit do nothing, Bind is the
      mapper. */
  function FunctionStructBinder(mapper: (FieldInfo, GoType, Value) -> (Value, Option<Error>)): (b: StructBinder)
    ensures forall s :: b.init(s).None? && b.deinit(s).None?
    ensures forall f, t, x :: b.bind(f, t, x) == mapper(f, t, x)
  {
    StructBinder(_ => None, mapper, _ => None)
  }

  /** `Struct.Map`: the mapper runs on every field in the given order
      unless it fails; the run fails exactly when some call of the mapper
      does, with the error of the first such call, at which the run
      stops; nothing else can fail, since Init and Deinit do nothing. */
  function Map(s: Struct, mapper: (FieldInfo, GoType, Value) -> (Value, Option<Error>), order: seq<string>): (r: Run)
    requires Valid(s)
    requires EnumeratesKeys(s.fields, order)
    ensures var b := FunctionStructBinder(mapper);
      r.err.None? <==> SucceedsFrom(s, b, order, 0)
    ensures var b := FunctionStructBinder(mapper);
      r.err.None? ==> (r.calls == [InitCall] + BindCalls(order) + [DeinitCall]
        && r.s.target == Applied(s, b, order, |order|))
    ensures var b := FunctionStructBinder(mapper);
      r.err.Some? ==> exists k: nat :: (FirstFailure(s, b, order, 0, k) && r.err == CallAt(s, b, order, k).1
        && r.calls == FailedAt(order, k) && r.s.target == Applied(s, b, order, k + 1))
    ensures r.s.fields == s.fields && r.s.required == s.required
  {
    Bind(s, FunctionStructBinder(mapper), order)
  }

  /** `Visit`: the visitor calls, one per registered field in the given
      iteration order, each with the name, the slot content and the
      metadata. */
  function Visit(s: Struct, order: seq<string>): (r: seq<(string, Value, FieldInfo)>)
    requires Valid(s)
    requires EnumeratesKeys(s.fields, order)
    ensures |r| == |s.fields|
    ensures forall n :: n in s.fields <==> exists j :: 0 <= j < |r| && r[j].0 == n
    ensures forall j :: 0 <= j < |r| ==> r[j].2 == s.fields[r[j].0] && r[j].1 == s.target[r[j].2.index].v
  {
    KeysCount(s.fields, order);
    var r := seq(|order|, j requires 0 <= j < |order| => (order[j], s.target[s.fields[order[j]].index].v, s.fields[order[j]]));
    assert forall j :: 0 <= j < |r| ==> r[j].0 == order[j];
    r
  }

  /** An enumeration of a map's keys has as many entries as the map. */
  lemma {:induction false} KeysCount<V>(m: map<string, V>, order: seq<string>)
    requires EnumeratesKeys(m, order)
    ensures |order| == |m|
    decreases |order|
  {
    if |order| > 0 {
      var k := order[|order| - 1];
      var rest := order[..|order| - 1];
      var m' := m - {k};
      assert k in order;
      forall a | a in m'
        ensures a in rest
      {
        var b :| 0 <= b < |order| && order[b] == a;
        assert b != |order| - 1;
        assert rest[b] == a;
      }
      forall a | a in rest
        ensures a in m'
      {
        var b :| 0 <= b < |rest| && rest[b] == a;
        assert order[b] == a && order[b] != order[|order| - 1];
      }
      forall a, b | 0 <= a < b < |rest|
        ensures rest[a] != rest[b]
      {
        assert rest[a] == order[a] && rest[b] == order[b];
      }
      KeysCount(m', rest);
    } else {
      assert m.Keys == {};
    }
  }
}

=== FILE: context.dfy ===
/** The read-only view of a resolved struct (structProtoContext.go):
    field lookup, the field names by index, the required names, and the
    required-name check over a stream of observed names. */
module Context {
  import opened Outcomes
  import opened GoValues
  import opened Errors
  import FlagSet
  import opened FieldInfos
  import opened Registry
  import opened TagResolvers
  import Binding

  /** `Field` as written: the lookup result is returned through the
      `FieldInfo` interface, which holds a typed nil for an unknown name and
      so never compares equal to nil; reading its index then dereferences
      the nil pointer. */
  function FieldAsWritten(s: Struct, name: string): (r: Result<(Option<Value>, bool), Error>)
    requires Valid(s)
    ensures name in s.fields ==> r == Ok((Some(s.target[s.fields[name].index].v), true))
    ensures name !in s.fields ==> r == Err(NilDereference)
  {
    if name in s.fields then Ok((Some(s.target[s.fields[name].index].v), true))
    else Err(NilDereference)
  }

  /** An unknown name makes the lookup as written fail instead of answering
      false. */
  lemma FieldAsWrittenPanics()
    ensures var s := Struct([], map[], [], false);
      Valid(s) && FieldAsWritten(s, "missing").Err?
  {
  }

  /** `Field` as intended: the slot of a registered name and true; no slot
      and false for any other name. */
  function Field(s: Struct, name: string): (r: (Option<Value>, bool))
    requires Valid(s)
    ensures r.1 <==> name in s.fields
    ensures r.0.Some? <==> r.1
    ensures r.1 ==> r.0.value == s.target[s.fields[name].index].v
  {
    if name in s.fields then (Some(s.target[s.fields[name].index].v), true)
    else (None, false)
  }

  /** Where the lookup as written answers, it answers as intended. */
  lemma FieldAgreesWhenRegistered(s: Struct, name: string)
    requires Valid(s)
    ensures FieldAsWritten(s, name).Ok? <==> name in s.fields
    ensures FieldAsWritten(s, name).Ok? ==> FieldAsWritten(s, name).value == Field(s, name)
  {
  }

  /** When the loop reaches entry j, its value is non-nil and its binder
      succeeds, and no later entry names a field at the same index, then
      after the bind `Field` reads back what entry j's binder produced,
      whatever the rest of the loop did. */
  lemma FieldAfterBind(s: Struct, entries: seq<(string, Input)>, p: Binding.Provider, j: nat)
    requires Valid(s) && j < |entries| && entries[j].0 in s.fields
    requires Binding.BindsAt(s, entries, p, 0, j, s.target, s.required)
    requires forall m :: j < m < |entries| && entries[m].0 in s.fields ==>
      s.fields[entries[m].0].index != s.fields[entries[j].0].index
    ensures var r := Binding.BindFields(Some(s), entries, Some(p));
      var b := Binding.BinderAt(s, entries, p, 0, j, s.target, s.required).value;
      r.s.Some? && Valid(r.s.value)
      && Field(r.s.value, entries[j].0) == (Some(b(entries[j].1).value), true)
  {
    var k := s.fields[entries[j].0].index;
    Binding.UptoWritesEntry(s, entries, p, 0, j, s.target, s.required);
    Binding.UptoFrame(s, entries, p, 0, j + 1, |entries|, s.target, s.required, k);
    Binding.FeedIsLoop(s, entries, p, 0, s.target, s.required);
  }

  /** `FieldNames` as intended: a slice with one entry per declared field,
      holding at each field index the name registered there (the last one
      in map iteration order when several share an index), and ""
      elsewhere. Sizing it by the declared fields keeps every index in
      range. */
  method FieldNames(s: Struct, order: seq<string>) returns (names: seq<string>)
    requires Valid(s)
    requires Binding.EnumeratesKeys(s.fields, order)
    ensures |names| == |s.target|
    ensures forall k :: 0 <= k < |names| && names[k] != "" ==> names[k] in s.fields && s.fields[names[k]].index == k
    ensures forall n :: n in s.fields && Distinct(s, n) ==> names[s.fields[n].index] == n
  {
    names := seq(|s.target|, _ => "");
    var j := 0;
    while j < |order|
      invariant 0 <= j <= |order|
      invariant |names| == |s.target|
      invariant forall k :: 0 <= k < |names| && names[k] != "" ==> names[k] in s.fields && s.fields[names[k]].index == k
      invariant forall a :: 0 <= a < j && Distinct(s, order[a]) ==> names[s.fields[order[a]].index] == order[a]
    {
      var n := order[j];
      names := names[s.fields[n].index := n];
      j := j + 1;
    }
  }

  /** The loop of `FieldNames` as written, from position j of the map
      iteration order: each registered name is stored at its field index in
      a slice of the given length; an index past the end panics. */
  function PlaceNames(s: Struct, order: seq<string>, j: nat, names: seq<string>): (r: Result<seq<string>, Error>)
    requires Valid(s) && j <= |order|
    requires forall a :: 0 <= a < |order| ==> order[a] in s.fields
    requires forall k :: 0 <= k < |names| && names[k] != "" ==> names[k] in s.fields && s.fields[names[k]].index == k
    ensures r.Ok? <==> forall a :: j <= a < |order| ==> s.fields[order[a]].index < |names|
    ensures r.Err? ==> r.error == IndexOutOfRange
    ensures r.Ok? ==> (|r.value| == |names|
      && forall k :: 0 <= k < |r.value| && r.value[k] != "" ==> r.value[k] in s.fields && s.fields[r.value[k]].index == k)
    decreases |order| - j
  {
    if j == |order| then Ok(names)
    else
      var k := s.fields[order[j]].index;
      if k >= |names| then Err(IndexOutOfRange)
      else PlaceNames(s, order, j + 1, names[k := order[j]])
  }

  /** `FieldNames` as written: the slice has one entry per registered
      name, but it is indexed by declaration position, which counts the
      untagged fields too; a struct with fewer names than its last named
      field's position makes it panic. */
  function FieldNamesAsWritten(s: Struct, order: seq<string>): (r: Result<seq<string>, Error>)
    requires Valid(s)
    requires Binding.EnumeratesKeys(s.fields, order)
    ensures r.Ok? <==> forall n :: n in s.fields ==> s.fields[n].index < |s.fields|
    ensures r.Err? ==> r.error == IndexOutOfRange
    ensures r.Ok? ==> (|r.value| == |s.fields|
      && forall k :: 0 <= k < |r.value| && r.value[k] != "" ==> r.value[k] in s.fields && s.fields[r.value[k]].index == k)
  {
    assert forall a :: 0 <= a < |order| ==> order[a] in order;
    assert forall n :: n in s.fields ==> exists a :: 0 <= a < |order| && order[a] == n;
    PlaceNames(s, order, 0, seq(|s.fields|, _ => ""))
  }

  /** A struct with an untagged field `X int` followed by a field
      `Name string` tagged `demo:"NAME"`. */
  function DemoSlots(): seq<Slot>
  {
    [Slot(FieldDecl("X", StructTag([]), TInt(Int)), VInt(0)),
     Slot(FieldDecl("Name", StructTag([("demo", "NAME")]), TString), VString(""))]
  }

  /** The standard resolver on tag key "demo" skips X and names the second
      field NAME. */
  lemma DemoTags()
    ensures Tags(StructProtoResolver("demo", Std, false), Decls(DemoSlots()))
      == [Ok(None), Ok(Some(Tag("NAME", [], "")))]
  {
    var decl := Decls(DemoSlots());
    assert GetTagContent("demo", decl[0].tag) == "";
    assert GetTagContent("demo", decl[1].tag) == "NAME";
    assert Sections("NAME") == ("NAME", "");
    assert LeadingStars("NAME") == 0;
    StdLeadingSymbols("Name", "NAME");
    StdDescription("Name", "NAME");
  }

  /** Registering a skipped field and then a field named NAME. */
  lemma DemoRegistered(decl: seq<FieldDecl>, tags: seq<Result<Option<Tag>, Error>>)
    requires decl == Decls(DemoSlots())
    requires tags == [Ok(None), Ok(Some(Tag("NAME", [], "")))]
    ensures Register(decl, tags, false, 0, Index(map[], []))
      == Ok(Index(map["NAME" := FieldInfo("Name", "NAME", "", 1, [], StructTag([("demo", "NAME")]))], []))
  {
    var f := MakeField(decl, 1, Tag("NAME", [], ""));
    FlagSet.SameElementsEmpty(f.flags, []);
    var i0 := Index(map[], []);
    var i2 := Index(map["NAME" := f], []);
    assert Register(decl, tags, false, 1, i0) == Register(decl, tags, false, 2, i2);
    assert Register(decl, tags, false, 0, i0) == Register(decl, tags, false, 1, i0);
  }

  /** Resolving the demo struct registers NAME alone, at field index 1. */
  lemma DemoResolved()
    ensures InternalResolve(StructProtoResolver("demo", Std, false), DemoSlots(), false)
      == Ok(DemoStruct())
  {
    DemoTags();
    DemoRegistered(Decls(DemoSlots()), Tags(StructProtoResolver("demo", Std, false), Decls(DemoSlots())));
  }

  /** The registry resolving the demo struct yields. */
  function DemoStruct(): Struct
  {
    Struct(DemoSlots(), map["NAME" := FieldInfo("Name", "NAME", "", 1, [], StructTag([("demo", "NAME")]))], [], false)
  }

  /** The only registered name sits at field index 1 of a one-entry slice,
      so `FieldNames` as written panics. */
  lemma FieldNamesAsWrittenPanics()
    ensures var s := InternalResolve(StructProtoResolver("demo", Std, false), DemoSlots(), false);
      s == Ok(DemoStruct()) && Valid(DemoStruct()) && Binding.EnumeratesKeys(DemoStruct().fields, ["NAME"])
      && FieldNamesAsWritten(DemoStruct(), ["NAME"]) == Err(IndexOutOfRange)
  {
    DemoResolved();
    assert DemoStruct().fields["NAME"].index == 1 && |DemoStruct().fields| == 1;
  }

  /** On the same struct, `FieldNames` as intended places NAME at field
      index 1 and leaves the untagged field's entry empty. */
  method DemoFieldNames() returns (names: seq<string>)
    ensures names == ["", "NAME"]
  {
    var s := DemoStruct();
    assert Valid(s) && Binding.EnumeratesKeys(s.fields, ["NAME"]) && Distinct(s, "NAME");
    names := FieldNames(s, ["NAME"]);
    assert names[1] == "NAME";
    assert names[0] == "";
  }

  /** No other registered name shares the field index of n. */
  ghost predicate Distinct(s: Struct, n: string)
    requires n in s.fields
  {
    forall m :: m in s.fields && s.fields[m].index == s.fields[n].index ==> m == n
  }

  /** Registration stores each name at the index of a field that
      resolves to it, and a field resolves to one name only, so no two
      registered names share an index. */
  lemma ResolvedDistinct(r: StructProtoResolver, slots: seq<Slot>, detached: bool)
    requires InternalResolve(r, slots, detached).Ok?
    ensures var s := InternalResolve(r, slots, detached).value;
      forall n :: n in s.fields ==> Distinct(s, n)
  {
    var s := InternalResolve(r, slots, detached).value;
    forall n, m | n in s.fields && m in s.fields && s.fields[m].index == s.fields[n].index
      ensures m == n
    {
      RegisteredNames(r, slots, detached, n);
      RegisteredNames(r, slots, detached, m);
    }
  }

  /** Every struct the walk of `Resolve` produces has distinct field
      indices, so `FieldNames` places every one of its names. */
  lemma {:induction false} WalkDistinct(r: StructProtoResolver, t: Target, step: nat, detached: bool)
    requires step <= 32 && Walk(r, t, step, detached).Ok?
    ensures var s := Walk(r, t, step, detached).value;
      forall n :: n in s.fields ==> Distinct(s, n)
    decreases 32 - step
  {
    match t
    case StructValue(slots) => ResolvedDistinct(r, slots, detached);
    case PtrTo(inner) => WalkDistinct(r, inner, step + 1, detached);
    case NilPtr(shape) => WalkDistinct(r, ZeroTarget(shape), step + 1, true);
  }

  /** `RequiredFields`: the registry's required names, ascending; every
      field flagged required is among them, and each of them is registered. */
  function RequiredFields(s: Struct): (r: seq<string>)
    requires Valid(s)
    ensures FlagSet.Sorted(r)
    ensures forall n :: n in s.fields && IsRequired(s, n) ==> n in r
    ensures forall n :: n in r ==> n in s.fields
    ensures r == s.required
  {
    s.required
  }

  /** `IsRequired`: the name is registered and its field carries the
      required flag. */
  function IsRequired(s: Struct, name: string): (r: bool)
    requires Valid(s)
    ensures r <==> name in s.fields && RequiredFlag in s.fields[name].flags
  {
    if name in s.fields then HasFlag(s.fields[name], RequiredFlag) else false
  }

  /** The pending names are the required names not among those seen. */
  ghost predicate PendingAfter(pending: seq<string>, required: seq<string>, seen: seq<string>)
  {
    forall x :: x in pending <==> x in required && x !in seen
  }

  /** Observing one more name settles it. */
  lemma SettleObserved(pending: seq<string>, required: seq<string>, observed: seq<string>, j: nat)
    requires FlagSet.Sorted(pending) && j < |observed|
    requires PendingAfter(pending, required, observed[..j])
    ensures PendingAfter(Binding.Settle(pending, observed[j]), required, observed[..j + 1])
  {
    assert observed[..j + 1] == observed[..j] + [observed[j]];
  }

  /** Once nothing is pending, every required name has been seen; the least
      name pending one step earlier had not been seen before that step. */
  lemma AllSeen(before: seq<string>, required: seq<string>, observed: seq<string>, j: nat)
    requires 0 < j <= |observed| && |before| > 0
    requires PendingAfter(before, required, observed[..j - 1])
    requires PendingAfter([], required, observed[..j])
    ensures forall n :: n in required ==> n in observed[..j] && n in observed
    ensures exists n :: n in required && n !in observed[..j - 1]
  {
    assert before[0] in before;
    forall n | n in required
      ensures n in observed
    {
      assert n in observed[..j];
      var k :| 0 <= k < j && observed[..j][k] == n;
      assert observed[k] == n;
    }
  }

  /** `CheckIfMissingRequiredFields`: drains the observed names until every
      required name has been seen. Reports whether the name producer was
      invoked at all, and how many names were consumed. */
  method CheckIfMissingRequiredFields(s: Struct, observed: seq<string>)
    returns (err: Option<Error>, invoked: bool, consumed: nat)
    requires Valid(s)
    ensures invoked <==> |s.required| > 0
    ensures !invoked ==> err.None? && consumed == 0
    ensures consumed <= |observed|
    ensures err.None? <==> forall n :: n in s.required ==> n in observed
    ensures err.None? ==> forall n :: n in s.required ==> n in observed[..consumed]
    ensures err.None? && invoked ==> consumed > 0 && exists n :: n in s.required && n !in observed[..consumed - 1]
    ensures err.Some? ==>
      (err.value.MissingRequiredField? && err.value.field in s.required && err.value.field !in observed
       && forall y :: y in s.required && y !in observed && y != err.value.field ==> FlagSet.Less(err.value.field, y))
  {
    if |s.required| == 0 {
      return None, false, 0;
    }
    invoked := true;
    var pending := FlagSet.Clone(s.required);
    assert PendingAfter(pending, s.required, observed[..0]);
    var j := 0;
    while j < |observed|
      invariant 0 <= j <= |observed|
      invariant FlagSet.Sorted(pending) && |pending| > 0
      invariant PendingAfter(pending, s.required, observed[..j])
    {
      var before := pending;
      SettleObserved(pending, s.required, observed, j);
      pending := Binding.Settle(pending, observed[j]);
      j := j + 1;
      if |pending| == 0 {
        AllSeen(before, s.required, observed, j);
        return None, true, j;
      }
    }
    assert observed[..j] == observed;
    Binding.SortedLeast(pending);
    assert pending[0] in pending;
    return Some(MissingRequiredField(pending[0])), true, |observed|;
  }
}

=== FILE: converters.dfy ===
/** The byte converters of valuebinder/converter: `RawContent` and
    `RawMessage` (two named `[]byte` types, converted by the same rules)
    and `Buffer` (`bytes.Buffer`). */
module Converters {
  import opened Outcomes
  import opened GoValues
  import opened Errors

  /** `r` is where a walk from a value of type t may stop: the value
      itself, or, behind a non-nil pointer, a stop of the pointee (for a
      pointer to `interface{}`, of the boxed value, or Nil when the box is
      empty). */
  ghost predicate OnChain(t: GoType, v: Value, r: Input)
    decreases v
  {
    r == Dyn(t, v)
    || (t.TPtr? && v.VPtr? &&
        if t.elem == TAny then
          (if v.target.VIface? && v.target.boxed.Dyn? then OnChain(v.target.boxed.t, v.target.boxed.v, r) else r == Nil)
        else OnChain(t.elem, v.target, r))
  }

  /** go-conv's `refutil.Indirect`, reached through the converter
      package's `indirect`: follows non-nil pointers, unwrapping an
      `interface{}` element on the way; a nil pointer stops the walk. */
  function Indirect(from: Input): (r: Input)
    ensures from.Nil? ==> r.Nil?
    ensures from.Dyn? ==> OnChain(from.t, from.v, r)
    ensures r.Dyn? && r.t.TPtr? ==> !r.v.VPtr?
  {
    match from
    case Nil => Nil
    case Dyn(t, v) => IndirectFrom(t, v)
  }

  /** The walk from a value of type t: it stops on the chain, and never at
      a non-nil pointer. */
  function IndirectFrom(t: GoType, v: Value): (r: Input)
    ensures OnChain(t, v, r)
    ensures r.Dyn? && r.t.TPtr? ==> !r.v.VPtr?
    decreases v
  {
    if t.TPtr? && v.VPtr? then
      if t.elem == TAny then
        match v.target
        case VIface(Dyn(t2, v2)) => IndirectFrom(t2, v2)
        case _ => Nil
      else IndirectFrom(t.elem, v.target)
    else Dyn(t, v)
  }

  /** A value of string kind: `string` or a user type over it. */
  predicate IsStringKind(x: Input)
  {
    x.Dyn? && KindOf(x.t) == KString && x.v.VString?
  }

  /** The bytes of a `[]byte` value; a nil slice holds none. */
  function SliceBytes(x: Value): seq<Value>
  {
    ElemsOf(x)
  }

  /** `RawContent` (self == RawContent) and `RawMessage` (self ==
      RawMessage): the value as a byte slice of the named type. */
  function ToNamedBytes(from: Input, self: KnownType): (r: Result<Value, Error>)
    requires self == KnownType.RawContent || self == KnownType.RawMessage
    ensures from.Dyn? && from.t == BytesType ==> r == Ok(from.v)
    ensures IsGoString(from) ==> r == Ok(VSlice(BytesOf(from.v.s)))
    ensures r.Err? ==> r.error == NilDereference || r.error == ConversionError(from, KnownTypeName(self))
  {
    if from.Dyn? && from.t == TKnown(self) then Ok(from.v)
    else if from.Dyn? && from.t == TPtr(TKnown(self)) then
      if from.v.VPtr? then Ok(from.v.target) else Err(NilDereference)
    else if from.Dyn? && from.t == BytesType then Ok(from.v)
    else if IsGoString(from) then Ok(VSlice(BytesOf(from.v.s)))
    else
      var ind := Indirect(from);
      if IsStringKind(ind) then Ok(VSlice(BytesOf(ind.v.s)))
      else if ind.Dyn? && ind.t == BytesType then Ok(ind.v)
      else Err(ConversionError(from, KnownTypeName(self)))
  }

  function RawContent(from: Input): Result<Value, Error>
  {
    ToNamedBytes(from, KnownType.RawContent)
  }

  function RawMessage(from: Input): Result<Value, Error>
  {
    ToNamedBytes(from, KnownType.RawMessage)
  }

  /** `Buffer`: a `bytes.Buffer` holding the input's bytes. */
  function Buffer(from: Input): (r: Result<Value, Error>)
    ensures from.Dyn? && from.t == BytesType ==> r == Ok(VBuffer(SliceBytes(from.v)))
    ensures IsGoString(from) ==> r == Ok(VBuffer(BytesOf(from.v.s)))
    ensures r.Err? ==> r.error == NilDereference || r.error == ConversionError(from, "bytes.Buffer")
  {
    if from.Dyn? && from.t == TKnown(KnownType.Buffer) then Ok(from.v)
    else if from.Dyn? && from.t == TPtr(TKnown(KnownType.Buffer)) then
      if from.v.VPtr? then Ok(from.v.target) else Err(NilDereference)
    else if from.Dyn? && from.t == BytesType then Ok(VBuffer(SliceBytes(from.v)))
    else if IsGoString(from) then Ok(VBuffer(BytesOf(from.v.s)))
    else
      var ind := Indirect(from);
      if IsStringKind(ind) then Ok(VBuffer(BytesOf(ind.v.s)))
      else if ind.Dyn? && ind.t == BytesType then Ok(VBuffer(SliceBytes(ind.v)))
      else if ind.Dyn? && ind.t == TKnown(KnownType.Buffer) then Ok(ind.v)
      else Err(ConversionError(from, "bytes.Buffer"))
  }

  /** Whether the input is one of the two named byte types, or a pointer
      to one, which each converter passes through only for its own type. */
  predicate IsNamedBytes(from: Input)
  {
    from.Dyn? &&
    (from.t in {TKnown(KnownType.RawContent), TKnown(KnownType.RawMessage),
                TPtr(TKnown(KnownType.RawContent)), TPtr(TKnown(KnownType.RawMessage))})
  }

  /** Apart from their own types, the two byte converters accept the same
      inputs and yield the same bytes. */
  lemma RawContentRawMessageAgree(from: Input)
    requires !IsNamedBytes(from)
    ensures RawContent(from).Ok? <==> RawMessage(from).Ok?
    ensures RawContent(from).Ok? ==> RawContent(from).value == RawMessage(from).value
  {
  }

  /** A string converted to raw bytes reads back as the same string. */
  lemma StringToRawBytes(s: string)
    requires IsByteString(s)
    ensures RawContent(Dyn(TString, VString(s))).Ok?
    ensures StringOf(SliceBytes(RawContent(Dyn(TString, VString(s))).value)) == s
    ensures RawMessage(Dyn(TString, VString(s))) == RawContent(Dyn(TString, VString(s)))
  {
    StringOfBytesOf(s);
  }

  /** Outside the named byte and buffer types, `Buffer` accepts exactly the
      inputs the raw-bytes converters accept, and holds the same bytes. */
  lemma BufferAgreesWithRawContent(from: Input)
    requires !IsNamedBytes(from)
    requires !(from.Dyn? && from.t in {TKnown(KnownType.Buffer), TPtr(TKnown(KnownType.Buffer))})
    requires !(Indirect(from).Dyn? && Indirect(from).t == TKnown(KnownType.Buffer))
    ensures RawContent(from).Ok? <==> Buffer(from).Ok?
    ensures RawContent(from).Ok? ==> Buffer(from).value == VBuffer(SliceBytes(RawContent(from).value))
  {
  }

  /** The indirection stops only at a non-pointer or a nil pointer. */
  lemma {:induction false} IndirectOfPlain(from: Input)
    requires from.Dyn? && !from.t.TPtr?
    ensures Indirect(from) == from
  {
  }

  /** Behind a non-nil pointer, a string or a `[]byte` converts to the
      same raw bytes as the value itself. */
  lemma ToNamedBytesThroughPointer(t: GoType, x: Value, self: KnownType)
    requires t == TString || t == BytesType
    requires self == KnownType.RawContent || self == KnownType.RawMessage
    ensures var direct := ToNamedBytes(Dyn(t, x), self);
      var behind := ToNamedBytes(Dyn(TPtr(t), VPtr(x)), self);
      (direct.Ok? <==> behind.Ok?) && (direct.Ok? ==> direct.value == behind.value)
  {
    assert IndirectFrom(TPtr(t), VPtr(x)) == IndirectFrom(t, x);
    assert IndirectFrom(t, x) == Dyn(t, x);
  }

  /** Behind a non-nil pointer, a string or a `[]byte` fills the same
      buffer as the value itself. */
  lemma BufferThroughPointer(t: GoType, x: Value)
    requires t == TString || t == BytesType
    ensures var direct := Buffer(Dyn(t, x));
      var behind := Buffer(Dyn(TPtr(t), VPtr(x)));
      (direct.Ok? <==> behind.Ok?) && (direct.Ok? ==> direct.value == behind.value)
  {
    assert IndirectFrom(TPtr(t), VPtr(x)) == IndirectFrom(t, x);
    assert IndirectFrom(t, x) == Dyn(t, x);
  }
}

=== FILE: errors.dfy ===
/** The errors the binders, the registry and the binding loop return, and the
    value preview their messages show. Errors produced by code outside the
    model (the conversion library, user hooks, custom tag resolvers and
    custom value binders) are carried as `Foreign` with an opaque code. */
module Errors {
  import opened Outcomes
  import opened GoValues

  /** Strings longer than this are cut in error messages
      (valuebinder/def.go:16, fieldBindingError.go:6). */
  const ErrStringValueLength: nat := 24

  datatype Error =
    | Foreign(code: int)
    /** "cannot bind specified type" (valuebinder/valuebinder.go:23). */
    | UnsupportedType
    /** "cannot bind type %T from input" of the string and bytes binders. */
    | CannotBindInput(input: Input)
    /** The conversion library's error for an input a converter rejects. */
    | ConversionError(from: Input, to: string)
    /** A panic on dereferencing a nil pointer input, reported as a value. */
    | NilDereference
    /** A panic on a slice index out of range, reported as a value. */
    | IndexOutOfRange
    | ValueBindingError(value: Input, kind: string, cause: Option<Error>)
    | SliceBindingError(value: Input, kind: string, index: int, inner: Error)
    | FieldBindingError(field: string, value: Input, inner: Error)
    | MissingRequiredField(field: string)
    | MissingValueBinderProvider
    | UnknownAttributeSymbol(symbol: char)
    | DuplicateName(name: string, field: string)
    | InvalidTarget
    | NotPointerToStruct
    | ExceedMaxCalls

  /** How a message shows a value: a cut prefix of a long string, or the
      value itself formatted with `%v`. */
  datatype Preview = Cut(text: string) | Whole(value: Input)

  /** The rendered parts of a wrapping error's message. The `fmt` layout
      around them is not modelled. */
  datatype Message = Message(subject: string, shown: Preview, index: Option<int>, cause: Option<Error>)

  /** The type assertion `Value.(string)`: only the exact type `string`. */
  predicate IsGoString(v: Input)
  {
    v.Dyn? && v.t == TString && v.v.VString?
  }

  /** The preview of `ValueBindingError` and `SliceBindingError`. */
  function ValuePreview(v: Input): (p: Preview)
    ensures p.Cut? <==> IsGoString(v) && |v.v.s| > ErrStringValueLength
    ensures p.Cut? ==> |p.text| == ErrStringValueLength && p.text <= v.v.s
    ensures p.Whole? ==> p.value == v
  {
    if IsGoString(v) && |v.v.s| > ErrStringValueLength then Cut(v.v.s[..ErrStringValueLength]) else Whole(v)
  }

  /** The preview of `FieldBindingError`: the cut text ends with "...". */
  function FieldPreview(v: Input): (p: Preview)
    ensures p.Cut? <==> IsGoString(v) && |v.v.s| > ErrStringValueLength
    ensures p.Cut? ==> |p.text| == ErrStringValueLength + 3 && p.text[..ErrStringValueLength] <= v.v.s
    ensures p.Cut? ==> p.text[ErrStringValueLength..] == "..."
    ensures p.Whole? ==> p.value == v
  {
    match ValuePreview(v)
    case Cut(t) => Cut(t + "...")
    case Whole(x) => Whole(x)
  }

  predicate IsWrapping(e: Error)
  {
    e.ValueBindingError? || e.SliceBindingError? || e.FieldBindingError?
  }

  /** `Error()` of the three wrapping error types. */
  function Render(e: Error): (m: Message)
    requires IsWrapping(e)
    ensures e.FieldBindingError? ==> m.subject == e.field && m.shown == FieldPreview(e.value)
    ensures !e.FieldBindingError? ==> m.subject == e.kind && m.shown == ValuePreview(e.value)
    ensures m.index.Some? <==> e.SliceBindingError?
    ensures e.SliceBindingError? ==> m.index == Some(e.index) && m.cause.None?
    ensures !e.SliceBindingError? ==> m.cause == Unwrap(e)
  {
    match e
    case ValueBindingError(v, k, c) => Message(k, ValuePreview(v), None, c)
    case SliceBindingError(v, k, i, _) => Message(k, ValuePreview(v), Some(i), None)
    case FieldBindingError(f, v, c) => Message(f, FieldPreview(v), None, Some(c))
  }

  /** `Unwrap()`; errors built with `fmt.Errorf` wrap nothing. */
  function Unwrap(e: Error): (r: Option<Error>)
    ensures r.Some? ==> IsWrapping(e)
    ensures e.SliceBindingError? || e.FieldBindingError? ==> r == Some(e.inner)
    ensures e.ValueBindingError? ==> r == e.cause
  {
    match e
    case ValueBindingError(_, _, c) => c
    case SliceBindingError(_, _, _, c) => Some(c)
    case FieldBindingError(_, _, c) => Some(c)
    case _ => None
  }

  /** A short string is shown whole by every wrapping error, and a long
      string is shown as its first 24 characters; the error keeps the whole
      value either way. */
  lemma PreviewKeepsValue(e: Error)
    requires IsWrapping(e)
    ensures var m := Render(e);
      (m.shown.Whole? ==> m.shown.value == e.value)
      && (m.shown.Cut? ==> IsGoString(e.value) && m.shown.text[..ErrStringValueLength] == e.value.v.s[..ErrStringValueLength])
  {
  }
}

=== FILE: fieldinfo.dfy ===
/** Per-field metadata (`FieldInfoImpl`): the Go field name, the resolved
    name and description, the declaration index, the sorted flag set and the
    raw struct tag. The accessors of the source are this datatype's
    destructors. */
module FieldInfos {
  import FlagSet

  /** The flag that marks a field as required (common/def.go:6). */
  const RequiredFlag: string := "required"
  /** The blank flag (common/def.go:7); nothing in the core reads it. */
  const BlankFlag: string := "_"

  /** A raw struct tag as its `key:"value"` pairs in declaration order. */
  datatype StructTag = StructTag(pairs: seq<(string, string)>)

  /** `StructTag.Get`: the value of the first pair with the key, or "". */
  function TagGet(tag: StructTag, key: string): (r: string)
    ensures (forall i :: 0 <= i < |tag.pairs| ==> tag.pairs[i].0 != key) ==> r == ""
    ensures (exists i :: 0 <= i < |tag.pairs| && tag.pairs[i].0 == key) ==>
      exists i :: 0 <= i < |tag.pairs| && tag.pairs[i] == (key, r)
        && forall j :: 0 <= j < i ==> tag.pairs[j].0 != key
    decreases |tag.pairs|
  {
    if |tag.pairs| == 0 then ""
    else if tag.pairs[0].0 == key then tag.pairs[0].1
    else
      var r := TagGet(StructTag(tag.pairs[1..]), key);
      assert forall i :: 1 <= i < |tag.pairs| ==> tag.pairs[i] == tag.pairs[1..][i - 1];
      r
  }

  datatype FieldInfo = FieldInfo(
    idName: string,        // the Go field name
    name: string,          // the name the tag resolver gave it
    desc: string,
    index: nat,            // the declaration position in the struct
    flags: seq<string>,    // a sorted flag set
    tag: StructTag)

  /** `appendFlags`: inserts every non-empty value into the flag set. */
  function AppendFlags(f: FieldInfo, values: seq<string>): (r: FieldInfo)
    requires FlagSet.Sorted(f.flags)
    ensures r == f.(flags := r.flags)
    ensures FlagSet.Sorted(r.flags)
    ensures forall x :: x in r.flags <==> x in f.flags || (x in values && x != "")
    decreases |values|
  {
    if |values| == 0 then f
    else
      var g := if values[0] == "" then f else f.(flags := FlagSet.Insert(f.flags, values[0]));
      AppendFlags(g, values[1..])
  }

  /** `HasFlag`. */
  function HasFlag(f: FieldInfo, v: string): (r: bool)
    requires FlagSet.Sorted(f.flags)
    ensures r <==> v in f.flags
  {
    FlagSet.Has(f.flags, v)
  }

  /** `FindFlag`. */
  function FindFlag(f: FieldInfo, p: string -> bool): (r: bool)
    ensures r <==> exists x :: x in f.flags && p(x)
    ensures |f.flags| == 0 ==> !r
  {
    var r := FlagSet.Find(f.flags, p);
    assert r ==> exists i :: 0 <= i < |f.flags| && p(f.flags[i]);
    r
  }

  /** Whether the field carries the required flag. */
  predicate IsRequiredField(f: FieldInfo)
  {
    RequiredFlag in f.flags
  }

  /** The tag `REMARK,flag1,flag2,,` contributes exactly `flag1` and
      `flag2`: empty parts are skipped. */
  lemma AppendFlagsSkipsEmpty(f: FieldInfo)
    requires f.flags == []
    ensures AppendFlags(f, ["flag1", "flag2", "", ""]).flags == ["flag1", "flag2"]
  {
    var g := AppendFlags(f, ["flag1", "flag2", "", ""]);
    var want := ["flag1", "flag2"];
    assert FlagSet.Less(want[0], want[1]);
    assert FlagSet.Sorted(want);
    assert forall x :: x in g.flags <==> x in want;
    FlagSet.SortedUnique(g.flags, want);
  }

  /** `appendFlags` with values already present, or only empty ones,
      leaves the flags unchanged. */
  lemma {:induction false} AppendFlagsPresent(f: FieldInfo, values: seq<string>)
    requires FlagSet.Sorted(f.flags)
    requires forall x :: x in values ==> x == "" || x in f.flags
    ensures AppendFlags(f, values) == f
    decreases |values|
  {
    if |values| > 0 {
      assert values[0] in values;
      assert forall x :: x in values[1..] ==> x in values;
      AppendFlagsPresent(f, values[1..]);
    }
  }
}

=== FILE: flagset.dfy ===
/** The sorted, duplicate-free string set `FieldFlagSet` (fieldFlagSet.go).
    It holds both the flags of one field and the registry's required names.
    Go compares strings byte by byte; a model string carries one byte per
    char, so the order below is the lexicographic order on char codes. */
module FlagSet {

  /** Go's `a < b` on strings. */
  predicate Less(a: string, b: string)
  {
    if |a| == 0 then |b| > 0
    else if |b| == 0 then false
    else if a[0] != b[0] then a[0] < b[0]
    else Less(a[1..], b[1..])
  }

  lemma {:induction false} LessIrreflexive(a: string)
    ensures !Less(a, a)
  {
    if |a| > 0 {
      LessIrreflexive(a[1..]);
    }
  }

  lemma {:induction false} LessTransitive(a: string, b: string, c: string)
    requires Less(a, b) && Less(b, c)
    ensures Less(a, c)
  {
    if |a| > 0 && |b| > 0 && |c| > 0 && a[0] == b[0] && b[0] == c[0] {
      LessTransitive(a[1..], b[1..], c[1..]);
    }
  }

  /** Any two distinct strings are ordered one way or the other. */
  lemma {:induction false} LessTotal(a: string, b: string)
    requires a != b
    ensures Less(a, b) || Less(b, a)
  {
    if |a| > 0 && |b| > 0 && a[0] == b[0] {
      assert a == [a[0]] + a[1..] && b == [b[0]] + b[1..];
      LessTotal(a[1..], b[1..]);
    }
  }

  lemma {:induction false} LessAsymmetric(a: string, b: string)
    requires Less(a, b)
    ensures !Less(b, a)
  {
    if |a| > 0 && |b| > 0 && a[0] == b[0] {
      LessAsymmetric(a[1..], b[1..]);
    }
  }

  /** The representation invariant: strictly ascending, hence duplicate-free. */
  ghost predicate Sorted(s: seq<string>)
  {
    forall i, j :: 0 <= i < j < |s| ==> Less(s[i], s[j])
  }

  /** Strictly ascending from one adjacent pair to the next. */
  ghost predicate AdjacentSorted(s: seq<string>)
  {
    forall i :: 0 <= i < |s| - 1 ==> Less(s[i], s[i + 1])
  }

  lemma {:induction false} AdjacentSortedIsSorted(s: seq<string>)
    requires AdjacentSorted(s)
    ensures Sorted(s)
  {
    if |s| > 1 {
      AdjacentSortedIsSorted(s[1..]);
      forall i, j | 0 <= i < j < |s|
        ensures Less(s[i], s[j])
      {
        if i > 0 {
          assert Less(s[1..][i - 1], s[1..][j - 1]);
        } else if j > 1 {
          assert Less(s[1..][0], s[1..][j - 1]);
          LessTransitive(s[0], s[1], s[j]);
        }
      }
    }
  }

  /** A sorted sequence holds each string at most once. */
  lemma SortedDistinct(s: seq<string>, i: int, j: int)
    requires Sorted(s) && 0 <= i < |s| && 0 <= j < |s| && s[i] == s[j]
    ensures i == j
  {
    if i < j {
      LessIrreflexive(s[i]);
    } else if j < i {
      LessIrreflexive(s[j]);
    }
  }

  /** Dropping the least element of a sorted sequence leaves a sorted
      sequence of the other elements. */
  lemma SortedTail(s: seq<string>)
    requires Sorted(s) && |s| > 0
    ensures Sorted(s[1..])
    ensures forall x :: x in s[1..] <==> x in s && x != s[0]
  {
    forall k | 1 <= k < |s|
      ensures s[k] != s[0]
    {
      if s[k] == s[0] {
        SortedDistinct(s, 0, k);
      }
    }
    assert forall k :: 0 <= k < |s| - 1 ==> s[1..][k] == s[k + 1];
  }

  lemma SameElementsEmpty(a: seq<string>, b: seq<string>)
    requires forall x :: x in a <==> x in b
    ensures |a| == 0 <==> |b| == 0
  {
    if |a| > 0 {
      assert a[0] in b;
    }
    if |b| > 0 {
      assert b[0] in a;
    }
  }

  /** The set is canonical: a sorted sequence is determined by its elements. */
  lemma {:induction false} SortedUnique(a: seq<string>, b: seq<string>)
    requires Sorted(a) && Sorted(b)
    requires forall x :: x in a <==> x in b
    ensures a == b
    decreases |a|
  {
    SameElementsEmpty(a, b);
    if |a| > 0 {
      assert a[0] in b && b[0] in a;
      var i :| 0 <= i < |a| && a[i] == b[0];
      var j :| 0 <= j < |b| && b[j] == a[0];
      if a[0] != b[0] {
        assert i > 0 && j > 0;
        assert Less(a[0], a[i]) && Less(b[0], b[j]);
        LessAsymmetric(a[0], b[0]);
        assert false;
      }
      SortedTail(a);
      SortedTail(b);
      SortedUnique(a[1..], b[1..]);
      assert a == [a[0]] + a[1..] && b == [b[0]] + b[1..];
    }
  }

  /** `sort.SearchStrings` restricted to the window [lo, hi): a binary search
      for the first position whose string is not below `v`. */
  function SearchRange(s: seq<string>, v: string, lo: nat, hi: nat): (i: nat)
    requires lo <= hi <= |s|
    requires Sorted(s)
    requires forall k :: 0 <= k < lo ==> Less(s[k], v)
    requires forall k :: hi <= k < |s| ==> !Less(s[k], v)
    ensures lo <= i <= hi
    ensures forall k :: 0 <= k < i ==> Less(s[k], v)
    ensures forall k :: i <= k < |s| ==> !Less(s[k], v)
    decreases hi - lo
  {
    if lo == hi then lo
    else
      var h := (lo + hi) / 2;
      if Less(s[h], v) then
        assert forall k :: 0 <= k <= h ==> Less(s[k], v) by {
          forall k | 0 <= k < h ensures Less(s[k], v) {
            LessTransitive(s[k], s[h], v);
          }
        }
        SearchRange(s, v, h + 1, hi)
      else
        assert forall k :: h <= k < |s| ==> !Less(s[k], v) by {
          forall k | h < k < |s| ensures !Less(s[k], v) {
            if Less(s[k], v) {
              LessTransitive(s[h], s[k], v);
              assert false;
            }
          }
        }
        SearchRange(s, v, lo, h)
  }

  /** `sort.SearchStrings(s, v)`: the insertion point of `v`. */
  function Search(s: seq<string>, v: string): (i: nat)
    requires Sorted(s)
    ensures i <= |s|
    ensures forall k :: 0 <= k < i ==> Less(s[k], v)
    ensures forall k :: i <= k < |s| ==> !Less(s[k], v)
  {
    SearchRange(s, v, 0, |s|)
  }

  /** At the insertion point, either `v` itself sits there or `v` is absent. */
  lemma SearchFindsMember(s: seq<string>, v: string)
    requires Sorted(s)
    ensures var i := Search(s, v); (i < |s| && s[i] == v) <==> v in s
  {
    var i := Search(s, v);
    if v in s {
      var j :| 0 <= j < |s| && s[j] == v;
      LessIrreflexive(v);
    }
  }

  /** `indexOf`: the position of `v`, or -1 when it is absent (always on the
      empty set). */
  function IndexOf(s: seq<string>, v: string): (r: int)
    requires Sorted(s)
    ensures -1 <= r < |s|
    ensures r == -1 <==> v !in s
    ensures r != -1 ==> s[r] == v
  {
    if |s| == 0 then -1
    else
      var i := Search(s, v);
      SearchFindsMember(s, v);
      if i < |s| && s[i] == v then i else -1
  }

  /** `has`. */
  function Has(s: seq<string>, v: string): (r: bool)
    requires Sorted(s)
    ensures r <==> v in s
  {
    IndexOf(s, v) != -1
  }

  /** `get`: the element at `index` and true, or "" and false out of range. */
  function Get(s: seq<string>, index: int): (r: (string, bool))
    ensures r.1 <==> 0 <= index < |s|
    ensures r.1 ==> r.0 == s[index]
    ensures !r.1 ==> r.0 == ""
  {
    if |s| > 0 && 0 <= index < |s| then (s[index], true) else ("", false)
  }

  /** `find`: whether some element satisfies the predicate; false on the
      empty set. The elements are tried in ascending order. */
  function Find(s: seq<string>, p: string -> bool): (r: bool)
    ensures r <==> exists i :: 0 <= i < |s| && p(s[i])
  {
    if |s| == 0 then false
    else if p(s[0]) then true
    else
      assert forall i :: 1 <= i < |s| ==> s[i] == s[1..][i - 1];
      Find(s[1..], p)
  }

  /** One step of `append`: `v` inserted at its search position unless the
      string found there already equals `v`. */
  function Insert(s: seq<string>, v: string): (r: seq<string>)
    requires Sorted(s)
    ensures Sorted(r)
    ensures forall x :: x in r <==> x in s || x == v
    ensures v in s ==> r == s
    ensures v !in s ==> |r| == |s| + 1
  {
    var i := Search(s, v);
    SearchFindsMember(s, v);
    if i < |s| && s[i] == v then s
    else
      InsertAt(s, v, i);
      s[..i] + [v] + s[i..]
  }

  /** Placing an absent `v` at its insertion point keeps the order. */
  lemma InsertAt(s: seq<string>, v: string, i: nat)
    requires Sorted(s) && v !in s && i <= |s|
    requires forall k :: 0 <= k < i ==> Less(s[k], v)
    requires forall k :: i <= k < |s| ==> !Less(s[k], v)
    ensures Sorted(s[..i] + [v] + s[i..])
    ensures forall x :: x in s[..i] + [v] + s[i..] <==> x in s || x == v
  {
    var r := s[..i] + [v] + s[i..];
    assert s == s[..i] + s[i..];
    forall k | i <= k < |s| ensures Less(v, s[k]) {
      LessTotal(s[k], v);
    }
    forall a, b | 0 <= a < b < |r|
      ensures Less(r[a], r[b])
    {
      if b < i {
        assert r[a] == s[a] && r[b] == s[b];
      } else if a > i {
        assert r[a] == s[a - 1] && r[b] == s[b - 1];
      } else if a == i {
        assert r[b] == s[b - 1];
      } else if b == i {
        assert r[a] == s[a];
      } else {
        assert r[a] == s[a] && r[b] == s[b - 1];
        LessTransitive(s[a], v, s[b - 1]);
      }
    }
  }

  /** `append(values...)`: insert each value in turn. */
  function Append(s: seq<string>, values: seq<string>): (r: seq<string>)
    requires Sorted(s)
    ensures Sorted(r)
    ensures forall x :: x in r <==> x in s || x in values
    decreases |values|
  {
    if |values| == 0 then s
    else
      var r := Append(Insert(s, values[0]), values[1..]);
      assert forall x :: x in values <==> x == values[0] || x in values[1..] by {
        assert values == [values[0]] + values[1..];
      }
      r
  }

  /** What `removeIndex` reports: whether it removed, the removed string,
      and the set afterwards. */
  datatype Removal = Removal(deleted: bool, value: string, rest: seq<string>)

  /** `removeIndex`. */
  function RemoveIndex(s: seq<string>, index: int): (r: Removal)
    requires Sorted(s)
    ensures r.deleted <==> 0 <= index < |s|
    ensures r.deleted ==> r.value == s[index] && r.rest == s[..index] + s[index + 1..]
    ensures !r.deleted ==> r.value == "" && r.rest == s
    ensures Sorted(r.rest)
    ensures r.deleted ==> |r.rest| == |s| - 1
    ensures r.deleted ==> forall x :: x in r.rest <==> x in s && x != r.value
  {
    if |s| > 0 && 0 <= index < |s| then
      var rest := s[..index] + s[index + 1..];
      assert forall k :: 0 <= k < index ==> rest[k] == s[k];
      assert forall k :: index <= k < |rest| ==> rest[k] == s[k + 1];
      assert forall x :: x in s <==> x in rest || x == s[index] by {
        assert s == s[..index] + [s[index]] + s[index + 1..];
      }
      assert s[index] !in rest by {
        if s[index] in rest {
          var k :| 0 <= k < |rest| && rest[k] == s[index];
          if k < index {
            SortedDistinct(s, k, index);
          } else {
            SortedDistinct(s, k + 1, index);
          }
        }
      }
      Removal(true, s[index], rest)
    else
      Removal(false, "", s)
  }

  /** `remove(v)`: true iff `v` was present; afterwards it is absent and
      every other element is kept. */
  function Remove(s: seq<string>, v: string): (r: (bool, seq<string>))
    requires Sorted(s)
    ensures r.0 <==> v in s
    ensures Sorted(r.1)
    ensures forall x :: x in r.1 <==> x in s && x != v
  {
    if |s| > 0 then
      var removal := RemoveIndex(s, IndexOf(s, v));
      (removal.deleted, removal.rest)
    else (false, s)
  }

  /** `clone`: an element-by-element copy into a fresh container (a nil set
      yields the shared empty set). */
  method Clone(s: seq<string>) returns (r: seq<string>)
    ensures r == s
  {
    if |s| == 0 {
      return [];
    }
    r := [];
    var i := 0;
    while i < |s|
      invariant 0 <= i <= |s|
      invariant r == s[..i]
    {
      r := r + [s[i]];
      i := i + 1;
    }
  }

  /** Appending a string that is already present is a no-op. */
  lemma {:induction false} AppendPresent(s: seq<string>, values: seq<string>)
    requires Sorted(s)
    requires forall x :: x in values ==> x in s
    ensures Append(s, values) == s
    decreases |values|
  {
    if |values| > 0 {
      assert values[0] in values;
      assert Insert(s, values[0]) == s;
      assert forall x :: x in values[1..] ==> x in values;
      AppendPresent(s, values[1..]);
    }
  }

  /** `get` and `indexOf` agree: the element found by `indexOf` is the one
      `get` returns at that position. */
  lemma IndexOfGet(s: seq<string>, v: string)
    requires Sorted(s)
    requires v in s
    ensures Get(s, IndexOf(s, v)) == (v, true)
  {
  }

  /** Removing a present string at its `indexOf` position leaves exactly the
      other strings, in order. */
  lemma RemoveIndexOfFilters(s: seq<string>, v: string)
    requires Sorted(s)
    requires v in s
    ensures RemoveIndex(s, IndexOf(s, v)).rest == Without(s, v)
  {
    var i := IndexOf(s, v);
    var a, b := s[..i], s[i + 1..];
    assert s == a + [v] + b;
    LessIrreflexive(v);
    assert v !in a && v !in b;
    WithoutSplit(a, [v], b, v);
    WithoutAbsent(a, v);
    WithoutAbsent(b, v);
  }

  /** The sequence with every occurrence of `v` filtered out. */
  function Without(s: seq<string>, v: string): (r: seq<string>)
    ensures forall x :: x in r <==> x in s && x != v
    decreases |s|
  {
    if |s| == 0 then []
    else
      assert forall x :: x in s <==> x == s[0] || x in s[1..] by {
        assert s == [s[0]] + s[1..];
      }
      (if s[0] == v then [] else [s[0]]) + Without(s[1..], v)
  }

  lemma {:induction false} WithoutAbsent(s: seq<string>, v: string)
    requires v !in s
    ensures Without(s, v) == s
    decreases |s|
  {
    if |s| > 0 {
      WithoutAbsent(s[1..], v);
      assert s == [s[0]] + s[1..];
    }
  }

  lemma {:induction false} WithoutConcat(a: seq<string>, b: seq<string>, v: string)
    ensures Without(a + b, v) == Without(a, v) + Without(b, v)
    decreases |a|
  {
    if |a| > 0 {
      assert (a + b)[1..] == a[1..] + b;
      WithoutConcat(a[1..], b, v);
    } else {
      assert a + b == b;
    }
  }

  lemma WithoutSplit(a: seq<string>, m: seq<string>, b: seq<string>, v: string)
    requires m == [v]
    ensures Without(a + m + b, v) == Without(a, v) + Without(b, v)
  {
    WithoutConcat(a + m, b, v);
    WithoutConcat(a, m, v);
    assert Without(m, v) == [] by {
      assert m[1..] == [];
    }
  }
}

=== FILE: govalues.dfy ===
/** Go's runtime types and values, as far as the value binders look at them.
    Reflection is replaced by two closed datatypes: `GoType` describes a
    destination or input type, and `Value` is the content of one storage slot.
    Go strings and byte slices are both byte sequences; a model string carries
    one byte per char, and a `[]byte` value is a `VSlice` of `VUint` bytes. */
module GoValues {
  import opened Outcomes

  datatype IntKind = Int | Int8 | Int16 | Int32 | Int64
  datatype UintKind = Uint | Uint8 | Uint16 | Uint32 | Uint64
  datatype FloatKind = Float32 | Float64

  /** The composite library types with a dedicated binder in the known-type
      table (valuebinder/def.go:23-29). */
  datatype KnownType = Duration | RawContent | RawMessage | IP | Url | Time | Buffer

  /** The underlying kind of a user-defined type. Container kinds are not
      among them: named slice, map and pointer types are outside the model. */
  datatype UserKind = UStruct | UFunc | UBool | UInt(ik: IntKind) | UUint(uk: UintKind) | UFloat(fk: FloatKind) | UString

  datatype GoType =
    | TBool
    | TInt(ik: IntKind)
    | TUint(uk: UintKind)
    | TFloat(fk: FloatKind)
    | TString
    | TPtr(elem: GoType)
    | TSlice(elem: GoType)
    | TMap(key: GoType, elem: GoType)
    | TAny                                   // interface{}
    | TKnown(known: KnownType)
    /** A user type: `name` is its identity, `base` names its underlying
        type, `named` is false for a type literal such as `func() string`,
        and `unmarshaler` says whether `*T` implements `UnmarshalStruct`. */
    | TUser(name: string, kind: UserKind, base: string, named: bool, unmarshaler: bool)

  /** `reflect.Kind`. */
  datatype Kind =
    | KBool | KInt(ik: IntKind) | KUint(uk: UintKind) | KFloat(fk: FloatKind) | KString
    | KPtr | KSlice | KMap | KInterface | KStruct | KFunc

  /** The content of a slot. Opaque payloads (floats, times, URLs, structs
      and funcs) are identified by a token; token 0 is the zero value. */
  datatype Value =
    | VBool(b: bool)
    | VInt(i: int)
    | VUint(u: int)
    | VFloat(f: int)
    | VString(s: string)
    | VNil                                   // nil pointer, slice or map
    | VPtr(target: Value)
    | VSlice(elems: seq<Value>)
    | VMap(entries: seq<(Value, Value)>)
    | VIface(boxed: Input)
    | VBuffer(bytes: seq<Value>)
    | VOpaque(token: int)

  /** An `interface{}` argument: nil, or a value with its dynamic type. */
  datatype Input = Nil | Dyn(t: GoType, v: Value)

  function UserKindOf(k: UserKind): Kind
  {
    match k
    case UStruct => KStruct
    case UFunc => KFunc
    case UBool => KBool
    case UInt(ik) => KInt(ik)
    case UUint(uk) => KUint(uk)
    case UFloat(fk) => KFloat(fk)
    case UString => KString
  }

  /** `Type.Kind()`. */
  function KindOf(t: GoType): Kind
  {
    match t
    case TBool => KBool
    case TInt(ik) => KInt(ik)
    case TUint(uk) => KUint(uk)
    case TFloat(fk) => KFloat(fk)
    case TString => KString
    case TPtr(_) => KPtr
    case TSlice(_) => KSlice
    case TMap(_, _) => KMap
    case TAny => KInterface
    case TKnown(k) =>
      (match k
       case Duration => KInt(Int64)
       case RawContent => KSlice
       case RawMessage => KSlice
       case IP => KSlice
       case _ => KStruct)
    case TUser(_, k, _, _, _) => UserKindOf(k)
  }

  /** `Kind.String()`, the label the binders put into their errors. */
  function KindName(k: Kind): string
  {
    match k
    case KBool => "bool"
    case KInt(ik) =>
      (match ik case Int => "int" case Int8 => "int8" case Int16 => "int16" case Int32 => "int32" case Int64 => "int64")
    case KUint(uk) =>
      (match uk case Uint => "uint" case Uint8 => "uint8" case Uint16 => "uint16" case Uint32 => "uint32" case Uint64 => "uint64")
    case KFloat(fk) => (match fk case Float32 => "float32" case Float64 => "float64")
    case KString => "string"
    case KPtr => "ptr"
    case KSlice => "slice"
    case KMap => "map"
    case KInterface => "interface"
    case KStruct => "struct"
    case KFunc => "func"
  }

  /** `Type.String()` of a known type, the label of its binder's errors. */
  function KnownTypeName(k: KnownType): string
  {
    match k
    case Duration => "time.Duration"
    case RawContent => "types.RawContent"
    case RawMessage => "json.RawMessage"
    case IP => "net.IP"
    case Url => "url.URL"
    case Time => "time.Time"
    case Buffer => "bytes.Buffer"
  }

  /** The type `[]byte`. */
  const BytesType: GoType := TSlice(TUint(Uint8))

  /** A structural size for termination arguments over types. */
  function Size(t: GoType): (n: nat)
    ensures n >= 1
  {
    match t
    case TPtr(e) => 1 + Size(e)
    case TSlice(e) => 1 + Size(e)
    case TMap(k, e) => 1 + Size(k) + Size(e)
    case _ => 1
  }

  /** Whether the type is a defined (named) type; type literals are not. */
  predicate Named(t: GoType)
  {
    match t
    case TPtr(_) => false
    case TSlice(_) => false
    case TMap(_, _) => false
    case TAny => false
    case TUser(_, _, _, named, _) => named
    case _ => true
  }

  /** The underlying type (for assignability). */
  function Underlying(t: GoType): GoType
  {
    match t
    case TKnown(k) =>
      (match k
       case Duration => TInt(Int64)
       case RawContent => BytesType
       case RawMessage => BytesType
       case IP => BytesType
       case _ => t)
    case TUser(_, k, base, _, _) => TUser(base, k, base, false, false)
    case _ => t
  }

  /** `V.AssignableTo(T)`: identical types; identical underlying types when
      at least one of them is not named; or any type into `interface{}`. */
  predicate Assignable(v: GoType, t: GoType)
  {
    v == t
    || (Underlying(v) == Underlying(t) && (!Named(v) || !Named(t)))
    || t == TAny
  }

  /** The slot content after `Set` of a value of type `v` into a slot of
      type `t`: an interface slot boxes the value with its dynamic type. */
  function Assign(v: GoType, t: GoType, x: Value): Value
  {
    if t == TAny && v != TAny then VIface(Dyn(v, x)) else x
  }

  /** The zero value of a type, as `reflect.New(t).Elem()` holds it. */
  function Zero(t: GoType): Value
  {
    match t
    case TBool => VBool(false)
    case TInt(_) => VInt(0)
    case TUint(_) => VUint(0)
    case TFloat(_) => VFloat(0)
    case TString => VString("")
    case TPtr(_) => VNil
    case TSlice(_) => VNil
    case TMap(_, _) => VNil
    case TAny => VIface(Nil)
    case TKnown(k) =>
      (match k
       case Duration => VInt(0)
       case Buffer => VBuffer([])
       case Url => VOpaque(0)
       case Time => VOpaque(0)
       case _ => VNil)
    case TUser(_, k, _, _, _) =>
      (match k
       case UBool => VBool(false)
       case UInt(_) => VInt(0)
       case UUint(_) => VUint(0)
       case UFloat(_) => VFloat(0)
       case UString => VString("")
       case _ => VOpaque(0))
  }

  /** `Value.IsZero()`. */
  predicate IsZero(v: Value)
  {
    match v
    case VBool(b) => !b
    case VInt(i) => i == 0
    case VUint(u) => u == 0
    case VFloat(f) => f == 0
    case VString(s) => |s| == 0
    case VNil => true
    case VPtr(_) => false
    case VSlice(_) => false
    case VMap(_) => false
    case VIface(d) => d.Nil?
    case VBuffer(b) => |b| == 0
    case VOpaque(t) => t == 0
  }

  lemma ZeroIsZero(t: GoType)
    ensures IsZero(Zero(t))
  {
  }

  /** `[]byte(s)`: one byte per char. */
  function BytesOf(s: string): (r: seq<Value>)
    ensures |r| == |s|
    ensures forall i :: 0 <= i < |s| ==> r[i] == VUint(s[i] as int)
  {
    seq(|s|, i requires 0 <= i < |s| => VUint(s[i] as int))
  }

  /** The byte a slice element stands for as a char; elements that are not
      bytes (impossible in a well-typed `[]byte`) read as char 0. */
  function ByteChar(x: Value): char
  {
    if x.VUint? && 0 <= x.u < 256 then x.u as char else 0 as char
  }

  /** `string(b)` for the elements of a byte slice. */
  function StringOf(b: seq<Value>): (r: string)
    ensures |r| == |b|
    ensures forall i :: 0 <= i < |b| ==> r[i] == ByteChar(b[i])
  {
    seq(|b|, i requires 0 <= i < |b| => ByteChar(b[i]))
  }

  /** A string every char of which stands for a byte. */
  predicate IsByteString(s: string)
  {
    forall i :: 0 <= i < |s| ==> s[i] as int < 256
  }

  /** The elements of a well-typed byte slice. */
  predicate IsBytes(b: seq<Value>)
  {
    forall i :: 0 <= i < |b| ==> b[i].VUint? && 0 <= b[i].u < 256
  }

  /** `string([]byte(s)) == s` for a byte string. */
  lemma StringOfBytesOf(s: string)
    requires IsByteString(s)
    ensures StringOf(BytesOf(s)) == s
  {
  }

  /** `[]byte(string(b)) == b` for a byte slice. */
  lemma BytesOfStringOf(b: seq<Value>)
    requires IsBytes(b)
    ensures BytesOf(StringOf(b)) == b
  {
  }

  /** The elements of a slice value (a nil slice has none). */
  function ElemsOf(v: Value): seq<Value>
  {
    if v.VSlice? then v.elems else []
  }

  /** The argument seen when a container element of static type `t` is
      passed as `interface{}`: an interface element is unboxed. */
  function ElemInput(t: GoType, x: Value): Input
  {
    if t == TAny then (if x.VIface? then x.boxed else Nil) else Dyn(t, x)
  }
}

=== FILE: outcomes.dfy ===
/** Option and Result carriers used throughout the model in place of Go's
    nil pointers and `(value, error)` pairs. */
module Outcomes {

  /** A Go value that may be nil. */
  datatype Option<+T> = None | Some(value: T)

  /** A Go `(value, error)` pair where exactly one side is meaningful. */
  datatype Result<+T, +E> = Ok(value: T) | Err(error: E) {
    predicate IsFailure() { Err? }

    function PropagateFailure<U>(): Result<U, E>
      requires Err?
    {
      Err(error)
    }

    function Extract(): T
      requires Ok?
    {
      value
    }
  }
}

=== FILE: reflecting.dfy ===
/** Pointer chains of a slot (reflecting/reflecting.go): the leaf at the end
    of a chain of pointer types, and `AssignZero`, which allocates every nil
    link of the chain so that the leaf can be written through the root. */
module Reflecting {
  import opened Outcomes
  import opened GoValues

  /** The type at the end of the pointer chain. */
  function LeafType(t: GoType): (l: GoType)
    ensures !l.TPtr?
    ensures Size(l) <= Size(t)
  {
    if t.TPtr? then LeafType(t.elem) else t
  }

  /** The number of pointer links before the leaf. */
  function Depth(t: GoType): nat
  {
    if t.TPtr? then 1 + Depth(t.elem) else 0
  }

  /** Every pointer link of the chain is non-nil. */
  predicate Linked(t: GoType, v: Value)
  {
    if t.TPtr? then v.VPtr? && Linked(t.elem, v.target) else true
  }

  /** The leaf value, when every link is non-nil. */
  function Leaf(t: GoType, v: Value): Option<Value>
  {
    if !t.TPtr? then Some(v)
    else if v.VPtr? then Leaf(t.elem, v.target)
    else None
  }

  /** Writes the leaf through a fully linked chain. */
  function SetLeaf(t: GoType, v: Value, x: Value): (r: Value)
    requires Linked(t, v)
    ensures Linked(t, r)
  {
    if t.TPtr? then VPtr(SetLeaf(t.elem, v.target, x)) else x
  }

  /** `AssignZero`: a nil link is replaced by a pointer to a fresh zero
      value of its element type, down to the first non-pointer element;
      links that are already set are followed, never replaced. */
  function AssignZero(t: GoType, v: Value): (r: Value)
    ensures Linked(t, r)
    ensures !t.TPtr? ==> r == v
  {
    if !t.TPtr? then v
    else
      var next := if v.VPtr? then v.target else Zero(t.elem);
      VPtr(AssignZero(t.elem, next))
  }

  /** After `AssignZero` the leaf is reachable: it is the old leaf when the
      chain was complete, and the zero value of the leaf type otherwise. */
  lemma {:induction false} AssignZeroLeaf(t: GoType, v: Value)
    ensures Leaf(t, AssignZero(t, v)) ==
      if Leaf(t, v).Some? then Leaf(t, v) else Some(Zero(LeafType(t)))
  {
    if t.TPtr? {
      if v.VPtr? {
        AssignZeroLeaf(t.elem, v.target);
      } else {
        AssignZeroLeaf(t.elem, Zero(t.elem));
        ZeroLeaf(t.elem);
      }
    }
  }

  /** The zero value of a pointer-chain type has no leaf unless the type
      is not a pointer. */
  lemma ZeroLeaf(t: GoType)
    ensures Leaf(t, Zero(t)) == if t.TPtr? then None else Some(Zero(t))
  {
  }

  /** A complete chain is left exactly as it was. */
  lemma {:induction false} AssignZeroLinked(t: GoType, v: Value)
    requires Linked(t, v)
    ensures AssignZero(t, v) == v
  {
    if t.TPtr? {
      AssignZeroLinked(t.elem, v.target);
    }
  }

  /** Allocating twice is allocating once. */
  lemma AssignZeroIdempotent(t: GoType, v: Value)
    ensures AssignZero(t, AssignZero(t, v)) == AssignZero(t, v)
  {
    AssignZeroLinked(t, AssignZero(t, v));
  }

  /** A write to the leaf is visible through the root, and the leaf is the
      only thing a write changes. */
  lemma {:induction false} SetLeafThenLeaf(t: GoType, v: Value, x: Value)
    requires Linked(t, v)
    ensures Leaf(t, SetLeaf(t, v, x)) == Some(x)
    ensures SetLeaf(t, v, x) == v <==> Leaf(t, v) == Some(x)
  {
    if t.TPtr? {
      SetLeafThenLeaf(t.elem, v.target, x);
    }
  }

  /** Writing back the leaf just read changes nothing. */
  lemma {:induction false} SetLeafOfLeaf(t: GoType, v: Value)
    requires Linked(t, v)
    ensures Leaf(t, v).Some? && SetLeaf(t, v, Leaf(t, v).value) == v
  {
    if t.TPtr? {
      SetLeafOfLeaf(t.elem, v.target);
    }
  }

  /** The leaf slot of a linked chain. */
  function LeafOf(t: GoType, v: Value): (x: Value)
    requires Linked(t, v)
    ensures Leaf(t, v) == Some(x)
  {
    if t.TPtr? then LeafOf(t.elem, v.target) else v
  }
}

=== FILE: registry.dfy ===
/** Building the field registry of a struct (structProtoResolver.go): the
    resolver options, the walk from the target to its struct, and the
    registration of every field the tag resolver keeps under its resolved
    name, with the sorted set of required names. */
module Registry {
  import opened Outcomes
  import opened GoValues
  import opened Errors
  import FlagSet
  import opened FieldInfos
  import opened TagResolvers

  /** A tag resolver: one of the two shipped ones or a user function. */
  datatype Resolver =
    | Std
    | NoneResolver
    | Custom(f: (string, string) -> Result<Option<Tag>, Error>)

  /** What the chosen resolver makes of one field's name and tag content. */
  function ResolveTag(r: Resolver, fieldname: string, token: string): (res: Result<Option<Tag>, Error>)
    ensures r.NoneResolver? ==> res == Ok(Some(Tag(fieldname, [], "")))
    ensures r.Std? && |token| == 0 ==> res == Ok(None)
    ensures r.Std? && res.Ok? && res.value.Some? ==> res.value.value.name != "" && res.value.value.name != "-"
    ensures r.Std? && res.Err? ==> res.error.UnknownAttributeSymbol? && res.error.symbol in token
    ensures r.Custom? ==> res == r.f(fieldname, token)
  {
    match r
    case Std => StdTagResolver(fieldname, token)
    case NoneResolver => NoneTagResolver(fieldname, token)
    case Custom(f) => f(fieldname, token)
  }

  /** `StructProtoResolveOption`; an unset resolver is None. */
  datatype ResolveOption = ResolveOption(tagName: string, tagResolver: Option<Resolver>, checkDuplicateNames: bool)

  datatype StructProtoResolver = StructProtoResolver(tagName: string, tagResolver: Resolver, checkDuplicateNames: bool)

  /** `NewStructProtoResolver`: an explicit resolver is kept; otherwise the
      standard resolver is chosen when a tag name is given, and the
      resolver that ignores tags when it is not. */
  function NewStructProtoResolver(option: ResolveOption): (r: StructProtoResolver)
    ensures r.tagName == option.tagName && r.checkDuplicateNames == option.checkDuplicateNames
    ensures option.tagResolver.Some? ==> r.tagResolver == option.tagResolver.value
    ensures option.tagResolver.None? ==> (r.tagResolver == Std <==> |option.tagName| > 0)
    ensures option.tagResolver.None? ==> (r.tagResolver == NoneResolver <==> |option.tagName| == 0)
  {
    var resolver :=
      match option.tagResolver
      case Some(f) => f
      case None => if |option.tagName| > 0 then Std else NoneResolver;
    StructProtoResolver(option.tagName, resolver, option.checkDuplicateNames)
  }

  /** `getTagContent`: the tag value under the resolver's tag name; with no
      tag name every field's token is empty. */
  function GetTagContent(tagName: string, tag: StructTag): (token: string)
    ensures |tagName| == 0 ==> token == ""
    ensures |tagName| > 0 ==> token == TagGet(tag, tagName)
  {
    if |tagName| > 0 then TagGet(tag, tagName) else ""
  }

  // ---------------------------------------------------------------------
  // Targets

  /** A declared field of a struct type. */
  datatype FieldDecl = FieldDecl(name: string, tag: StructTag, t: GoType)

  /** A field of a struct value: its declaration and its content. */
  datatype Slot = Slot(decl: FieldDecl, v: Value)

  /** The type of what a nil pointer would point to. */
  datatype Shape = StructShape(fields: seq<FieldDecl>) | PtrShape(elem: Shape) | OtherShape

  /** What `Resolve` is given: nothing (`reflect.Value{}` or a nil
      interface), a struct value, a nil or non-nil pointer, or a value of
      any other kind. */
  datatype Target =
    | NoTarget
    | StructValue(slots: seq<Slot>)
    | NilPtr(elem: Shape)
    | PtrTo(target: Target)
    | OtherValue

  /** The fresh value `reflect.New` allocates behind a nil pointer. */
  function ZeroTarget(s: Shape): Target
  {
    match s
    case StructShape(fields) => StructValue(seq(|fields|, j requires 0 <= j < |fields| => Slot(fields[j], Zero(fields[j].t))))
    case PtrShape(e) => NilPtr(e)
    case OtherShape => OtherValue
  }

  /** A resolved struct: its slots, the index from resolved name to field
      metadata, and the sorted required names. `detached` records that a
      nil pointer was met on the way, so the slots are a fresh struct the
      caller's value does not reach. */
  datatype Struct = Struct(target: seq<Slot>, fields: map<string, FieldInfo>, required: seq<string>, detached: bool)

  /** What every resolved struct satisfies. */
  ghost predicate Valid(s: Struct)
  {
    FlagSet.Sorted(s.required)
    && (forall n :: n in s.required ==> n in s.fields)
    && (forall n :: n in s.fields ==> (s.fields[n].name == n && s.fields[n].index < |s.target|
          && FlagSet.Sorted(s.fields[n].flags)))
    && (forall n :: n in s.fields && IsRequiredField(s.fields[n]) ==> n in s.required)
  }

  // ---------------------------------------------------------------------
  // Registration

  /** What the tag resolver makes of each field. */
  function Tags(r: StructProtoResolver, decl: seq<FieldDecl>): (tags: seq<Result<Option<Tag>, Error>>)
    ensures |tags| == |decl|
    ensures r.tagResolver == NoneResolver ==> forall j :: 0 <= j < |decl| ==> tags[j] == Ok(Some(Tag(decl[j].name, [], "")))
    ensures r.tagResolver == Std ==> forall j :: 0 <= j < |decl| && GetTagContent(r.tagName, decl[j].tag) == "" ==> tags[j] == Ok(None)
  {
    seq(|decl|, j requires 0 <= j < |decl| => ResolveTag(r.tagResolver, decl[j].name, GetTagContent(r.tagName, decl[j].tag)))
  }

  /** The name field j is registered under, if the resolver keeps it. */
  function NameAt(tags: seq<Result<Option<Tag>, Error>>, j: nat): Option<string>
    requires j < |tags|
  {
    match tags[j]
    case Ok(Some(tag)) => Some(tag.name)
    case _ => None
  }

  /** The metadata registered for field i under the given tag. */
  function MakeField(decl: seq<FieldDecl>, i: nat, tag: Tag): (f: FieldInfo)
    requires i < |decl|
    ensures FlagSet.Sorted(f.flags)
    ensures f.idName == decl[i].name && f.name == tag.name && f.desc == tag.desc && f.index == i
    ensures f.tag == decl[i].tag
    ensures forall x :: x in f.flags <==> x in tag.flags && x != ""
  {
    AppendFlags(FieldInfo(decl[i].name, tag.name, tag.desc, i, [], decl[i].tag), tag.flags)
  }

  /** The registry under construction. */
  datatype Index = Index(fields: map<string, FieldInfo>, required: seq<string>)

  /** `f` is the metadata of the last field before i registered as `n`. */
  ghost predicate LastFieldNamed(decl: seq<FieldDecl>, tags: seq<Result<Option<Tag>, Error>>, i: nat, n: string, f: FieldInfo)
    requires |tags| == |decl| && i <= |decl|
  {
    f.index < i
    && tags[f.index].Ok? && tags[f.index].value.Some? && tags[f.index].value.value.name == n
    && f == MakeField(decl, f.index, tags[f.index].value.value)
    && forall j :: f.index < j < i ==> NameAt(tags, j) != Some(n)
  }

  /** The registry after fields 0..i-1. */
  ghost predicate Registered(decl: seq<FieldDecl>, tags: seq<Result<Option<Tag>, Error>>, i: nat, acc: Index)
  {
    |tags| == |decl| && i <= |decl|
    && FlagSet.Sorted(acc.required)
    && (forall n :: n in acc.fields ==> LastFieldNamed(decl, tags, i, n, acc.fields[n]))
    && (forall j :: 0 <= j < i && NameAt(tags, j).Some? ==> NameAt(tags, j).value in acc.fields)
    && (forall n :: n in acc.required ==> n in acc.fields && RequiredAt(tags, i, n))
    && (forall n :: n in acc.fields && IsRequiredField(acc.fields[n]) ==> n in acc.required)
  }

  /** Some field before i was registered as `n` with the required flag. */
  ghost predicate RequiredAt(tags: seq<Result<Option<Tag>, Error>>, i: nat, n: string)
    requires i <= |tags|
  {
    exists j :: 0 <= j < i && tags[j].Ok? && tags[j].value.Some? && tags[j].value.value.name == n
      && RequiredFlag in tags[j].value.value.flags
  }

  /** Names are distinct among fields 0..i-1 and the required set is
      exactly the required registered names. */
  ghost predicate NoDuplicates(tags: seq<Result<Option<Tag>, Error>>, i: nat, acc: Index)
    requires i <= |tags|
  {
    (forall j, k :: 0 <= j < k < i && NameAt(tags, j).Some? ==> NameAt(tags, k) != NameAt(tags, j))
    && (forall n :: n in acc.required ==> n in acc.fields && IsRequiredField(acc.fields[n]))
  }

  /** One iteration of the loop of `internalResolve`: field i is skipped,
      refused, or registered under its resolved name. */
  function Step(decl: seq<FieldDecl>, tags: seq<Result<Option<Tag>, Error>>, checkDuplicates: bool, i: nat, acc: Index): (res: Result<Index, Error>)
    requires Registered(decl, tags, i, acc) && i < |decl|
    requires checkDuplicates ==> NoDuplicates(tags, i, acc)
    ensures res.Ok? ==> Registered(decl, tags, i + 1, res.value)
    ensures res.Ok? && checkDuplicates ==> NoDuplicates(tags, i + 1, res.value)
    ensures res.Ok? ==> tags[i].Ok?
    ensures tags[i].Err? ==> res == Err(tags[i].error)
    ensures res.Err? ==> (tags[i] == Err(res.error)
      || (checkDuplicates && NameAt(tags, i).Some? && res.error == DuplicateName(NameAt(tags, i).value, decl[i].name)))
  {
    match tags[i]
    case Err(e) => Err(e)
    case Ok(None) =>
      RegisterSkip(decl, tags, checkDuplicates, i, acc);
      Ok(acc)
    case Ok(Some(tag)) =>
      if checkDuplicates && tag.name in acc.fields then Err(DuplicateName(tag.name, decl[i].name))
      else
        var f := MakeField(decl, i, tag);
        var required := if RequiredFlag in f.flags then FlagSet.Insert(acc.required, tag.name) else acc.required;
        var next := Index(acc.fields[tag.name := f], required);
        RegisterStep(decl, tags, checkDuplicates, i, acc, tag, next);
        Ok(next)
  }

  /** The loop of `internalResolve` from field i on. */
  function Register(decl: seq<FieldDecl>, tags: seq<Result<Option<Tag>, Error>>, checkDuplicates: bool, i: nat, acc: Index): (res: Result<Index, Error>)
    requires Registered(decl, tags, i, acc)
    requires checkDuplicates ==> NoDuplicates(tags, i, acc)
    ensures res.Ok? ==> Registered(decl, tags, |decl|, res.value)
    ensures res.Ok? && checkDuplicates ==> NoDuplicates(tags, |decl|, res.value)
    ensures res.Ok? ==> forall j :: i <= j < |decl| ==> tags[j].Ok?
    ensures res.Err? ==> exists j :: i <= j < |decl| && RefusedAt(decl, tags, checkDuplicates, j, res.error)
    decreases |decl| - i
  {
    if i == |decl| then Ok(acc)
    else
      match Step(decl, tags, checkDuplicates, i, acc)
      case Err(e) =>
        assert RefusedAt(decl, tags, checkDuplicates, i, e);
        Err(e)
      case Ok(next) => Register(decl, tags, checkDuplicates, i + 1, next)
  }

  /** Field j can stop the loop with e: e is its resolver's error or,
      under the duplicate check, the duplicate-name error for it. */
  ghost predicate RefusedAt(decl: seq<FieldDecl>, tags: seq<Result<Option<Tag>, Error>>, checkDuplicates: bool, j: nat, e: Error)
  {
    j < |decl| && j < |tags|
    && (tags[j] == Err(e) || (checkDuplicates && NameAt(tags, j).Some? && e == DuplicateName(NameAt(tags, j).value, decl[j].name)))
  }

  /** Field i's name differs from every name registered before it. */
  ghost predicate FreshName(tags: seq<Result<Option<Tag>, Error>>, i: nat)
    requires i < |tags|
  {
    forall a :: 0 <= a < i && NameAt(tags, a).Some? ==> NameAt(tags, a) != NameAt(tags, i)
  }

  /** A field whose resolver answers without error, and whose name is
      fresh when duplicates are checked, is registered without error. */
  lemma StepSucceeds(decl: seq<FieldDecl>, tags: seq<Result<Option<Tag>, Error>>, checkDuplicates: bool, i: nat, acc: Index)
    requires Registered(decl, tags, i, acc) && i < |decl|
    requires checkDuplicates ==> NoDuplicates(tags, i, acc)
    requires tags[i].Ok?
    requires checkDuplicates ==> FreshName(tags, i)
    ensures Step(decl, tags, checkDuplicates, i, acc).Ok?
  {
    if checkDuplicates && tags[i].value.Some? {
      forall m | m in acc.fields
        ensures Some(m) != NameAt(tags, i)
      {
        assert LastFieldNamed(decl, tags, i, m, acc.fields[m]);
        assert NameAt(tags, acc.fields[m].index) == Some(m);
      }
    }
  }

  /** The loop stops at the first field whose resolver fails, with that
      field's error, provided no duplicate name stops it earlier. */
  lemma {:induction false} RegisterStopsAt(decl: seq<FieldDecl>, tags: seq<Result<Option<Tag>, Error>>, checkDuplicates: bool,
                                           i: nat, acc: Index, j: nat)
    requires Registered(decl, tags, i, acc)
    requires checkDuplicates ==> NoDuplicates(tags, i, acc)
    requires i <= j < |decl| && tags[j].Err?
    requires forall k :: i <= k < j ==> tags[k].Ok?
    requires checkDuplicates ==> forall k :: i <= k < j ==> FreshName(tags, k)
    ensures Register(decl, tags, checkDuplicates, i, acc) == Err(tags[j].error)
    decreases j - i
  {
    if i < j {
      StepSucceeds(decl, tags, checkDuplicates, i, acc);
      var next := Step(decl, tags, checkDuplicates, i, acc).value;
      RegisterStopsAt(decl, tags, checkDuplicates, i + 1, next, j);
    }
  }

  /** The loop succeeds when every resolver answer from i on is not an
      error and, under the duplicate check, every name is fresh. */
  lemma {:induction false} RegisterRuns(decl: seq<FieldDecl>, tags: seq<Result<Option<Tag>, Error>>, checkDuplicates: bool,
                                        i: nat, acc: Index)
    requires Registered(decl, tags, i, acc)
    requires checkDuplicates ==> NoDuplicates(tags, i, acc)
    requires forall k :: i <= k < |decl| ==> tags[k].Ok?
    requires checkDuplicates ==> forall k :: i <= k < |decl| ==> FreshName(tags, k)
    ensures Register(decl, tags, checkDuplicates, i, acc).Ok?
    decreases |decl| - i
  {
    if i < |decl| {
      StepSucceeds(decl, tags, checkDuplicates, i, acc);
      var next := Step(decl, tags, checkDuplicates, i, acc).value;
      RegisterRuns(decl, tags, checkDuplicates, i + 1, next);
    }
  }

  lemma RegisterSkip(decl: seq<FieldDecl>, tags: seq<Result<Option<Tag>, Error>>, checkDuplicates: bool, i: nat, acc: Index)
    requires Registered(decl, tags, i, acc)
    requires i < |decl| && tags[i] == Ok(None)
    requires checkDuplicates ==> NoDuplicates(tags, i, acc)
    ensures Registered(decl, tags, i + 1, acc)
    ensures checkDuplicates ==> NoDuplicates(tags, i + 1, acc)
  {
    forall n | n in acc.fields
      ensures LastFieldNamed(decl, tags, i + 1, n, acc.fields[n])
    {
      assert LastFieldNamed(decl, tags, i, n, acc.fields[n]);
    }
    forall n | n in acc.required
      ensures RequiredAt(tags, i + 1, n)
    {
      assert RequiredAt(tags, i, n);
    }
  }

  lemma RegisterStep(decl: seq<FieldDecl>, tags: seq<Result<Option<Tag>, Error>>, checkDuplicates: bool,
                     i: nat, acc: Index, tag: Tag, next: Index)
    requires Registered(decl, tags, i, acc)
    requires i < |decl| && tags[i] == Ok(Some(tag))
    requires checkDuplicates ==> NoDuplicates(tags, i, acc) && tag.name !in acc.fields
    requires next.fields == acc.fields[tag.name := MakeField(decl, i, tag)]
    requires next.required == if RequiredFlag in MakeField(decl, i, tag).flags
      then FlagSet.Insert(acc.required, tag.name) else acc.required
    ensures Registered(decl, tags, i + 1, next)
    ensures checkDuplicates ==> NoDuplicates(tags, i + 1, next)
  {
    StepFields(decl, tags, i, acc.fields, tag, next.fields);
    StepRequired(decl, tags, i, acc, tag, next);
    if checkDuplicates {
      StepDistinct(tags, i, acc.fields, tag);
    }
  }

  lemma StepFields(decl: seq<FieldDecl>, tags: seq<Result<Option<Tag>, Error>>, i: nat,
                   fields: map<string, FieldInfo>, tag: Tag, next: map<string, FieldInfo>)
    requires |tags| == |decl| && i < |decl| && tags[i] == Ok(Some(tag))
    requires forall n :: n in fields ==> LastFieldNamed(decl, tags, i, n, fields[n])
    requires forall j :: 0 <= j < i && NameAt(tags, j).Some? ==> NameAt(tags, j).value in fields
    requires next == fields[tag.name := MakeField(decl, i, tag)]
    ensures forall n :: n in next ==> LastFieldNamed(decl, tags, i + 1, n, next[n])
    ensures forall j :: 0 <= j < i + 1 && NameAt(tags, j).Some? ==> NameAt(tags, j).value in next
  {
    forall n | n in next
      ensures LastFieldNamed(decl, tags, i + 1, n, next[n])
    {
      if n != tag.name {
        assert LastFieldNamed(decl, tags, i, n, fields[n]);
      }
    }
  }

  lemma StepRequired(decl: seq<FieldDecl>, tags: seq<Result<Option<Tag>, Error>>, i: nat, acc: Index, tag: Tag, next: Index)
    requires Registered(decl, tags, i, acc)
    requires i < |decl| && tags[i] == Ok(Some(tag))
    requires next.fields == acc.fields[tag.name := MakeField(decl, i, tag)]
    requires next.required == if RequiredFlag in MakeField(decl, i, tag).flags
      then FlagSet.Insert(acc.required, tag.name) else acc.required
    ensures FlagSet.Sorted(next.required)
    ensures forall n :: n in next.required ==> n in next.fields && RequiredAt(tags, i + 1, n)
    ensures forall n :: n in next.fields && IsRequiredField(next.fields[n]) ==> n in next.required
  {
    forall n | n in next.required
      ensures RequiredAt(tags, i + 1, n)
    {
      if n in acc.required {
        var j :| 0 <= j < i && tags[j].Ok? && tags[j].value.Some? && tags[j].value.value.name == n
          && RequiredFlag in tags[j].value.value.flags;
      }
    }
  }

  lemma StepDistinct(tags: seq<Result<Option<Tag>, Error>>, i: nat, fields: map<string, FieldInfo>, tag: Tag)
    requires i < |tags| && tags[i] == Ok(Some(tag))
    requires forall j :: 0 <= j < i && NameAt(tags, j).Some? ==> NameAt(tags, j).value in fields
    requires forall j, k :: 0 <= j < k < i && NameAt(tags, j).Some? ==> NameAt(tags, k) != NameAt(tags, j)
    requires tag.name !in fields
    ensures forall j, k :: 0 <= j < k < i + 1 && NameAt(tags, j).Some? ==> NameAt(tags, k) != NameAt(tags, j)
  {
  }

  /** `internalResolve`: registers every field of the struct value. */
  function InternalResolve(r: StructProtoResolver, slots: seq<Slot>, detached: bool): (res: Result<Struct, Error>)
    ensures res.Ok? ==> Valid(res.value)
    ensures res.Ok? ==> res.value.target == slots && res.value.detached == detached
    ensures res.Ok? ==> forall j :: 0 <= j < |slots| ==> Tags(r, Decls(slots))[j].Ok?
  {
    var decl := Decls(slots);
    var tags := Tags(r, decl);
    match Register(decl, tags, r.checkDuplicateNames, 0, Index(map[], []))
    case Err(e) => Err(e)
    case Ok(index) =>
      forall n | n in index.fields
        ensures index.fields[n].name == n && index.fields[n].index < |slots|
      {
        assert LastFieldNamed(decl, tags, |decl|, n, index.fields[n]);
      }
      Ok(Struct(slots, index.fields, index.required, detached))
  }

  /** A resolver error aborts registration: the first field whose resolver
      fails decides the result, when no duplicate name comes before it. */
  lemma ResolveTagError(r: StructProtoResolver, slots: seq<Slot>, detached: bool, j: nat)
    requires j < |slots|
    requires Tags(r, Decls(slots))[j].Err?
    requires forall k :: 0 <= k < j ==> Tags(r, Decls(slots))[k].Ok?
    requires r.checkDuplicateNames ==> forall k :: 0 <= k < j ==> FreshName(Tags(r, Decls(slots)), k)
    ensures InternalResolve(r, slots, detached) == Err(Tags(r, Decls(slots))[j].error)
  {
    var decl := Decls(slots);
    RegisterStopsAt(decl, Tags(r, decl), r.checkDuplicateNames, 0, Index(map[], []), j);
  }

  /** Registration succeeds exactly when no resolver answer is an error
      and, under the duplicate check, every resolved name is fresh. */
  lemma ResolveSucceeds(r: StructProtoResolver, slots: seq<Slot>, detached: bool)
    ensures var tags := Tags(r, Decls(slots));
      InternalResolve(r, slots, detached).Ok? <==>
        (forall k :: 0 <= k < |slots| ==> tags[k].Ok?)
        && (r.checkDuplicateNames ==> forall k :: 0 <= k < |slots| ==> FreshName(tags, k))
  {
    var decl := Decls(slots);
    var tags := Tags(r, decl);
    if (forall k :: 0 <= k < |slots| ==> tags[k].Ok?)
      && (r.checkDuplicateNames ==> forall k :: 0 <= k < |slots| ==> FreshName(tags, k)) {
      RegisterRuns(decl, tags, r.checkDuplicateNames, 0, Index(map[], []));
    }
    if InternalResolve(r, slots, detached).Ok? && r.checkDuplicateNames {
      RequiredExactly(r, slots, detached);
    }
  }

  /** The declarations of a struct value's fields. */
  function Decls(slots: seq<Slot>): seq<FieldDecl>
  {
    seq(|slots|, j requires 0 <= j < |slots| => slots[j].decl)
  }

  /** The loop of `Resolve`: at most 32 steps, following pointers and
      allocating a fresh value behind a nil one. */
  function Walk(r: StructProtoResolver, t: Target, step: nat, detached: bool): (res: Result<Struct, Error>)
    requires step <= 32
    ensures res.Ok? ==> Valid(res.value) && (detached ==> res.value.detached)
    decreases 32 - step
  {
    if step == 32 then Err(ExceedMaxCalls)
    else
      match t
      case StructValue(slots) => InternalResolve(r, slots, detached)
      case PtrTo(inner) => Walk(r, inner, step + 1, detached)
      case NilPtr(shape) => Walk(r, ZeroTarget(shape), step + 1, true)
      case _ => Err(NotPointerToStruct)
  }

  /** `Resolve`. */
  function Resolve(r: StructProtoResolver, t: Target): (res: Result<Struct, Error>)
    ensures t.NoTarget? ==> res == Err(InvalidTarget)
    ensures t.OtherValue? ==> res == Err(NotPointerToStruct)
    ensures res.Ok? ==> Valid(res.value)
  {
    if t.NoTarget? then Err(InvalidTarget) else ResolveValid(r, t, 0, false); Walk(r, t, 0, false)
  }

  lemma {:induction false} ResolveValid(r: StructProtoResolver, t: Target, step: nat, detached: bool)
    requires step <= 32
    ensures Walk(r, t, step, detached).Ok? ==> Valid(Walk(r, t, step, detached).value)
    decreases 32 - step
  {
    if step < 32 {
      match t
      case PtrTo(inner) => ResolveValid(r, inner, step + 1, detached);
      case NilPtr(shape) => ResolveValid(r, ZeroTarget(shape), step + 1, true);
      case _ =>
    }
  }

  // ---------------------------------------------------------------------
  // Pointer depth

  /** The number of pointers in front of the first non-pointer. */
  function PtrDepth(t: Target): nat
  {
    match t
    case PtrTo(inner) => 1 + PtrDepth(inner)
    case NilPtr(shape) => 1 + ShapeDepth(shape)
    case _ => 0
  }

  function ShapeDepth(s: Shape): nat
  {
    if s.PtrShape? then 1 + ShapeDepth(s.elem) else 0
  }

  /** What the pointers lead to, and whether a nil one was met. */
  function Base(t: Target): (Target, bool)
  {
    match t
    case PtrTo(inner) => Base(inner)
    case NilPtr(shape) => (ZeroTarget(ShapeBase(shape)), true)
    case _ => (t, false)
  }

  function ShapeBase(s: Shape): Shape
  {
    if s.PtrShape? then ShapeBase(s.elem) else s
  }

  lemma {:induction false} ZeroTargetDepth(s: Shape)
    ensures PtrDepth(ZeroTarget(s)) == ShapeDepth(s)
    ensures Base(ZeroTarget(s)) == if s.PtrShape? then (ZeroTarget(ShapeBase(s)), true) else (ZeroTarget(s), false)
  {
  }

  /** `Resolve` reaches the struct behind up to 31 pointers, allocating
      nil links, and gives up on deeper chains; anything that is not
      reached through pointers to a struct is refused. */
  lemma {:induction false} WalkDepth(r: StructProtoResolver, t: Target, step: nat, detached: bool)
    requires step <= 32
    requires PtrDepth(t) + step < 32
    ensures Walk(r, t, step, detached) ==
      if Base(t).0.StructValue? then InternalResolve(r, Base(t).0.slots, detached || Base(t).1)
      else Err(NotPointerToStruct)
    decreases PtrDepth(t)
  {
    match t
    case PtrTo(inner) =>
      WalkDepth(r, inner, step + 1, detached);
    case NilPtr(shape) =>
      ZeroTargetDepth(shape);
      if shape.PtrShape? {
        WalkDepth(r, ZeroTarget(shape), step + 1, true);
        ZeroTargetDepth(shape.elem);
      }
    case _ =>
  }

  /** A chain of 32 or more pointers is given up on. */
  lemma {:induction false} WalkTooDeep(r: StructProtoResolver, t: Target, step: nat, detached: bool)
    requires step <= 32
    requires PtrDepth(t) + step >= 32
    ensures Walk(r, t, step, detached) == Err(ExceedMaxCalls)
    decreases 32 - step
  {
    if step < 32 {
      match t
      case PtrTo(inner) => WalkTooDeep(r, inner, step + 1, detached);
      case NilPtr(shape) =>
        ZeroTargetDepth(shape);
        WalkTooDeep(r, ZeroTarget(shape), step + 1, true);
    }
  }

  // ---------------------------------------------------------------------
  // What the registry holds

  /** A name is registered iff some field resolves to it, and it then
      holds the metadata of the last such field. */
  lemma RegisteredNames(r: StructProtoResolver, slots: seq<Slot>, detached: bool, n: string)
    requires InternalResolve(r, slots, detached).Ok?
    ensures var s := InternalResolve(r, slots, detached).value;
      var decl := Decls(slots);
      var tags := Tags(r, decl);
      (n in s.fields <==> exists j :: 0 <= j < |decl| && NameAt(tags, j) == Some(n))
      && (n in s.fields ==> (NameAt(tags, s.fields[n].index) == Some(n)
          && s.fields[n] == MakeField(decl, s.fields[n].index, tags[s.fields[n].index].value.value)
          && forall j :: s.fields[n].index < j < |decl| ==> NameAt(tags, j) != Some(n)))
  {
    var decl := Decls(slots);
    var tags := Tags(r, decl);
    var index := Register(decl, tags, r.checkDuplicateNames, 0, Index(map[], [])).value;
    assert InternalResolve(r, slots, detached).value.fields == index.fields;
    IndexNames(decl, tags, index, n);
  }

  lemma IndexNames(decl: seq<FieldDecl>, tags: seq<Result<Option<Tag>, Error>>, index: Index, n: string)
    requires Registered(decl, tags, |decl|, index)
    ensures n in index.fields <==> exists j :: 0 <= j < |decl| && NameAt(tags, j) == Some(n)
    ensures n in index.fields ==> LastFieldNamed(decl, tags, |decl|, n, index.fields[n])
  {
    if n in index.fields {
      assert LastFieldNamed(decl, tags, |decl|, n, index.fields[n]);
      assert NameAt(tags, index.fields[n].index) == Some(n);
    }
  }

  /** With duplicate detection, a successful registration has distinct
      names and its required set is exactly the required fields. */
  lemma RequiredExactly(r: StructProtoResolver, slots: seq<Slot>, detached: bool)
    requires r.checkDuplicateNames
    requires InternalResolve(r, slots, detached).Ok?
    ensures var s := InternalResolve(r, slots, detached).value;
      var tags := Tags(r, Decls(slots));
      (forall n :: n in s.required <==> n in s.fields && IsRequiredField(s.fields[n]))
      && (forall j, k :: 0 <= j < k < |tags| && NameAt(tags, j).Some? ==> NameAt(tags, k) != NameAt(tags, j))
  {
  }

  /** With duplicate detection, two fields under one name are refused. */
  lemma DuplicateRefused(r: StructProtoResolver, slots: seq<Slot>, detached: bool, j: nat, k: nat)
    requires r.checkDuplicateNames
    requires j < k < |slots|
    requires NameAt(Tags(r, Decls(slots)), j).Some?
    requires NameAt(Tags(r, Decls(slots)), j) == NameAt(Tags(r, Decls(slots)), k)
    ensures InternalResolve(r, slots, detached).Err?
  {
    if InternalResolve(r, slots, detached).Ok? {
      RequiredExactly(r, slots, detached);
    }
  }

  /** A resolver that names both fields `ID` and marks only the first one
      required. */
  function RequiredFirst(fieldname: string, token: string): Result<Option<Tag>, Error>
  {
    Ok(Some(Tag("ID", if fieldname == "A" then [RequiredFlag] else [], "")))
  }

  /** Two string fields A and B without tags. */
  function TwoSlots(): seq<Slot>
  {
    [Slot(FieldDecl("A", StructTag([]), TString), VString("")),
     Slot(FieldDecl("B", StructTag([]), TString), VString(""))]
  }

  /** Registering A as a required `ID` and then B as a plain `ID`, without
      duplicate detection. */
  lemma TwoRegistered(decl: seq<FieldDecl>, tags: seq<Result<Option<Tag>, Error>>)
    requires decl == [FieldDecl("A", StructTag([]), TString), FieldDecl("B", StructTag([]), TString)]
    requires tags == [Ok(Some(Tag("ID", [RequiredFlag], ""))), Ok(Some(Tag("ID", [], "")))]
    ensures var res := Register(decl, tags, false, 0, Index(map[], []));
      res.Ok? && "ID" in res.value.required && "ID" in res.value.fields
      && res.value.fields["ID"].idName == "B" && !IsRequiredField(res.value.fields["ID"])
  {
    var i0 := Index(map[], []);
    assert Registered(decl, tags, 0, i0);
    var s1 := Step(decl, tags, false, 0, i0);
    var f1 := MakeField(decl, 0, Tag("ID", [RequiredFlag], ""));
    assert RequiredFlag in f1.flags;
    assert s1 == Ok(Index(map["ID" := f1], FlagSet.Insert([], "ID")));
    var s2 := Step(decl, tags, false, 1, s1.value);
    var f2 := MakeField(decl, 1, Tag("ID", [], ""));
    assert RequiredFlag !in f2.flags;
    assert s1.value.fields["ID" := f2] == map["ID" := f2];
    assert s2 == Ok(Index(map["ID" := f2], s1.value.required));
    assert Register(decl, tags, false, 1, s1.value) == Register(decl, tags, false, 2, s2.value);
    assert Register(decl, tags, false, 0, i0) == Register(decl, tags, false, 1, s1.value);
    assert "ID" in FlagSet.Insert([], "ID");
  }

  /** Without duplicate detection a later field replaces an earlier one of
      the same name, but a required name stays in the required set even
      when the field that replaced it is not required. */
  lemma StaleRequiredName()
    ensures var s := InternalResolve(StructProtoResolver("", Custom(RequiredFirst), false), TwoSlots(), false);
      s.Ok? && "ID" in s.value.required && "ID" in s.value.fields
      && s.value.fields["ID"].idName == "B" && !IsRequiredField(s.value.fields["ID"])
  {
    var r := StructProtoResolver("", Custom(RequiredFirst), false);
    var decl := Decls(TwoSlots());
    var tags := Tags(r, decl);
    assert decl == [FieldDecl("A", StructTag([]), TString), FieldDecl("B", StructTag([]), TString)];
    assert tags == [Ok(Some(Tag("ID", [RequiredFlag], ""))), Ok(Some(Tag("ID", [], "")))];
    TwoRegistered(decl, tags);
  }

  /** The tag-ignoring resolver registers every field under its Go name and
      marks none required. */
  lemma NoneResolverRegistersAll(r: StructProtoResolver, slots: seq<Slot>, detached: bool)
    requires r.tagResolver == NoneResolver
    ensures InternalResolve(r, slots, detached).Ok? ==>
      var s := InternalResolve(r, slots, detached).value;
      (forall n :: n in s.fields <==> exists j :: 0 <= j < |slots| && slots[j].decl.name == n)
      && s.required == []
  {
    var decl := Decls(slots);
    var tags := Tags(r, decl);
    NoneTags(r, decl);
    if InternalResolve(r, slots, detached).Ok? {
      var index := Register(decl, tags, r.checkDuplicateNames, 0, Index(map[], [])).value;
      assert InternalResolve(r, slots, detached).value == Struct(slots, index.fields, index.required, detached);
      NoneIndex(decl, tags, index);
      assert forall j :: 0 <= j < |slots| ==> decl[j].name == slots[j].decl.name;
    }
  }

  lemma NoneIndex(decl: seq<FieldDecl>, tags: seq<Result<Option<Tag>, Error>>, index: Index)
    requires Registered(decl, tags, |decl|, index)
    requires forall j :: 0 <= j < |decl| ==> tags[j] == Ok(Some(Tag(decl[j].name, [], "")))
    ensures forall n :: n in index.fields <==> exists j :: 0 <= j < |decl| && decl[j].name == n
    ensures index.required == []
  {
    forall n
      ensures n in index.fields <==> exists j :: 0 <= j < |decl| && decl[j].name == n
    {
      IndexNames(decl, tags, index, n);
      if exists j :: 0 <= j < |decl| && decl[j].name == n {
        var j :| 0 <= j < |decl| && decl[j].name == n;
        assert NameAt(tags, j) == Some(n);
      }
    }
    forall n
      ensures n !in index.required
    {
      NotRequiredWithoutFlags(tags, |decl|, n);
    }
    FlagSet.SameElementsEmpty(index.required, []);
  }

  /** Without duplicate detection the tag-ignoring resolver never fails. */
  lemma NoneResolverNeverFails(r: StructProtoResolver, slots: seq<Slot>, detached: bool)
    requires r.tagResolver == NoneResolver && !r.checkDuplicateNames
    ensures InternalResolve(r, slots, detached).Ok?
  {
    var decl := Decls(slots);
    NoneTags(r, decl);
  }

  lemma NotRequiredWithoutFlags(tags: seq<Result<Option<Tag>, Error>>, i: nat, n: string)
    requires i <= |tags|
    requires forall j :: 0 <= j < |tags| ==> tags[j].Ok? && tags[j].value.Some? && tags[j].value.value.flags == []
    ensures !RequiredAt(tags, i, n)
  {
  }

  lemma NoneTags(r: StructProtoResolver, decl: seq<FieldDecl>)
    requires r.tagResolver == NoneResolver
    ensures forall j :: 0 <= j < |decl| ==> Tags(r, decl)[j] == Ok(Some(Tag(decl[j].name, [], "")))
  {
  }
}

=== FILE: tagresolver.dfy ===
/** The two built-in tag resolvers: `StdTagResolver`, which parses a tag
    token of the form `[*...]name[,flag...][;description]`, and
    `NoneTagResolver`, which names every field after its Go name. */
module TagResolvers {
  import opened Outcomes
  import opened Errors
  import FieldInfos

  /** `common.Tag`: what a resolver extracts from one field's tag token. */
  datatype Tag = Tag(name: string, flags: seq<string>, desc: string)

  /** `strings.Split(s, sep)` for a one-character separator; splitting the
      empty string gives one empty part. */
  function Split(s: string, sep: char): (r: seq<string>)
    ensures |r| >= 1
    ensures forall i :: 0 <= i < |r| ==> sep !in r[i]
    decreases |s|
  {
    if |s| == 0 then [""]
    else
      var rest := Split(s[1..], sep);
      if s[0] == sep then [""] + rest
      else [[s[0]] + rest[0]] + rest[1..]
  }

  /** `strings.Join(parts, sep)`. */
  function Join(parts: seq<string>, sep: char): string
    decreases |parts|
  {
    if |parts| == 0 then ""
    else if |parts| == 1 then parts[0]
    else parts[0] + [sep] + Join(parts[1..], sep)
  }

  /** Joining the parts of a split gives back the input. */
  lemma {:induction false} JoinSplit(s: string, sep: char)
    ensures Join(Split(s, sep), sep) == s
    decreases |s|
  {
    if |s| > 0 {
      var rest := Split(s[1..], sep);
      JoinSplit(s[1..], sep);
      if s[0] == sep {
        assert Split(s, sep) == [""] + rest;
        assert s == [s[0]] + s[1..];
      } else {
        var r := Split(s, sep);
        assert r == [[s[0]] + rest[0]] + rest[1..];
        if |rest| == 1 {
          assert s == [s[0]] + rest[0];
        } else {
          assert r[1..] == rest[1..];
          assert Join(rest, sep) == rest[0] + [sep] + Join(rest[1..], sep);
          assert s == [s[0]] + s[1..];
        }
      }
    }
  }

  /** Splitting a join of separator-free parts gives back the parts. */
  lemma {:induction false} SplitJoin(parts: seq<string>, sep: char)
    requires |parts| >= 1
    requires forall i :: 0 <= i < |parts| ==> sep !in parts[i]
    ensures Split(Join(parts, sep), sep) == parts
    decreases |parts|, |parts[0]|
  {
    var p := parts[0];
    if |p| > 0 {
      var parts' := [p[1..]] + parts[1..];
      assert forall i :: 1 <= i < |parts'| ==> parts'[i] == parts[i];
      SplitJoin(parts', sep);
      assert p == [p[0]] + p[1..];
      assert p[0] in p;
      if |parts| == 1 {
        assert Join(parts, sep) == p;
        assert Join(parts', sep) == p[1..];
      } else {
        assert Join(parts, sep) == [p[0]] + (p[1..] + [sep] + Join(parts[1..], sep));
        assert parts'[1..] == parts[1..];
        assert Join(parts', sep) == p[1..] + [sep] + Join(parts[1..], sep);
      }
      assert parts == [[p[0]] + parts'[0]] + parts'[1..];
    } else if |parts| > 1 {
      SplitJoin(parts[1..], sep);
      assert Join(parts, sep) == [sep] + Join(parts[1..], sep);
      assert parts == [""] + parts[1..];
    }
  }

  /** `strings.SplitN(s, c, 2)`: the text before and after the first `c`,
      or None when `c` does not occur. */
  function SplitFirst(s: string, c: char): (r: Option<(string, string)>)
    ensures r.None? <==> c !in s
    ensures r.Some? ==> s == r.value.0 + [c] + r.value.1 && c !in r.value.0
    decreases |s|
  {
    if |s| == 0 then None
    else if s[0] == c then Some(("", s[1..]))
    else
      match SplitFirst(s[1..], c)
      case None => None
      case Some((a, b)) => Some(([s[0]] + a, b))
  }

  /** The characters a name may start with: `[A-Za-z0-9_-]`. */
  predicate IsNameChar(ch: char)
  {
    ch == '_' || ch == '-' || ('a' <= ch <= 'z') || ('A' <= ch <= 'Z') || ('0' <= ch <= '9')
  }

  /** The loop over the name's leading characters when no flag is given
      explicitly: it yields the name from the first name character on and
      the number of `*` before it, or fails on any other symbol. A name made
      only of `*` is kept whole. */
  function Scan(name: string, ii: nat): (r: Result<(string, nat), Error>)
    requires ii <= |name|
    requires forall k :: 0 <= k < ii ==> name[k] == '*'
    ensures r.Ok? ==> (ii <= r.value.1 <= |name| && (forall k :: 0 <= k < r.value.1 ==> name[k] == '*')
      && ((r.value.1 == |name| && r.value.0 == name)
          || (r.value.1 < |name| && IsNameChar(name[r.value.1]) && r.value.0 == name[r.value.1..])))
    ensures r.Err? ==> exists k :: (ii <= k < |name| && (forall m :: 0 <= m < k ==> name[m] == '*')
      && name[k] != '*' && !IsNameChar(name[k]) && r.error == UnknownAttributeSymbol(name[k]))
    decreases |name| - ii
  {
    if ii == |name| then Ok((name, ii))
    else if IsNameChar(name[ii]) then Ok((name[ii..], ii))
    else if name[ii] == '*' then Scan(name, ii + 1)
    else Err(UnknownAttributeSymbol(name[ii]))
  }

  /** The number of `*` the string starts with. */
  function LeadingStars(s: string): (n: nat)
    ensures n <= |s|
    decreases |s|
  {
    if |s| > 0 && s[0] == '*' then 1 + LeadingStars(s[1..]) else 0
  }

  lemma {:induction false} LeadingStarsSpan(s: string)
    ensures forall k :: 0 <= k < LeadingStars(s) ==> s[k] == '*'
    ensures LeadingStars(s) < |s| ==> s[LeadingStars(s)] != '*'
    decreases |s|
  {
    if |s| > 0 && s[0] == '*' {
      LeadingStarsSpan(s[1..]);
      assert forall k :: 1 <= k < |s| ==> s[k] == s[1..][k - 1];
    }
  }

  /** The scan in closed form, in terms of the leading-`*` count. */
  lemma {:induction false} ScanClosedForm(name: string)
    ensures var n := LeadingStars(name);
      Scan(name, 0) ==
        if n == |name| then Ok((name, n))
        else if IsNameChar(name[n]) then Ok((name[n..], n))
        else Err(UnknownAttributeSymbol(name[n]))
  {
    LeadingStarsSpan(name);
    ScanFrom(name, 0);
  }

  lemma {:induction false} ScanFrom(name: string, ii: nat)
    requires ii <= LeadingStars(name)
    requires forall k :: 0 <= k < LeadingStars(name) ==> name[k] == '*'
    requires LeadingStars(name) < |name| ==> name[LeadingStars(name)] != '*'
    ensures var n := LeadingStars(name);
      Scan(name, ii) ==
        if n == |name| then Ok((name, n))
        else if IsNameChar(name[n]) then Ok((name[n..], n))
        else Err(UnknownAttributeSymbol(name[n]))
    decreases |name| - ii
  {
    if ii < LeadingStars(name) {
      assert name[ii] == '*' && !IsNameChar('*');
      ScanFrom(name, ii + 1);
    }
  }

  /** `n` copies of the required flag. */
  function RequiredFlags(n: nat): (r: seq<string>)
    ensures |r| == n
    ensures forall i :: 0 <= i < n ==> r[i] == FieldInfos.RequiredFlag
  {
    seq(n, _ => FieldInfos.RequiredFlag)
  }

  /** The text before the first `;` and the description after it. */
  function Sections(token: string): (string, string)
  {
    match SplitFirst(token, ';')
    case Some((head, desc)) => (head, desc)
    case None => (token, "")
  }

  /** `StdTagResolver`: None stands for the nil tag (the field is skipped). */
  function StdTagResolver(fieldname: string, token: string): (r: Result<Option<Tag>, Error>)
    ensures |token| == 0 ==> r == Ok(None)
    ensures r.Ok? && r.value.Some? ==> r.value.value.name != "" && r.value.value.name != "-"
    ensures r.Err? ==> r.error.UnknownAttributeSymbol? && r.error.symbol in token
  {
    if |token| == 0 then Ok(None)
    else
      var (head, desc) := Sections(token);
      var parts := Split(head, ',');
      var name0, flags0 := parts[0], parts[1..];
      var scanned: Result<(string, seq<string>), Error> :=
        if |flags0| == 0 then
          match Scan(name0, 0)
          case Ok((name, n)) => Ok((name, RequiredFlags(n)))
          case Err(e) => Err(e)
        else Ok((name0, flags0));
      match scanned
      case Err(e) =>
        ScanClosedForm(name0);
        SymbolInToken(token, head, desc, parts, name0);
        Err(e)
      case Ok((name, flags)) =>
        if |name| > 0 && name != "-" then Ok(Some(Tag(name, flags, desc))) else Ok(None)
  }

  lemma SymbolInToken(token: string, head: string, desc: string, parts: seq<string>, name0: string)
    requires (head, desc) == Sections(token)
    requires parts == Split(head, ',') && name0 == parts[0]
    ensures forall k :: 0 <= k < |name0| ==> name0[k] in token
  {
    JoinSplit(head, ',');
    if |parts| > 1 {
      assert head == name0 + [','] + Join(parts[1..], ',');
    }
    assert forall k :: 0 <= k < |name0| ==> name0[k] == head[k];
    if SplitFirst(token, ';').Some? {
      assert token == head + [';'] + desc;
      assert forall k :: 0 <= k < |head| ==> head[k] == token[k];
    }
  }

  /** `NoneTagResolver`: every field is kept under its Go name, with no
      flags and no description; the token is ignored. */
  function NoneTagResolver(fieldname: string, token: string): (r: Result<Option<Tag>, Error>)
    ensures r.Ok? && r.value.Some?
    ensures r.value.value.name == fieldname
    ensures FieldInfos.RequiredFlag !in r.value.value.flags && r.value.value.desc == ""
  {
    Ok(Some(Tag(fieldname, [], "")))
  }

  /** The description is the text after the first `;`, or empty without
      one; the parts before it are the name and the explicit flags. */
  lemma StdDescription(fieldname: string, token: string)
    requires StdTagResolver(fieldname, token).Ok?
    requires StdTagResolver(fieldname, token).value.Some?
    ensures var tag := StdTagResolver(fieldname, token).value.value;
      (';' !in token ==> tag.desc == "")
      && (';' in token ==> exists head :: token == head + [';'] + tag.desc && ';' !in head)
  {
    var (head, desc) := Sections(token);
    if ';' in token {
      assert token == head + [';'] + desc && ';' !in head;
    }
  }

  /** With explicit flags (a `,` before any `;`) the resolver never fails and
      no `*` is interpreted: the name and flags are the comma-separated
      parts, and joining them back with the description rebuilds the token. */
  lemma StdExplicitFlags(fieldname: string, token: string)
    requires ',' in Sections(token).0
    ensures var r := StdTagResolver(fieldname, token);
      r.Ok?
      && var parts := Split(Sections(token).0, ',');
      && (r.value.Some? <==> parts[0] != "" && parts[0] != "-")
      && (r.value.Some? ==>
            r.value.value.name == parts[0] && r.value.value.flags == parts[1..]
            && Join([r.value.value.name] + r.value.value.flags, ',') + (if ';' in token then [';'] + r.value.value.desc else "") == token)
  {
    var (head, desc) := Sections(token);
    var parts := Split(head, ',');
    JoinSplit(head, ',');
    if |parts| == 1 {
      assert false;
    }
    assert [parts[0]] + parts[1..] == parts;
    if ';' !in token {
      assert head == token;
    }
  }

  /** Without explicit flags, each leading `*` adds the required flag and the
      name starts at the first name character; any other leading symbol is
      an error. A token of only `*` keeps them all in its name. */
  lemma StdLeadingSymbols(fieldname: string, token: string)
    requires |token| > 0
    requires ',' !in Sections(token).0
    ensures var name0 := Sections(token).0;
      var n := LeadingStars(name0);
      var r := StdTagResolver(fieldname, token);
      (n < |name0| && !IsNameChar(name0[n]) ==> r == Err(UnknownAttributeSymbol(name0[n])))
      && (n < |name0| && IsNameChar(name0[n]) ==>
            r.Ok? && (r.value.Some? <==> name0[n..] != "-")
            && (r.value.Some? ==> r.value.value.name == name0[n..] && r.value.value.flags == RequiredFlags(n)))
      && (n == |name0| ==>
            r.Ok? && (r.value.Some? <==> n > 0)
            && (r.value.Some? ==> r.value.value.name == name0 && r.value.value.flags == RequiredFlags(n)))
  {
    var (head, desc) := Sections(token);
    var parts := Split(head, ',');
    JoinSplit(head, ',');
    if |parts| > 1 {
      assert false;
    }
    assert parts[0] == head;
    ScanClosedForm(head);
    LeadingStarsSpan(head);
    if LeadingStars(head) == |head| && |head| > 0 {
      assert head[0] == '*';
      assert head != "-";
    }
  }
}

=== FILE: valuebinder.dfy ===
/** The value-coercion engine of valuebinder/: the known-type table and the
    Unmarshaler hook (`bindKnownType`), primitive kind dispatch
    (`bindValue`), and the three binders `ScalarBinder`, `StringBinder` and
    `BytesBinder` with their recursion through slices and maps.

    A binder works on one slot, given as its static type and its current
    content, and returns the slot's new content with the error, if any.
    The pointer chain of the slot is allocated before any conversion, so a
    failing bind still leaves the chain allocated; apart from that a
    failing bind writes nothing. */
module ValueBinder {
  import opened Outcomes
  import opened GoValues
  import opened Errors
  import opened Reflecting
  import Converters
  import TagResolvers

  /** The routines the binders call but whose code is not part of this
      model: the conversion library (`conv.Bool`, `conv.String`,
      `conv.Int64`, `conv.Uint64`, `conv.Float64`, `conv.Duration`,
      `conv.Time`), the IP and URL converters, and the user's
      `UnmarshalStruct`, which fills a fresh zero value of the given type.
      Floats and times are opaque tokens. */
  datatype Env = Env(
    toBool: Input -> Result<bool, Error>,
    toString: Input -> Result<string, Error>,
    toInt64: Input -> Result<int, Error>,
    toUint64: Input -> Result<int, Error>,
    toFloat64: Input -> Result<int, Error>,
    toDuration: Input -> Result<int, Error>,
    toTime: Input -> Result<int, Error>,
    toIP: Input -> Result<Value, Error>,
    toUrl: Input -> Result<Value, Error>,
    unmarshal: (GoType, Input) -> Result<Value, Error>)

  /** A slot's content after a bind, and the error the bind returned. */
  datatype Bound = Bound(value: Value, err: Option<Error>)

  // ---------------------------------------------------------------------
  // Integer widths

  /** The widths of Go's sized integers. */
  datatype Width = W8 | W16 | W32 | W64

  /** The number of values of a width. */
  function Modulus(w: Width): (m: nat)
    ensures m >= 0x100
  {
    match w
    case W8 => 0x100
    case W16 => 0x1_0000
    case W32 => 0x1_0000_0000
    case W64 => 0x1_0000_0000_0000_0000
  }

  /** The least value a signed integer of the width cannot hold. */
  function SignedLimit(w: Width): (h: nat)
    ensures 2 * h == Modulus(w)
  {
    match w
    case W8 => 0x80
    case W16 => 0x8000
    case W32 => 0x8000_0000
    case W64 => 0x8000_0000_0000_0000
  }

  /** Widths on a 64-bit platform. */
  function IntWidth(ik: IntKind): Width
  {
    match ik
    case Int => W64
    case Int8 => W8
    case Int16 => W16
    case Int32 => W32
    case Int64 => W64
  }

  function UintWidth(uk: UintKind): Width
  {
    match uk
    case Uint => W64
    case Uint8 => W8
    case Uint16 => W16
    case Uint32 => W32
    case Uint64 => W64
  }

  /** `SetUint` on a narrower field keeps the low bits. */
  function WrapUnsigned(x: int, w: Width): (r: int)
    ensures 0 <= r < Modulus(w)
  {
    x % Modulus(w)
  }

  /** `SetInt` on a narrower field keeps the low bits as two's complement. */
  function WrapSigned(x: int, w: Width): (r: int)
    ensures -(SignedLimit(w) as int) <= r < SignedLimit(w)
  {
    var y := x % Modulus(w);
    if y >= SignedLimit(w) then y - Modulus(w) else y
  }

  /** A value that fits the field is stored as it is. */
  lemma WrapInRange(x: int, w: Width)
    ensures 0 <= x < Modulus(w) ==> WrapUnsigned(x, w) == x
    ensures -(SignedLimit(w) as int) <= x < SignedLimit(w) ==> WrapSigned(x, w) == x
  {
    match w
    case W8 =>
    case W16 =>
    case W32 =>
    case W64 =>
  }

  // ---------------------------------------------------------------------
  // bindValue and the known-type table

  /** A conversion result stored into a slot: the converted value on
      success; on failure the slot is unchanged and the error is wrapped in
      a `ValueBindingError` labelled with the destination's kind or type. */
  function Stored(x: Value, v: Input, tag: string, r: Result<Value, Error>): (b: Bound)
  {
    match r
    case Ok(y) => Bound(y, None)
    case Err(e) => Bound(x, Some(ValueBindingError(v, tag, Some(e))))
  }

  /** The conversion for a primitive kind, or None for any other kind. */
  function ConvertKind(env: Env, k: Kind, v: Input): Option<Result<Value, Error>>
  {
    match k
    case KBool => Some(match env.toBool(v) case Ok(b) => Ok(VBool(b)) case Err(e) => Err(e))
    case KString => Some(match env.toString(v) case Ok(s) => Ok(VString(s)) case Err(e) => Err(e))
    case KInt(ik) => Some(match env.toInt64(v) case Ok(n) => Ok(VInt(WrapSigned(n, IntWidth(ik)))) case Err(e) => Err(e))
    case KUint(uk) => Some(match env.toUint64(v) case Ok(n) => Ok(VUint(WrapUnsigned(n, UintWidth(uk)))) case Err(e) => Err(e))
    case KFloat(_) => Some(match env.toFloat64(v) case Ok(f) => Ok(VFloat(f)) case Err(e) => Err(e))
    case _ => None
  }

  /** `bindValue`: conversion by the destination's kind. */
  function BindValue(env: Env, t: GoType, x: Value, v: Input): (b: Bound)
    ensures b.err.Some? ==> (b.value == x
      && b.err.value.ValueBindingError? && b.err.value.value == v && b.err.value.kind == KindName(KindOf(t)))
    ensures ConvertKind(env, KindOf(t), v).None? ==>
      b.err == Some(ValueBindingError(v, KindName(KindOf(t)), Some(UnsupportedType)))
    ensures ConvertKind(env, KindOf(t), v).Some? ==>
      (b.err.None? <==> ConvertKind(env, KindOf(t), v).value.Ok?)
      && (b.err.None? ==> b.value == ConvertKind(env, KindOf(t), v).value.value)
      && (b.err.Some? ==> b.err.value.cause == Some(ConvertKind(env, KindOf(t), v).value.error))
  {
    var tag := KindName(KindOf(t));
    match ConvertKind(env, KindOf(t), v)
    case Some(r) => Stored(x, v, tag, r)
    case None => Bound(x, Some(ValueBindingError(v, tag, Some(UnsupportedType))))
  }

  /** The bind stored what the converter produced, or, when the converter
      failed, reports the converter's error as its cause. */
  ghost predicate StoredFrom(b: Bound, c: Result<Value, Error>)
  {
    (b.err.None? <==> c.Ok?)
    && (c.Ok? ==> b.value == c.value)
    && (c.Err? ==> b.err.Some? && b.err.value.ValueBindingError? && b.err.value.cause == Some(c.error))
  }

  /** The seven entries of the known-type table. */
  function BindKnown(env: Env, k: KnownType, x: Value, v: Input): (b: Bound)
    ensures b.err.Some? ==> (b.value == x
      && b.err.value.ValueBindingError? && b.err.value.value == v
      && b.err.value.kind == KnownTypeName(k) && b.err.value.cause.Some?)
    ensures k == KnownType.Duration ==>
      ((env.toDuration(v).Ok? ==> StoredFrom(b, Ok(VInt(WrapSigned(env.toDuration(v).value, W64)))))
       && (env.toDuration(v).Err? ==> StoredFrom(b, Err(env.toDuration(v).error))))
    ensures k == KnownType.Time ==>
      ((env.toTime(v).Ok? ==> StoredFrom(b, Ok(VOpaque(env.toTime(v).value))))
       && (env.toTime(v).Err? ==> StoredFrom(b, Err(env.toTime(v).error))))
    ensures k == KnownType.RawContent ==> StoredFrom(b, Converters.RawContent(v))
    ensures k == KnownType.RawMessage ==> StoredFrom(b, Converters.RawMessage(v))
    ensures k == KnownType.IP ==> StoredFrom(b, env.toIP(v))
    ensures k == KnownType.Url ==> StoredFrom(b, env.toUrl(v))
    ensures k == KnownType.Buffer ==> StoredFrom(b, Converters.Buffer(v))
  {
    var tag := KnownTypeName(k);
    match k
    case Duration =>
      Stored(x, v, tag, match env.toDuration(v) case Ok(d) => Ok(VInt(WrapSigned(d, W64))) case Err(e) => Err(e))
    case RawContent => Stored(x, v, tag, Converters.RawContent(v))
    case RawMessage => Stored(x, v, tag, Converters.RawMessage(v))
    case IP => Stored(x, v, tag, env.toIP(v))
    case Url => Stored(x, v, tag, env.toUrl(v))
    case Time => Stored(x, v, tag, match env.toTime(v) case Ok(tm) => Ok(VOpaque(tm)) case Err(e) => Err(e))
    case Buffer => Stored(x, v, tag, Converters.Buffer(v))
  }

  /** Whether `*T` implements `Unmarshaler`. */
  predicate Unmarshalable(t: GoType)
  {
    t.TUser? && t.unmarshaler
  }

  /** `bindKnownType`: the Unmarshaler hook first, then the table keyed by
      the exact type; None when neither applies. The hook fills a fresh
      zero value, which replaces the slot only on success; its error is
      returned as it is. */
  function BindKnownType(env: Env, t: GoType, x: Value, v: Input): (r: Option<Bound>)
    ensures r.None? <==> !Unmarshalable(t) && !t.TKnown?
    ensures Unmarshalable(t) ==>
      (r.value.err.None? <==> env.unmarshal(t, v).Ok?)
      && (r.value.err.None? ==> r.value.value == env.unmarshal(t, v).value)
      && (r.value.err.Some? ==> r.value == Bound(x, Some(env.unmarshal(t, v).error)))
    ensures t.TKnown? ==> r == Some(BindKnown(env, t.known, x, v))
  {
    if Unmarshalable(t) then
      match env.unmarshal(t, v)
      case Ok(u) => Some(Bound(u, None))
      case Err(e) => Some(Bound(x, Some(e)))
    else if t.TKnown? then Some(BindKnown(env, t.known, x, v))
    else None
  }

  // ---------------------------------------------------------------------
  // Container inputs

  /** `reflect.ValueOf(v).Kind()` is Slice. */
  predicate IsSliceInput(v: Input)
  {
    v.Dyn? && KindOf(v.t) == KSlice
  }

  /** The elements of a slice input, each as `Index(i).Interface()` sees it. */
  function SliceInputs(v: Input): (r: seq<Input>)
    requires IsSliceInput(v)
    ensures |r| == |ElemsOf(v.v)|
  {
    var xs := ElemsOf(v.v);
    var e := if v.t.TSlice? then v.t.elem else TUint(Uint8);
    seq(|xs|, j requires 0 <= j < |xs| => ElemInput(e, xs[j]))
  }

  /** `reflect.ValueOf(v).Kind()` is Map. */
  predicate IsMapInput(v: Input)
  {
    v.Dyn? && v.t.TMap?
  }

  /** The entries of a map input in iteration order; a nil map has none. */
  function MapEntries(v: Value): seq<(Value, Value)>
  {
    if v.VMap? then v.entries else []
  }

  /** A map with distinct keys. */
  predicate DistinctKeys(m: seq<(Value, Value)>)
  {
    forall i, j :: 0 <= i < j < |m| ==> m[i].0 != m[j].0
  }

  /** `SetMapIndex`: overwrites the entry of an existing key in place, or
      adds a new entry. */
  function Put(m: seq<(Value, Value)>, k: Value, x: Value): (r: seq<(Value, Value)>)
    ensures (k, x) in r
    ensures forall p :: p in r ==> p in m || p == (k, x)
    ensures forall i :: 0 <= i < |m| && m[i].0 != k ==> m[i] in r
    ensures DistinctKeys(m) ==> DistinctKeys(r)
    decreases |m|
  {
    if |m| == 0 then [(k, x)]
    else if m[0].0 == k then [(k, x)] + m[1..]
    else
      var rest := Put(m[1..], k, x);
      assert forall i :: 1 <= i < |m| ==> m[i] == m[1..][i - 1];
      assert DistinctKeys(m) ==> forall p :: p in rest ==> p.0 != m[0].0 by {
        if DistinctKeys(m) {
          forall p | p in rest ensures p.0 != m[0].0 {
            if p in m[1..] {
              var i :| 0 <= i < |m[1..]| && m[1..][i] == p;
              assert m[i + 1] == p;
            }
          }
        }
      }
      [m[0]] + rest
  }

  /** Copying the entries of a map of the same type, one `SetMapIndex` at
      a time. */
  function PutAll(out: seq<(Value, Value)>, entries: seq<(Value, Value)>): seq<(Value, Value)>
    decreases |entries|
  {
    if |entries| == 0 then out
    else PutAll(Put(out, entries[0].0, entries[0].1), entries[1..])
  }

  /** Copying a map with distinct keys into an empty map reproduces it. */
  lemma {:induction false} PutAllCopies(out: seq<(Value, Value)>, entries: seq<(Value, Value)>)
    requires DistinctKeys(out + entries)
    ensures PutAll(out, entries) == out + entries
    decreases |entries|
  {
    if |entries| > 0 {
      var k, x := entries[0].0, entries[0].1;
      forall i | 0 <= i < |out|
        ensures out[i].0 != k
      {
        assert (out + entries)[i] == out[i] && (out + entries)[|out|] == entries[0];
      }
      PutAppends(out, k, x);
      assert out + entries == (out + [(k, x)]) + entries[1..];
      PutAllCopies(out + [(k, x)], entries[1..]);
    }
  }

  lemma {:induction false} PutAppends(m: seq<(Value, Value)>, k: Value, x: Value)
    requires forall i :: 0 <= i < |m| ==> m[i].0 != k
    ensures Put(m, k, x) == m + [(k, x)]
    decreases |m|
  {
    if |m| > 0 {
      PutAppends(m[1..], k, x);
      assert m == [m[0]] + m[1..];
    }
  }

  // ---------------------------------------------------------------------
  // ScalarBinder

  /** `ScalarBinder.Bind`: a nil input panics, so the input is a value. An
      input whose type is assignable to the slot's type is stored as it
      is; any other goes through the coercion. */
  function ScalarBind(env: Env, t: GoType, x: Value, v: Input): (b: Bound)
    requires v.Dyn?
    ensures Assignable(v.t, t) ==> b == Bound(Assign(v.t, t, v.v), None)
    ensures !Assignable(v.t, t) ==> Linked(t, b.value)
    ensures !Assignable(v.t, t) && b.err.Some? ==> b.value == AssignZero(t, x)
  {
    if Assignable(v.t, t) then Bound(Assign(v.t, t, v.v), None)
    else ScalarBindImpl(env, t, x, v)
  }

  /** `ScalarBinder.bindValueImpl`: allocate the pointer chain, then bind the
      leaf. On failure only the allocation persists. */
  function ScalarBindImpl(env: Env, t: GoType, x: Value, v: Input): (b: Bound)
    ensures Linked(t, b.value)
    ensures b.err.Some? ==> b.value == AssignZero(t, x)
    decreases Size(t), 2, 0
  {
    var az := AssignZero(t, x);
    var lb := ScalarLeaf(env, LeafType(t), LeafOf(t, az), v);
    SetLeafOfLeaf(t, az);
    Bound(SetLeaf(t, az, lb.value), lb.err)
  }

  /** The leaf step of `ScalarBinder.bindValueImpl`. */
  function ScalarLeaf(env: Env, t: GoType, x: Value, v: Input): (b: Bound)
    requires !t.TPtr?
    ensures b.err.Some? ==> b.value == x
    decreases Size(t), 1, 0
  {
    match BindKnownType(env, t, x, v)
    case Some(kb) => kb
    case None =>
      if t.TSlice? then
        if IsSliceInput(v) then
          match BindScalarElems(env, t.elem, SliceInputs(v), 0)
          case Ok(xs) => Bound(VSlice(xs), None)
          case Err((i, e)) => Bound(x, Some(SliceBindingError(v, "slice", i, e)))
        else Bound(x, Some(ValueBindingError(v, "slice", None)))
      else if t.TMap? && IsMapInput(v) then
        if v.t == t then Bound(VMap(PutAll([], MapEntries(v.v))), None)
        else
          match BindScalarEntries(env, t.key, t.elem, v.t.key, v.t.elem, MapEntries(v.v), 0, [])
          case Ok(m) => Bound(VMap(m), None)
          case Err(e) => Bound(x, Some(e))
      else if IsZero(x) then BindValue(env, t, x, v)
      else Bound(x, None)
  }

  /** Binds each slice element into a fresh zero element, stopping at the
      first failure and reporting its index. */
  function BindScalarElems(env: Env, e: GoType, ins: seq<Input>, i: nat): (r: Result<seq<Value>, (nat, Error)>)
    requires i <= |ins|
    ensures r.Ok? ==> |r.value| == |ins| - i
    ensures r.Ok? ==> forall j :: i <= j < |ins| ==>
      ScalarBindImpl(env, e, Zero(e), ins[j]) == Bound(r.value[j - i], None)
    ensures r.Err? ==> (i <= r.error.0 < |ins|
      && ScalarBindImpl(env, e, Zero(e), ins[r.error.0]).err == Some(r.error.1)
      && forall j :: i <= j < r.error.0 ==> ScalarBindImpl(env, e, Zero(e), ins[j]).err.None?)
    decreases Size(e), 3, |ins| - i
  {
    if i == |ins| then Ok([])
    else
      var b := ScalarBindImpl(env, e, Zero(e), ins[i]);
      match b.err
      case Some(err) => Err((i, err))
      case None =>
        match BindScalarElems(env, e, ins, i + 1)
        case Ok(rest) => Ok([b.value] + rest)
        case Err(f) => Err(f)
  }

  /** Binds one map entry: its key into a fresh zero key of the
      destination's key type, then its value into a fresh zero element; a
      failing key is reported before the value is tried. */
  function EntryBind(env: Env, kt: GoType, et: GoType, ikt: GoType, iet: GoType, entry: (Value, Value)): Result<(Value, Value), Error>
    decreases Size(kt) + Size(et), 2, 0
  {
    var kb := ScalarBindImpl(env, kt, Zero(kt), ElemInput(ikt, entry.0));
    if kb.err.Some? then Err(kb.err.value)
    else
      var vb := ScalarBindImpl(env, et, Zero(et), ElemInput(iet, entry.1));
      if vb.err.Some? then Err(vb.err.value)
      else Ok((kb.value, vb.value))
  }

  /** The values of a run of results, up to the first error. */
  function OkPrefix<T>(rs: seq<Result<T, Error>>): seq<T>
  {
    if |rs| == 0 || rs[0].Err? then [] else [rs[0].value] + OkPrefix(rs[1..])
  }

  /** When no result is an error, there is one value per result. */
  lemma {:induction false} OkPrefixAll<T>(rs: seq<Result<T, Error>>)
    requires forall j :: 0 <= j < |rs| ==> rs[j].Ok?
    ensures |OkPrefix(rs)| == |rs|
    ensures forall j :: 0 <= j < |rs| ==> rs[j] == Ok(OkPrefix(rs)[j])
  {
    if |rs| > 0 {
      OkPrefixAll(rs[1..]);
    }
  }

  /** The result of binding each entry on its own. */
  function EntryResults(env: Env, kt: GoType, et: GoType, ikt: GoType, iet: GoType, es: seq<(Value, Value)>): (rs: seq<Result<(Value, Value), Error>>)
    ensures |rs| == |es|
    decreases Size(kt) + Size(et), 2, 1
  {
    seq(|es|, j requires 0 <= j < |es| => EntryBind(env, kt, et, ikt, iet, es[j]))
  }

  /** The converted key/value pairs of the entries, up to the first entry
      that does not bind. */
  function BoundPairs(env: Env, kt: GoType, et: GoType, ikt: GoType, iet: GoType, es: seq<(Value, Value)>): seq<(Value, Value)>
    decreases Size(kt) + Size(et), 2, 2
  {
    OkPrefix(EntryResults(env, kt, et, ikt, iet, es))
  }

  /** When every entry binds, there is one pair per entry, each the
      converted key and value of its entry. */
  lemma BoundPairsAll(env: Env, kt: GoType, et: GoType, ikt: GoType, iet: GoType, es: seq<(Value, Value)>)
    requires forall j :: 0 <= j < |es| ==> EntryBind(env, kt, et, ikt, iet, es[j]).Ok?
    ensures |BoundPairs(env, kt, et, ikt, iet, es)| == |es|
    ensures forall j :: 0 <= j < |es| ==> EntryBind(env, kt, et, ikt, iet, es[j]) == Ok(BoundPairs(env, kt, et, ikt, iet, es)[j])
  {
    OkPrefixAll(EntryResults(env, kt, et, ikt, iet, es));
  }

  /** Entries whose first entry binds to `pair`: that pair, then the pairs
      of the rest. */
  lemma BoundPairsStep(env: Env, kt: GoType, et: GoType, ikt: GoType, iet: GoType, es: seq<(Value, Value)>, pair: (Value, Value))
    requires |es| > 0 && EntryBind(env, kt, et, ikt, iet, es[0]) == Ok(pair)
    ensures BoundPairs(env, kt, et, ikt, iet, es) == [pair] + BoundPairs(env, kt, et, ikt, iet, es[1..])
    decreases Size(kt) + Size(et), 2, 3
  {
    var rs := EntryResults(env, kt, et, ikt, iet, es);
    assert rs[1..] == EntryResults(env, kt, et, ikt, iet, es[1..]);
  }

  /** Binds each map entry from position i on, inserting the converted
      pairs into `out` with `SetMapIndex`; the first failing entry aborts
      with its error. */
  function BindScalarEntries(env: Env, kt: GoType, et: GoType, ikt: GoType, iet: GoType,
                             entries: seq<(Value, Value)>, i: nat, out: seq<(Value, Value)>): (r: Result<seq<(Value, Value)>, Error>)
    requires i <= |entries|
    ensures r.Ok? <==> forall j :: i <= j < |entries| ==> EntryBind(env, kt, et, ikt, iet, entries[j]).Ok?
    ensures r.Ok? ==> r.value == PutAll(out, BoundPairs(env, kt, et, ikt, iet, entries[i..]))
    ensures r.Err? ==> exists j :: (i <= j < |entries| && EntryBind(env, kt, et, ikt, iet, entries[j]) == Err(r.error)
      && forall m :: i <= m < j ==> EntryBind(env, kt, et, ikt, iet, entries[m]).Ok?)
    decreases Size(kt) + Size(et), 3, |entries| - i
  {
    if i == |entries| then Ok(out)
    else
      match EntryBind(env, kt, et, ikt, iet, entries[i])
      case Err(e) => Err(e)
      case Ok(pair) =>
        var r := BindScalarEntries(env, kt, et, ikt, iet, entries, i + 1, Put(out, pair.0, pair.1));
        if r.Ok? then
          BoundPairsStep(env, kt, et, ikt, iet, entries[i..], pair);
          assert entries[i..][1..] == entries[i + 1..];
          r
        else r
  }

  // ---------------------------------------------------------------------
  // StringBinder

  /** The input as the string binder sees it: `input.(string)`. */
  function StringInput(s: string): Input
  {
    Dyn(TString, VString(s))
  }

  /** `StringBinder.Bind`. */
  function StringBind(env: Env, t: GoType, x: Value, input: Input): (b: Bound)
    ensures !IsGoString(input) ==> b == Bound(x, Some(CannotBindInput(input)))
    ensures IsGoString(input) && Assignable(TString, t) ==>
      b == Bound(Assign(TString, t, input.v), None)
    ensures IsGoString(input) && !Assignable(TString, t) ==> Linked(t, b.value)
  {
    if !IsGoString(input) then Bound(x, Some(CannotBindInput(input)))
    else if Assignable(TString, t) then Bound(Assign(TString, t, input.v), None)
    else StringBindImpl(env, t, x, input.v.s)
  }

  /** `StringBinder.bindValueImpl`. */
  function StringBindImpl(env: Env, t: GoType, x: Value, s: string): (b: Bound)
    ensures Linked(t, b.value)
    ensures b.err.Some? ==> b.value == AssignZero(t, x)
    decreases Size(t), 2, 0
  {
    var az := AssignZero(t, x);
    var lb := StringLeaf(env, LeafType(t), LeafOf(t, az), s);
    SetLeafOfLeaf(t, az);
    Bound(SetLeaf(t, az, lb.value), lb.err)
  }

  /** The leaf step of `StringBinder.bindValueImpl`. */
  function StringLeaf(env: Env, t: GoType, x: Value, s: string): (b: Bound)
    requires !t.TPtr?
    ensures b.err.Some? ==> b.value == x
    decreases Size(t), 1, 0
  {
    match BindKnownType(env, t, x, StringInput(s))
    case Some(kb) => kb
    case None =>
      if KindOf(t) == KString then Bound(VString(s), None)
      else if t.TSlice? then
        if |s| > 0 then
          match BindStringElems(env, t.elem, TagResolvers.Split(s, ','), 0)
          case Ok(xs) => Bound(VSlice(xs), None)
          case Err((i, e)) => Bound(x, Some(SliceBindingError(StringInput(s), "slice", i, e)))
        else Bound(x, None)
      else BindValue(env, t, x, StringInput(s))
  }

  /** Binds each comma-separated part into a fresh zero element. */
  function BindStringElems(env: Env, e: GoType, parts: seq<string>, i: nat): (r: Result<seq<Value>, (nat, Error)>)
    requires i <= |parts|
    ensures r.Ok? ==> |r.value| == |parts| - i
    ensures r.Ok? ==> forall j :: i <= j < |parts| ==>
      StringBindImpl(env, e, Zero(e), parts[j]) == Bound(r.value[j - i], None)
    ensures r.Err? ==> (i <= r.error.0 < |parts|
      && StringBindImpl(env, e, Zero(e), parts[r.error.0]).err == Some(r.error.1)
      && forall j :: i <= j < r.error.0 ==> StringBindImpl(env, e, Zero(e), parts[j]).err.None?)
    decreases Size(e), 3, |parts| - i
  {
    if i == |parts| then Ok([])
    else
      var b := StringBindImpl(env, e, Zero(e), parts[i]);
      match b.err
      case Some(err) => Err((i, err))
      case None =>
        match BindStringElems(env, e, parts, i + 1)
        case Ok(rest) => Ok([b.value] + rest)
        case Err(f) => Err(f)
  }

  // ---------------------------------------------------------------------
  // BytesBinder

  /** `BytesBinder.Bind`: only the exact type `[]byte` is accepted. */
  function BytesBind(env: Env, t: GoType, x: Value, input: Input): (b: Bound)
    ensures !(input.Dyn? && input.t == BytesType) ==> b == Bound(x, Some(CannotBindInput(input)))
    ensures input.Dyn? && input.t == BytesType && Assignable(BytesType, t) ==>
      b == Bound(Assign(BytesType, t, input.v), None)
  {
    if !(input.Dyn? && input.t == BytesType) then Bound(x, Some(CannotBindInput(input)))
    else if Assignable(BytesType, t) then Bound(Assign(BytesType, t, input.v), None)
    else BytesBindImpl(env, t, x, ElemsOf(input.v))
  }

  /** `BytesBinder.bindValueImpl`: after allocating the chain it looks
      through ONE pointer level (`reflect.Indirect`); a `bytes.Buffer` there
      receives the bytes, anything else is bound from `string(bytes)` by the
      string binder. */
  function BytesBindImpl(env: Env, t: GoType, x: Value, bs: seq<Value>): (b: Bound)
    ensures t == TKnown(KnownType.Buffer) ==> b == Bound(VBuffer(bs), None)
    ensures t == TPtr(TKnown(KnownType.Buffer)) ==> b == Bound(VPtr(VBuffer(bs)), None)
    ensures t != TKnown(KnownType.Buffer) && t != TPtr(TKnown(KnownType.Buffer)) ==>
      b == StringBindImpl(env, t, x, StringOf(bs))
  {
    var az := AssignZero(t, x);
    assert t.TPtr? ==> AssignZero(t.elem, az.target) == az.target by {
      if t.TPtr? {
        AssignZeroLinked(t.elem, az.target);
      }
    }
    var (t1, x1) := if t.TPtr? then (t.elem, az.target) else (t, az);
    var inner :=
      if t1 == TKnown(KnownType.Buffer) then Bound(VBuffer(bs), None)
      else StringBindImpl(env, t1, x1, StringOf(bs));
    if t.TPtr? then Bound(VPtr(inner.value), inner.err) else inner
  }

  // ---------------------------------------------------------------------
  // Properties

  /** For a slice destination and a sequence input, the bound slice has the
      input's length and element i is bound from input element i; a failing
      element aborts with its index and assigns nothing. */
  lemma ScalarSlice(env: Env, t: GoType, x: Value, v: Input)
    requires t.TSlice? && IsSliceInput(v)
    ensures var b := ScalarLeaf(env, t, x, v);
      var ins := SliceInputs(v);
      (b.err.None? ==> (b.value.VSlice? && |b.value.elems| == |ins|
         && forall j :: 0 <= j < |ins| ==> ScalarBindImpl(env, t.elem, Zero(t.elem), ins[j]) == Bound(b.value.elems[j], None)))
      && (b.err.Some? ==> (b.value == x && b.err.value.SliceBindingError? && b.err.value.value == v
         && 0 <= b.err.value.index < |ins|
         && ScalarBindImpl(env, t.elem, Zero(t.elem), ins[b.err.value.index]).err == Some(b.err.value.inner)
         && forall j :: 0 <= j < b.err.value.index ==> ScalarBindImpl(env, t.elem, Zero(t.elem), ins[j]).err.None?))
  {
  }

  /** A slice destination given a non-sequence input is an error. */
  lemma ScalarSliceNotSequence(env: Env, t: GoType, x: Value, v: Input)
    requires t.TSlice? && !IsSliceInput(v)
    ensures ScalarLeaf(env, t, x, v) == Bound(x, Some(ValueBindingError(v, "slice", None)))
  {
  }

  /** A map input of the destination's own type is copied entry by entry. */
  lemma ScalarMapSameType(env: Env, t: GoType, x: Value, v: Input)
    requires t.TMap? && IsMapInput(v) && v.t == t
    requires DistinctKeys(MapEntries(v.v))
    ensures ScalarLeaf(env, t, x, v) == Bound(VMap(MapEntries(v.v)), None)
  {
    PutAllCopies([], MapEntries(v.v));
    assert [] + MapEntries(v.v) == MapEntries(v.v);
  }

  /** Any other leaf that is not a known type: a zero leaf is converted by
      kind, a leaf that already holds a value is left as it is. */
  lemma ScalarZeroFallback(env: Env, t: GoType, x: Value, v: Input)
    requires !t.TPtr? && !t.TSlice? && !Unmarshalable(t) && !t.TKnown?
    requires !(t.TMap? && IsMapInput(v))
    ensures ScalarLeaf(env, t, x, v) == if IsZero(x) then BindValue(env, t, x, v) else Bound(x, None)
  {
  }

  /** `ScalarBinder.Bind` on an input not assignable to the slot: the
      pointer chain is allocated and its leaf receives what the leaf step
      binds into the leaf as it stood after the allocation; the error is the
      leaf step's. */
  lemma ScalarWritesLeaf(env: Env, t: GoType, x: Value, v: Input)
    requires v.Dyn? && !Assignable(v.t, t)
    ensures var lb := ScalarLeaf(env, LeafType(t), LeafOf(t, AssignZero(t, x)), v);
      var b := ScalarBind(env, t, x, v);
      Linked(t, b.value) && Leaf(t, b.value) == Some(lb.value) && b.err == lb.err
  {
    var az := AssignZero(t, x);
    SetLeafThenLeaf(t, az, ScalarLeaf(env, LeafType(t), LeafOf(t, az), v).value);
  }

  /** A slot of a type the Unmarshaler hook or the known-type table
      handles is bound by them alone, before any kind dispatch. */
  lemma ScalarKnownTypeFirst(env: Env, t: GoType, x: Value, v: Input)
    requires !t.TPtr? && BindKnownType(env, t, x, v).Some?
    ensures ScalarLeaf(env, t, x, v) == BindKnownType(env, t, x, v).value
  {
  }

  /** A map input of another map type is converted entry by entry: the
      result is the map of the converted pairs, and a failure is the error
      of the first entry that does not bind, after which nothing is
      stored. */
  lemma ScalarMapConverted(env: Env, t: GoType, x: Value, v: Input)
    requires t.TMap? && IsMapInput(v) && v.t != t
    ensures var es := MapEntries(v.v);
      var b := ScalarLeaf(env, t, x, v);
      (b.err.None? <==> forall j :: 0 <= j < |es| ==> EntryBind(env, t.key, t.elem, v.t.key, v.t.elem, es[j]).Ok?)
      && (b.err.None? ==> b.value == VMap(PutAll([], BoundPairs(env, t.key, t.elem, v.t.key, v.t.elem, es))))
      && (b.err.Some? ==> (b.value == x
            && exists j :: (0 <= j < |es| && EntryBind(env, t.key, t.elem, v.t.key, v.t.elem, es[j]) == Err(b.err.value)
              && forall m :: 0 <= m < j ==> EntryBind(env, t.key, t.elem, v.t.key, v.t.elem, es[m]).Ok?)))
  {
    var es := MapEntries(v.v);
    assert es[0..] == es;
  }

  /** `StringBinder.Bind` on a string input not assignable to the slot:
      the pointer chain is allocated and its leaf receives what the leaf
      step binds; the error is the leaf step's. */
  lemma StringWritesLeaf(env: Env, t: GoType, x: Value, s: string)
    requires !Assignable(TString, t)
    ensures var lb := StringLeaf(env, LeafType(t), LeafOf(t, AssignZero(t, x)), s);
      var b := StringBind(env, t, x, StringInput(s));
      Linked(t, b.value) && Leaf(t, b.value) == Some(lb.value) && b.err == lb.err
  {
    var az := AssignZero(t, x);
    SetLeafThenLeaf(t, az, StringLeaf(env, LeafType(t), LeafOf(t, az), s).value);
  }

  /** The string binder also defers to the Unmarshaler hook and the
      known-type table first, with the input as a Go string. */
  lemma StringKnownTypeFirst(env: Env, t: GoType, x: Value, s: string)
    requires !t.TPtr? && BindKnownType(env, t, x, StringInput(s)).Some?
    ensures StringLeaf(env, t, x, s) == BindKnownType(env, t, x, StringInput(s)).value
  {
  }

  /** A string-kind leaf that is not a known type stores the input as it
      is; any other leaf that is neither a slice nor a known type goes
      through the conversion by kind. */
  lemma StringLeafFallback(env: Env, t: GoType, x: Value, s: string)
    requires !t.TPtr? && !t.TSlice? && !Unmarshalable(t) && !t.TKnown?
    ensures StringLeaf(env, t, x, s) ==
      if KindOf(t) == KString then Bound(VString(s), None) else BindValue(env, t, x, StringInput(s))
  {
  }

  /** An `int` field that already holds 5 is left unchanged without error. */
  lemma ScalarKeepsNonZero(env: Env, v: Input)
    requires v.Dyn? && !Assignable(v.t, TInt(Int))
    ensures ScalarBind(env, TInt(Int), VInt(5), v) == Bound(VInt(5), None)
  {
  }

  /** Splitting a non-empty string into a slice destination: as many
      elements as comma-separated parts, element i bound from part i. */
  lemma StringSlice(env: Env, t: GoType, x: Value, s: string)
    requires t.TSlice? && |s| > 0
    ensures var b := StringLeaf(env, t, x, s);
      var parts := TagResolvers.Split(s, ',');
      (b.err.None? ==> (b.value.VSlice? && |b.value.elems| == |parts|
         && forall j :: 0 <= j < |parts| ==> StringBindImpl(env, t.elem, Zero(t.elem), parts[j]) == Bound(b.value.elems[j], None)))
      && (b.err.Some? ==> (b.value == x && b.err.value.SliceBindingError? && b.err.value.value == StringInput(s)
         && 0 <= b.err.value.index < |parts|
         && StringBindImpl(env, t.elem, Zero(t.elem), parts[b.err.value.index]).err == Some(b.err.value.inner)
         && forall j :: 0 <= j < b.err.value.index ==> StringBindImpl(env, t.elem, Zero(t.elem), parts[j]).err.None?))
  {
  }

  /** Binding into `[]string` and joining the elements with "," gives back
      the input. */
  lemma StringSliceJoin(env: Env, x: Value, s: string)
    requires |s| > 0
    ensures var b := StringBind(env, TSlice(TString), x, StringInput(s));
      b.err.None? && b.value.VSlice?
      && (forall j :: 0 <= j < |b.value.elems| ==> b.value.elems[j].VString?)
      && TagResolvers.Join(seq(|b.value.elems|, j requires 0 <= j < |b.value.elems| => b.value.elems[j].s), ',') == s
  {
    var parts := TagResolvers.Split(s, ',');
    var r := BindStringElems(env, TString, parts, 0);
    forall j | 0 <= j < |parts|
      ensures StringBindImpl(env, TString, Zero(TString), parts[j]) == Bound(VString(parts[j]), None)
    {
    }
    StringElemsStrings(env, parts, 0);
    assert parts[0..] == parts;
    var b := StringBind(env, TSlice(TString), x, StringInput(s));
    assert b.value.elems == Strings(parts);
    assert seq(|b.value.elems|, j requires 0 <= j < |b.value.elems| => b.value.elems[j].s) == parts;
    TagResolvers.JoinSplit(s, ',');
  }

  /** A string slot receives the text as it is. */
  lemma StringIntoString(env: Env, s: string)
    ensures StringBindImpl(env, TString, Zero(TString), s) == Bound(VString(s), None)
  {
  }

  /** Texts as Go string values. */
  function Strings(ps: seq<string>): (r: seq<Value>)
    ensures |r| == |ps|
  {
    seq(|ps|, j requires 0 <= j < |ps| => VString(ps[j]))
  }

  lemma {:induction false} StringElemsStrings(env: Env, parts: seq<string>, i: nat)
    requires i <= |parts|
    ensures BindStringElems(env, TString, parts, i) == Ok(Strings(parts[i..]))
    decreases |parts| - i
  {
    if i < |parts| {
      StringElemsStrings(env, parts, i + 1);
      StringIntoString(env, parts[i]);
      var rest := Strings(parts[i + 1..]);
      var all := Strings(parts[i..]);
      forall j | 0 <= j < |all|
        ensures all[j] == ([VString(parts[i])] + rest)[j]
      {
        if j > 0 {
          assert parts[i + 1..][j - 1] == parts[i..][j];
        }
      }
      assert [VString(parts[i])] + rest == all;
      assert BindStringElems(env, TString, parts, i) == Ok([VString(parts[i])] + rest);
    } else {
      assert Strings(parts[i..]) == [];
    }
  }

  /** A string slice destination with an empty input is left unchanged. */
  lemma StringSliceEmpty(env: Env, t: GoType, x: Value)
    requires t.TSlice?
    ensures StringLeaf(env, t, x, "") == Bound(x, None)
  {
  }

  /** Every destination other than `[]byte`-assignable ones and a
      `bytes.Buffer` behind at most one pointer is bound exactly as the
      string binder binds `string(input)`. */
  lemma BytesAsString(env: Env, t: GoType, x: Value, bs: seq<Value>)
    requires t != TKnown(KnownType.Buffer) && t != TPtr(TKnown(KnownType.Buffer))
    ensures BytesBindImpl(env, t, x, bs) == StringBindImpl(env, t, x, StringOf(bs))
  {
    if t.TPtr? {
      var az := AssignZero(t, x);
      AssignZeroLinked(t.elem, az.target);
    }
  }

  /** A `bytes.Buffer` destination receives exactly the input bytes. */
  lemma BytesIntoBuffer(env: Env, x: Value, bs: seq<Value>)
    ensures BytesBindImpl(env, TKnown(KnownType.Buffer), x, bs) == Bound(VBuffer(bs), None)
    ensures BytesBindImpl(env, TPtr(TKnown(KnownType.Buffer)), x, bs) == Bound(VPtr(VBuffer(bs)), None)
  {
  }
}
